=== FILE: README.md ===
# Polygine core, modelled in Dafny

This project models the sequential, self-contained core of the Polygine game engine and
its shader build tool, and proves properties of that model. One Dafny module stands for
one source file:

- `ShaderPackager` (`shader_packager.dfy`): the build script that bundles GLSL shaders into
  C headers. It inlines `#include "…"` files, resolving each name next to the including file
  and reading every file at most once per entry file. It deletes every `#version` line that
  does not start the text, escapes the text for a C string literal, and derives the
  `SHADER_…` macro name and the `.h` output path.
- `RingBuffers` (`ring_buffer.dfy`): the byte FIFO with a front offset, wrap-around and
  growth to twice the new size.
- `HandleArrays` (`handle_array.dfy`): the dense array addressed through generation-counted
  handles, with swap-pop removal and a free list of handle slots.
- `ObjectPools` (`object_pool.dfy`): the paged free-list allocator.
- `Times` (`time.dfy`): the microsecond time value with its integer conversions, arithmetic
  and comparisons.
- `UIParsers` and `NamedColors` (`ui_parser.dfy`, `named_colors.dfy`): the attribute
  parsers for booleans, integers, anchor positions and colours, and the named-colour table.
- `UIElements` (`ui_element.dfy`): the UI element tree, covering child lists, `m_index`
  bookkeeping, reordering and the recursive visibility and transform flags.
- `TextInputs` (`text_input.dfy`): the editing state machine of the text box, covering the
  text, the cursor, the selection and the key and text handlers.
- `Profilers` (`profiler.dfy`): the profiler's per-marker intervals and interval averages.
- `Terrains` (`terrain.dfy`): the terrain tile-cache sizing and the propagation of height
  bounds up the level-of-detail quadtree.
- `Images` (`image.dfy`): pixel addressing and ownership of the pixel block, including moves.
- `Matrices` (`matrix2.dfy`): the integer 2x2 matrix algebra in both memory layouts.
- `Ecs` (`ecs.dfy`): the per-type component storage, which removes by swap-pop in step with
  the entity handle array, and the component type sets.
- `Wrappers` (`wrappers.dfy`): the `Option` and `Result` types used throughout.

Objects whose fields the source updates in place are classes with `modifies` frames and a
`Valid()` invariant. Each of their methods is stated against a pure function of the old
state, and the lemmas beside that function carry the properties. Pure text processing and
arithmetic are functions and lemmas. The source's integers are unbounded here unless their
width decides the behaviour; the cases where it does are written out.

## Model

| member | source | states |
|---|---|---|
| ShaderPackager.Find | util/shader_packager.py:27 | `str.find`: -1, or the first occurrence at or after the start, with none before it |
| ShaderPackager.OccursAtChar | util/shader_packager.py:30 | a one-character pattern occurs at `j` exactly when `s[j]` is that character |
| ShaderPackager.LineEnd | util/shader_packager.py:30 | the directive line ends at the next `\n` or at the end of the text, with no `\n` before it |
| ShaderPackager.DirectiveLine | util/shader_packager.py:28-31 | the line of a directive token spans at least the token |
| ShaderPackager.SpliceAsWritten | util/shader_packager.py:37 | as written, with no `\n` after the directive, the splice keeps the text's last character (`code[-1:]`) |
| ShaderPackager.SpliceAsWrittenKeepsStrayChar | util/shader_packager.py:30-37 | `#include "b"` without a newline becomes `B"` as written and `B` when corrected |
| ShaderPackager.SpliceIn | util/shader_packager.py:37 | the text before the directive, then the replacement, then the text from the line end |
| ShaderPackager.Splice | util/shader_packager.py:37 | the corrected splice replaces the directive up to its line end, or to the end of the text (also line 51) |
| ShaderPackager.LastLineEnd | util/shader_packager.py:30 | with no `\n` after `idx` the line ends at the end of the text |
| ShaderPackager.IncludeName | util/shader_packager.py:31 | `split('"')[1]`: none without a quote; otherwise a quote-free text that follows the first quote |
| ShaderPackager.LastSlash | util/shader_packager.py:25 | `rfind('/')`: -1 or a slash with no slash after it |
| ShaderPackager.StripTrailingSlashes | util/shader_packager.py:25 | a prefix not ending in `/` |
| ShaderPackager.DirName | util/shader_packager.py:25 | `os.path.dirname`: a prefix of the path that ends before its last component |
| ShaderPackager.Join | util/shader_packager.py:34 | `os.path.join`: ends with the second part; an absolute second part wins; otherwise the first part is a prefix |
| ShaderPackager.DirNameOfChild | util/shader_packager.py:25 | the directory of `dir/base` is `dir` |
| ShaderPackager.DirNameOfBare | util/shader_packager.py:25 | a path without `/` has the empty directory |
| ShaderPackager.IncludeResolvesNextToIncluder | util/shader_packager.py:25 | an include in `dir/base` names `dir/name` (also line 34) |
| ShaderPackager.IncludeFromTopLevel | util/shader_packager.py:25 | an include in a top-level file is looked up under its own name (also line 34) |
| ShaderPackager.StripLeading | util/shader_packager.py:43 | a suffix that does not start with white space |
| ShaderPackager.StripTrailing | util/shader_packager.py:43 | a prefix that does not end with white space |
| ShaderPackager.Strip | util/shader_packager.py:43 | `strip()`: neither end is white space |
| ShaderPackager.StripVersionsFrom | util/shader_packager.py:46-54 | the version loop from a given search start, with the corrected splice (corrected; see Findings); `StripVersionsFromSound` and `StripVersionsFromKeeps` state what it removes and what it keeps |
| ShaderPackager.StripVersions | util/shader_packager.py:45-54 | the version loop started at `code.find('#version', 1)` (corrected; see Findings); `VersionsStripped`, `LeadingVersionKept`, `StripVersionsFromKeeps` and `StripVersionsUnchanged` state that it removes exactly the `#version` lines past the first character and keeps everything else in order |
| ShaderPackager.SpliceAsWrittenShrinks | util/shader_packager.py:48-51 | deleting a directive line as written leaves a strictly shorter text, so the loop as written ends |
| ShaderPackager.StripVersionsFromAsWritten | util/shader_packager.py:46-54 | the version loop as written, with `code[line_end:]` where `line_end` may be -1; `VersionAsWrittenKeepsStrayChar` shows what it leaves |
| ShaderPackager.StripVersionsAsWritten | util/shader_packager.py:45-54 | the version removal as written, started at index 1; `VersionAsWrittenKeepsStrayChar` shows what it leaves |
| ShaderPackager.VersionOnLastLine | util/shader_packager.py:45-48 | in `a\n#version 330` the search from 1 finds `#version` at 2 and no `\n` follows it |
| ShaderPackager.VersionAsWrittenKeepsStrayChar | util/shader_packager.py:45-54 | `a\n#version 330` is stripped to `a\n0` as written and to `a\n` when corrected |
| ShaderPackager.StripVersionsFromSound | util/shader_packager.py:45-54 | from any start past the searched part, the loop leaves no `#version` at index >= 1 and keeps the text before the start |
| ShaderPackager.SpliceAddsNoVersion | util/shader_packager.py:48-51 | deleting the line of the first `#version` creates none before it |
| ShaderPackager.VersionsStripped | util/shader_packager.py:45-54 | after the loop no `#version` stands at an index >= 1 |
| ShaderPackager.VersionNotSelfOverlapping | util/shader_packager.py:45 | a leading `#version` has no second occurrence inside it |
| ShaderPackager.LeadingVersionKept | util/shader_packager.py:45 | a `#version` at index 0 survives the loop |
| ShaderPackager.FindShift | util/shader_packager.py:45 | `find` from a position behind a prefix gives what `find` on the rest gives, moved by the prefix's length, or -1 (also line 54) |
| ShaderPackager.LineEndShift | util/shader_packager.py:48 | the line end found behind a prefix is the rest's line end moved by the prefix's length |
| ShaderPackager.SpliceShift | util/shader_packager.py:51 | deleting a directive line behind a prefix keeps the prefix in front of the deletion in the rest |
| ShaderPackager.StripVersionsFromShift | util/shader_packager.py:46-54 | the loop never changes the text in front of where it starts searching: on `p + s` from `|p| + k` it gives `p` followed by the loop on `s` from `k` |
| ShaderPackager.StripVersionsFromKeeps | util/shader_packager.py:45-54 | with no `#version` at or after the start the text is returned unchanged; otherwise the text in front of the first one is kept, the directive up to its line's `\n` (or the end) is deleted, and the rest from that `\n` goes through the loop again: exactly the directive lines go, and everything else stays in order |
| ShaderPackager.StripVersionsUnchanged | util/shader_packager.py:45-46 | text with no `#version` past its first character comes out of the loop unchanged |
| ShaderPackager.StripVersionDirectives | util/shader_packager.py:45-54 | the `while` loop computes the version stripping (corrected; see Findings) |
| ShaderPackager.ReplaceChar | util/shader_packager.py:57-59 | `replace` of a character absent from the replacement leaves none of it |
| ShaderPackager.Escape | util/shader_packager.py:57-59 | the three `replace` passes in order; `EscapeIsCharwise`, `EscapedIsOneLine` and `EscapeRoundTrip` state what they produce |
| ShaderPackager.ReplaceCharAppend | util/shader_packager.py:57-59 | `replace` distributes over concatenation |
| ShaderPackager.EscapeIsCharwise | util/shader_packager.py:57-59 | the three passes in order equal escaping each character on its own |
| ShaderPackager.EscapeOneChar | util/shader_packager.py:57-59 | `\n` becomes `\\n`, `\r` vanishes, `"` becomes `\"`, other characters stay |
| ShaderPackager.ReplaceCharAbsent | util/shader_packager.py:57-59 | `replace` of an absent character changes nothing |
| ShaderPackager.EscapedIsOneLine | util/shader_packager.py:57-58 | the escaped text holds neither `\n` nor `\r` |
| ShaderPackager.NoCharKept | util/shader_packager.py:57-59 | a character absent from text and replacement stays absent |
| ShaderPackager.EscapeRoundTrip | util/shader_packager.py:57-59 | for backslash-free text, reading the literal back gives the text without `\r` |
| ShaderPackager.EachRoundTrip | util/shader_packager.py:57-59 | the same round trip for the per-character escape |
| ShaderPackager.EscapeMergesBackslashN | util/shader_packager.py:57 | a literal backslash-n and a newline escape alike (backslashes are not escaped) |
| ShaderPackager.CardShrinks | util/shader_packager.py:16-22 | a larger loaded-set leaves no more unread files |
| ShaderPackager.CardShrinksStrictly | util/shader_packager.py:16-22 | loading an unread file leaves strictly fewer unread files |
| ShaderPackager.Resolve | util/shader_packager.py:14-61 | `read_file`: the loaded-set only grows; each file is read at most once, only if not loaded, and the set grows by exactly the files read; a new file is read first; a missing file is reported (corrected; see Findings) |
| ShaderPackager.Inline | util/shader_packager.py:27-40 | the include loop keeps the same read-once guarantees (corrected; see Findings) |
| ShaderPackager.Continue | util/shader_packager.py:37-40 | the loop after a splice keeps the read-once guarantees (corrected; see Findings) |
| ShaderPackager.ReadsOnceAfter | util/shader_packager.py:34-40 | an include's reads followed by the rest of the loop still read each file once |
| ShaderPackager.NextInclude | util/shader_packager.py:27-30 | none iff no `#include` follows; otherwise the first one and its line end (also line 40) |
| ShaderPackager.ReadsOnceCompose | util/shader_packager.py:34-40 | reads-once composes along the loop |
| ShaderPackager.ReadsOnceCons | util/shader_packager.py:20-22 | reading a new file in front of its body's reads keeps reads-once |
| ShaderPackager.After | util/shader_packager.py:34-40 | prefixing earlier reads keeps the outcome, code and set, and puts the reads in front |
| ShaderPackager.AfterAfter | util/shader_packager.py:34-40 | prefixing reads twice is prefixing their concatenation |
| ShaderPackager.ReadFile | util/shader_packager.py:14-61 | the method with both `while` loops returns exactly `Resolve` (corrected; see Findings) |
| ShaderPackager.LoopStep | util/shader_packager.py:28-40 | one pass of the include loop keeps the result equal to what remains of it |
| ShaderPackager.ResolveBody | util/shader_packager.py:16-61 | a new file: includes inlined from a loaded-set with it, then strip, version removal and escaping, with the file read first (corrected; see Findings) |
| ShaderPackager.InlineDone | util/shader_packager.py:28 | with no `#include` left the text is unchanged and nothing is read |
| ShaderPackager.InlineMalformed | util/shader_packager.py:31 | a directive without a quoted name is an error naming that line |
| ShaderPackager.InlineChildFails | util/shader_packager.py:34 | an include that fails fails the includer with the same error |
| ShaderPackager.InlineSplices | util/shader_packager.py:34-40 | a resolved include is spliced in and the search resumes after it |
| ShaderPackager.ContinueUnfolds | util/shader_packager.py:37-40 | the search resumes at `include_idx + len(include_code)` in the spliced text |
| ShaderPackager.MacroName | util/shader_packager.py:74-75 | `SHADER_` then the path with ASCII `a`-`z` upper-cased and `/`, `\` and `.` turned into `_`: no lower-case ASCII letter, slash or dot remains, and the length is kept (ASCII paths only; see Left out) |
| ShaderPackager.UpperAscii | util/shader_packager.py:74 | `upper()` on ASCII `a`-`z`, other characters unchanged (ASCII paths only; see Left out); `MacroName` states its effect |
| ShaderPackager.OutputPath | util/shader_packager.py:78 | the output path ends with the relative path plus `.h` |
| ShaderPackager.HeaderText | util/shader_packager.py:85 | the `#ifndef`/`#define`/`#endif` header around the escaped code; `HeaderHasThreeLines` states its shape |
| ShaderPackager.HeaderHasThreeLines | util/shader_packager.py:85 | the header is `#ifndef`, `#define NAME "code"`, `#endif`, and the definition stays on one line |
| ShaderPackager.JobOf | util/shader_packager.py:67-85 | an entry's output path, and its header or the error of reading it |
| ShaderPackager.Jobs | util/shader_packager.py:65 | one job per entry, in order |
| ShaderPackager.Emit | util/shader_packager.py:65-86 | the writing side of the main loop as a fold over the jobs; `EmitSucceeds`, `EmitFails` and `EmitStops` state the files it writes and the error it stops at |
| ShaderPackager.Paths | util/shader_packager.py:78 | exactly the jobs' output paths |
| ShaderPackager.EmitSucceeds | util/shader_packager.py:65-86 | without failure every entry succeeded and exactly their output paths are written |
| ShaderPackager.PathsSnoc | util/shader_packager.py:78 | one more job adds its output path |
| ShaderPackager.EmitFails | util/shader_packager.py:65-86 | a failure stops the run at the first failing entry, with exactly the earlier outputs written |
| ShaderPackager.EmitStep | util/shader_packager.py:84-86 | one more entry writes its header or stops with its error |
| ShaderPackager.EmitStops | util/shader_packager.py:65-71 | after a failure later entries change nothing |
| ShaderPackager.Bundle | util/shader_packager.py:65-86 | the main loop writes exactly what `Emit` over the entries' jobs gives (corrected; see Findings) |
| RingBuffers.Wrap | src/Core/RingBuffer.cpp:63 | an offset below twice the capacity wraps to below the capacity (also line 100) |
| RingBuffers.WrapIsMod | src/Core/RingBuffer.cpp:63 | that wrap is `% capacity` (also line 100) |
| RingBuffers.Window | src/Core/RingBuffer.cpp:41-50 | the held bytes from the front offset on: exactly `size` of them |
| RingBuffers.TakeIsPrefix | src/Core/RingBuffer.cpp:41-50 | the one or two `memcpy`s of `read` copy the first `numRead` held bytes |
| RingBuffers.AdvanceKeepsRest | src/Core/RingBuffer.cpp:53-65 | after `size -= numRead` and the front reset or advance mod capacity, the buffer holds the rest of the old bytes |
| RingBuffers.UnrollKeepsWindow | src/Core/RingBuffer.cpp:84-94 | copying from the front into a new block that then starts at 0 keeps the held bytes |
| RingBuffers.Store | src/Core/RingBuffer.cpp:99-112 | the corrected copy of new bytes at the back offset, wrapping at the end; the block keeps its length |
| RingBuffers.StoreWrapped | src/Core/RingBuffer.cpp:104-108 | two copies, the second from `data + roffset`, give the corrected store |
| RingBuffers.StoreInPlace | src/Core/RingBuffer.cpp:110-112 | a single copy that fits gives the corrected store |
| RingBuffers.StoreAsWritten | src/Core/RingBuffer.cpp:104-108 | as written: the second copy takes the first bytes of `data` again; the block keeps its length |
| RingBuffers.StoreAppends | src/Core/RingBuffer.cpp:99-112 | storing at `(front + size) % capacity` appends the data to the held bytes |
| RingBuffers.StoreAsWrittenRepeatsData | src/Core/RingBuffer.cpp:104-108 | holding 5 from offset 2 of 4 bytes and writing 7, 8, 9 reads back 5, 7, 7, 8 as written and 5, 7, 8, 9 corrected |
| RingBuffers.RotateTwo | src/Core/RingBuffer.cpp:41-50 | four bytes held from offset 2 read in wrapped order |
| RingBuffers.RingBuffer.constructor | src/Core/RingBuffer.cpp:9-16 | no block, nothing held |
| RingBuffers.RingBuffer.Size | src/Core/RingBuffer.cpp:126-129 | the number of held bytes |
| RingBuffers.RingBuffer.Capacity | src/Core/RingBuffer.cpp:133-136 | at least the size, and 0 only when empty |
| RingBuffers.RingBuffer.Read | src/Core/RingBuffer.cpp:31-68 | returns `min(max, size)` and the first that many held bytes; the rest stays held; front resets at size 0 or advances mod capacity; an empty buffer returns 0 |
| RingBuffers.RingBuffer.Write | src/Core/RingBuffer.cpp:72-113 | the data is appended to the held bytes; size grows by its length; past capacity a fresh block of twice the size starts at 0, otherwise block and front stay (corrected; see Findings) |
| RingBuffers.RingBuffer.CopyIn | src/Core/RingBuffer.cpp:98-112 | the two-or-one `memcpy` into the block performs the corrected store |
| RingBuffers.RingBuffer.Relocate | src/Core/RingBuffer.cpp:78-96 | a fresh larger block starting at 0 holds the same bytes |
| RingBuffers.RingBuffer.Clear | src/Core/RingBuffer.cpp:117-122 | nothing held, front at 0, same block and capacity |
| HandleArrays.SwapPop | include/poly/Core/HandleArray.inl:72-73 | one element fewer |
| HandleArrays.SwapPopMoves | include/poly/Core/HandleArray.inl:72-73 | every other element stays in place, the last one fills the gap, and exactly one copy of the removed element is gone |
| HandleArrays.SwapPopExample | include/poly/Core/HandleArray.inl:66-92 | removing positions 1 then 0 of 3, 1, 4, 1, 5 leaves 1, 5, 4 (test/Core.cpp:172-176) |
| HandleArrays.ChainAt | include/poly/Core/HandleArray.inl:55 | each free slot's position field points at the next free slot, the last at the slot count (also lines 86-88) |
| HandleArrays.GrowKeeps | include/poly/Core/HandleArray.inl:41-45 | a new slot pointing one past itself becomes the whole free list; live slots stay live |
| HandleArrays.ClaimKeeps | include/poly/Core/HandleArray.inl:48-60 | taking the free-list head for a new element keeps the links, makes the slot live, keeps its counter and keeps the other live slots |
| HandleArrays.ReleaseKeeps | include/poly/Core/HandleArray.inl:68-91 | after the swap-pop and relinking the freed slot heads the free list with its counter bumped; the moved element's slot names its new position; every other slot keeps its counter and stays live if it was |
| HandleArrays.HandleArray.constructor | include/poly/Core/HandleArray.inl:3-6 | empty, no slots, next free 0 |
| HandleArrays.HandleArray.WithSlots | include/poly/Core/HandleArray.inl:8-19 | `size` free slots, slot `i` pointing at `i + 1`, no elements |
| HandleArrays.HandleArray.At | include/poly/Core/HandleArray.inl:23-33 | the error is reported exactly on a counter mismatch; a current handle gives its element |
| HandleArrays.HandleArray.Size | include/poly/Core/HandleArray.inl:106-110 | elements plus free slots make up all slots |
| HandleArrays.HandleArray.Add | include/poly/Core/HandleArray.inl:37-63 | the element is appended and its handle is current and gives it; the handle takes the first free slot, or a new one; current handles keep their elements |
| HandleArrays.HandleArray.Remove | include/poly/Core/HandleArray.inl:65-92 | the data is swap-popped at the handle's position; the slot heads the free list with its counter bumped, so the handle is stale; other handles keep their elements; no other counter changes |
| HandleArrays.HandleArray.Reset | include/poly/Core/HandleArray.inl:94-102 | no elements, no slots, next free 0 |
| ObjectPools.FreshPage | src/Core/ObjectPool.cpp:236-263 | a new page is well formed with no object in use |
| ObjectPools.FirstOpen | src/Core/ObjectPool.cpp:139-149 | the page `alloc` stops at: every page before it is full and it is not (or it lies one past the list) |
| ObjectPools.AllocStep | src/Core/ObjectPool.cpp:133-175 | the slot handed out was free and is now in use on the first open page, a page is appended only when all are full, that page holds one object more and no other page changes |
| ObjectPools.FreeStep | src/Core/ObjectPool.cpp:179-209 | the freed slot heads its page's free list and is no longer in use; other pages are unchanged |
| ObjectPools.FreeListFull | src/Core/ObjectPool.cpp:236-263 | a page with no object in use has every slot free |
| ObjectPools.AllocCounts | src/Core/ObjectPool.cpp:159-164 | `alloc` puts exactly one more object in use |
| ObjectPools.FreeCounts | src/Core/ObjectPool.cpp:205-208 | `free` puts exactly one object fewer in use |
| ObjectPools.FreeThenAllocReuses | src/Core/ObjectPool.cpp:141-164 | freeing then allocating hands back the freed object and restores the pool when the pages before it are full (also lines 205-208) |
| ObjectPools.FirstOpenAt | src/Core/ObjectPool.cpp:142-149 | the first open page is characterised by all earlier pages being full and it not |
| ObjectPools.AllocKeepsPacked | src/Core/ObjectPool.cpp:133-175 | allocating on a pool filled in page order keeps it filled in page order |
| ObjectPools.FullPages | src/Core/ObjectPool.cpp:142-157 | a packed pool whose last page is full holds exactly its pages' worth of objects |
| ObjectPools.PackedPages | src/Core/ObjectPool.cpp:142-157 | a packed pool of `k` objects has the fewest pages that can hold them |
| ObjectPools.AllocFromEmpty | src/Core/ObjectPool.cpp:133-175 | `k` allocations from an empty pool fill pages in order |
| ObjectPools.PagesAfter | src/Core/ObjectPool.cpp:133-175 | `k` allocations from empty take `k / pageSize` pages rounded up |
| ObjectPools.PagesOfTest | test/Core.cpp:34-52 | with 128 objects a page, 128, 129 and 257 allocations take 1, 2 and 3 pages |
| ObjectPools.PagesOfCount | test/Core.cpp:37-52 | `n` pages are exactly the fewest that hold `k` objects of 128 a page |
| ObjectPools.ObjectPool.constructor | src/Core/ObjectPool.cpp:11-15 | no pages, object size 0, 512 objects a page |
| ObjectPools.ObjectPool.WithSizes | src/Core/ObjectPool.cpp:19-23 | no pages, the given sizes |
| ObjectPools.ObjectPool.SetObjectSize | src/Core/ObjectPool.cpp:65-71 | requires the size to hold a `void*` (the ASSERT at line 67); the size changes only while no page exists |
| ObjectPools.ObjectPool.SetPageSize | src/Core/ObjectPool.cpp:75-81 | requires a page size of at least 1 (the ASSERT at line 77); the size changes only while no page exists |
| ObjectPools.ObjectPool.NumObjects | src/Core/ObjectPool.cpp:99-112 | the loop returns the objects in use over all pages |
| ObjectPools.ObjectPool.NumPages | src/Core/ObjectPool.cpp:116-129 | the loop returns the number of pages |
| ObjectPools.ObjectPool.AllocPage | src/Core/ObjectPool.cpp:236-263 | the loop links every slot in address order |
| ObjectPools.ObjectPool.Alloc | src/Core/ObjectPool.cpp:133-175 | the walk and the append match `AllocStep`, one more object in use |
| ObjectPools.ObjectPool.Free | src/Core/ObjectPool.cpp:179-209 | a null address or a pool without pages changes nothing; otherwise the pool matches `FreeStep`, one object fewer in use |
| ObjectPools.ObjectPool.Reset | src/Core/ObjectPool.cpp:213-232 | no pages and no objects; sizes kept |
| Times.Quot | src/Core/Time.cpp:152-155 | C++ integer division: the magnitude is the truncated quotient of the magnitudes and the sign is that of the product |
| Times.FromMilliseconds | src/Core/Time.cpp:36-39 | a thousand microseconds per millisecond |
| Times.MillisecondsFit | src/Core/Time.cpp:36-39 | every 32-bit millisecond count fits a 64-bit microsecond count |
| Times.FromMicroseconds | src/Core/Time.cpp:43-46 | the time holds the given microseconds |
| Times.ToMicroseconds | src/Core/Time.cpp:71-74 | the inverse of `fromMicroseconds` |
| Times.ToMilliseconds | src/Core/Time.cpp:64-67 | the microseconds over a thousand, truncated toward zero, keeping the sign |
| Times.MillisecondsRoundTrip | src/Core/Time.cpp:36-39 | `toMilliseconds(fromMilliseconds(ms)) == ms` (also lines 64-67) |
| Times.MicrosecondsRoundTrip | src/Core/Time.cpp:43-46 | microseconds survive the trip both ways (also lines 71-74) |
| Times.TruncatesExample | include/poly/Core/Time.h:172-174 | 1051 microseconds give 1 millisecond, and -1051 give -1 |
| Times.Add | src/Core/Time.cpp:93-104 | the microseconds add |
| Times.Sub | src/Core/Time.cpp:78-89 | the microseconds subtract |
| Times.AddSubInverse | src/Core/Time.cpp:78-104 | subtraction undoes addition, addition commutes, zero is neutral |
| Times.Scale | src/Core/Time.cpp:108-126 | the microseconds are multiplied |
| Times.ScaleDistributes | src/Core/Time.cpp:93-126 | scaling distributes over addition |
| Times.Divide | src/Core/Time.cpp:152-170 | truncating division of the microseconds, sign of the product |
| Times.DivideBy | src/Core/Time.cpp:159-162 | a count over a time's microseconds, truncated toward zero |
| Times.LessIsTotalOrder | src/Core/Time.cpp:196-234 | the comparisons are a strict total order agreeing with equality |
| Times.AddPositiveIsLater | src/Core/Time.cpp:93-96 | adding a positive time gives a later time (also lines 217-220) |
| Times.Less | src/Core/Time.cpp:217-220 | `operator<` compares the microseconds; `LessIsTotalOrder` states that it is a strict total order agreeing with equality |
| UIParsers.SpaceRun | src/UI/UIParser.cpp:270 | the leading-space run `strtoul` skips: all spaces, ended by a non-space or the end |
| UIParsers.DigitRun | src/UI/UIParser.cpp:270 | the digit run `strtoul` reads: all digits of the base, ended by a non-digit or the end |
| UIParsers.StrToUL | src/UI/UIParser.cpp:270 | the value fits `unsigned long`, the end lies within the text, and no digits read means 0 at position 0 (also lines 597-616) |
| UIParsers.DigitStart | src/UI/UIParser.cpp:270 | text that starts with a digit (two for base 16) is read from its first character (also lines 597-616) |
| UIParsers.Unsigned | src/UI/UIParser.cpp:270 | the value saturates at `ULONG_MAX` and is kept as is when positive and in range |
| UIParsers.DecimalValue | src/UI/UIParser.cpp:270 | the decimal spelling of `n` spells `n` |
| UIParsers.DigitsRead | src/UI/UIParser.cpp:270 | text starting with `m` digits is read to its first non-digit, as the number those digits spell (also lines 597-616) |
| UIParsers.DigitRunTo | src/UI/UIParser.cpp:270 | the digit run ends exactly at the first non-digit |
| UIParsers.Lower | src/UI/UIParser.cpp:246-247 | each character is lowered as `tolower` does |
| UIParsers.ParseBool | src/UI/UIParser.cpp:243-261 | true exactly for "true" and false exactly for "false", in any letter case; otherwise a failure |
| UIParsers.ParseBoolCases | src/UI/UIParser.cpp:243-261 | both words read back in lower and mixed case; other words fail |
| UIParsers.ToInt32 | src/UI/UIParser.cpp:270 | the `unsigned long` stored in an `int` keeps its value modulo 2^32 |
| UIParsers.ParseInt | src/UI/UIParser.cpp:265-273 | success exactly when the digits run to the end; the stored value is a 32-bit `int` |
| UIParsers.ParseIntDecimal | src/UI/UIParser.cpp:265-273 | a number written in decimal reads back whole and unchanged |
| UIParsers.ToInt32Small | src/UI/UIParser.cpp:270 | a value below 2^31 is stored unchanged |
| UIParsers.ParseIntEmpty | src/UI/UIParser.cpp:265-273 | an empty attribute succeeds with 0 |
| UIParsers.ParseIntTrailing | src/UI/UIParser.cpp:265-273 | text after the digits fails the parse though the number is stored |
| UIParsers.ParsePosition | src/UI/UIParser.cpp:544-573 | a parsed position is the one whose name is the text |
| UIParsers.ParsePositionRoundTrip | src/UI/UIParser.cpp:544-573 | each of the nine names parses to its position, and the parse fails exactly on other text |
| UIParsers.HexField | src/UI/UIParser.cpp:596-618 | a field succeeds exactly when `strtoul` reads it to its end, and is stored in 32 bits |
| UIParsers.HexColorAsWritten | src/UI/UIParser.cpp:584-625 | a hex colour as written needs at least 7 characters |
| UIParsers.HexColorOfFields | src/UI/UIParser.cpp:596-623 | the fields read at 1, 3, 5 and 7 give the channels over 255, alpha 255 unless there are nine characters |
| UIParsers.HexColorAsWrittenTakesEight | src/UI/UIParser.cpp:591-611 | eight characters pass the length test and give a blue channel above 1, which the corrected parse refuses |
| UIParsers.HexTriple | src/UI/UIParser.cpp:610 | three hex digits read back whole |
| UIParsers.HexFieldOfDigits | src/UI/UIParser.cpp:596-618 | hex digits alone are read whole as the number they spell |
| UIParsers.HexFieldWhole | src/UI/UIParser.cpp:596-618 | a field read to its end is stored whole when it fits 32 bits |
| UIParsers.HexColor | src/UI/UIParser.cpp:584-625 | only seven or nine characters succeed, and then as the branch as written |
| UIParsers.HexColorRoundTrip | src/UI/UIParser.cpp:584-625 | `#rrggbb` reads back as the opaque colour it encodes |
| UIParsers.HexColorAlphaRoundTrip | src/UI/UIParser.cpp:584-625 | `#rrggbbaa` reads back as the colour it encodes |
| UIParsers.HexByte | src/UI/UIParser.cpp:597-601 | two hex digits read back as their byte |
| UIParsers.NamedColor | src/UI/UIParser.cpp:194-201 | succeeds exactly for a name in the table; channels in [0, 1] and alpha 1 (corrected; see Findings) |
| UIParsers.ParseColor | src/UI/UIParser.cpp:577-648 | `#` text is a hex colour only; otherwise four numbers, then three made opaque, then a name (corrected; see Findings) |
| UIParsers.ParseColorFormats | src/UI/UIParser.cpp:577-648 | a hex colour is read from its text alone and "red" falls through to the table |
| NamedColors.Either | src/UI/UIParser.cpp:194 | the first lookup that finds the name wins |
| NamedColors.Reds | src/UI/UIParser.cpp:39-47 | every red row is a byte triple |
| NamedColors.Oranges | src/UI/UIParser.cpp:49-54 | every orange row is a byte triple |
| NamedColors.Yellows | src/UI/UIParser.cpp:56-65 | every yellow row is a byte triple |
| NamedColors.Greens | src/UI/UIParser.cpp:67-85 | every green row is a byte triple |
| NamedColors.Cyans | src/UI/UIParser.cpp:87-99 | every cyan row is a byte triple |
| NamedColors.BluesAsWritten | src/UI/UIParser.cpp:101-118 | every blue row as written is a byte triple |
| NamedColors.Blues | src/UI/UIParser.cpp:101-118 | every blue row, the first key spelt right, is a byte triple |
| NamedColors.Purples | src/UI/UIParser.cpp:120-134 | every purple row is a byte triple |
| NamedColors.Pinks | src/UI/UIParser.cpp:136-141 | every pink row is a byte triple |
| NamedColors.Whites | src/UI/UIParser.cpp:143-159 | every white row is a byte triple |
| NamedColors.Grays | src/UI/UIParser.cpp:161-170 | every gray row is a byte triple |
| NamedColors.Browns | src/UI/UIParser.cpp:172-187 | every brown row is a byte triple |
| NamedColors.NamedRgbAsWritten | src/UI/UIParser.cpp:36-190 | the table as written holds byte triples |
| NamedColors.NamedRgb | src/UI/UIParser.cpp:36-190 | the corrected table holds byte triples |
| NamedColors.NamedRgbAsWrittenMissesPowderBlue | src/UI/UIParser.cpp:101 | "powder_blue" is missing from the table as written and found, as 176, 224, 230, once the key is spelt right |
| UIElements.Remove | src/UI/UIElement.cpp:280-287 | one entry fewer; entries before the place stay, later ones move down one |
| UIElements.Insert | src/UI/UIElement.cpp:339 | one entry more at the place; earlier entries stay, later ones move up one |
| UIElements.MoveTo | src/UI/UIElement.cpp:316-341 | the moved entry lands at its new place and the rest keep their order |
| UIElements.MoveToAt | src/UI/UIElement.cpp:321-340 | entries between the two places shift one toward the old place; the rest stay |
| UIElements.MoveToInverse | src/UI/UIElement.cpp:316-341 | moving back undoes a move |
| UIElements.MoveToPermutes | src/UI/UIElement.cpp:316-341 | a move keeps the same children |
| UIElements.ShiftDown | src/UI/UIElement.cpp:280-284 | each place from `a` to `b` takes the next entry, whose index drops by one; other indices stay (also lines 323-327) |
| UIElements.ShiftUp | src/UI/UIElement.cpp:331-335 | each place from `a` down to `b` takes the previous entry, whose index rises by one; other indices stay |
| UIElements.MoveChild | src/UI/UIElement.cpp:316-341 | `setIndex` on the parent's list gives the move, and every index equals its child's new position |
| UIElements.MovedInPlace | src/UI/UIElement.cpp:338-340 | writing the element at its new place after either shift completes the move with matching indices |
| UIElements.RemoveAt | src/UI/UIElement.cpp:279-287 | the child is taken out and every index still equals its child's position |
| UIElements.BelowHas | src/UI/UIElement.cpp:349-350 | each child's subtree lies in what the recursion reaches (also lines 610-613) |
| UIElements.BelowWitness | src/UI/UIElement.cpp:349-350 | whatever the recursion reaches lies in some child's subtree (also lines 610-613) |
| UIElements.SubtreeClosed | src/UI/UIElement.cpp:349-350 | a subtree holds every child of each of its members (also lines 610-613) |
| UIElements.SubtreeReached | src/UI/UIElement.cpp:349-350 | every member of a subtree other than its root is a child of another member (also lines 610-613) |
| UIElements.SubtreeElements | src/UI/UIElement.cpp:349-350 | a subtree holds only elements (also lines 610-613) |
| UIElements.AddKeepsRanked | src/UI/UIElement.cpp:262-269 | hanging a detached subtree under an element outside it keeps the child links acyclic |
| UIElements.ListReplaced | src/UI/UIElement.cpp:273-288 | replacing a parent's list by a reindexed list of its children keeps the links acyclic and consistent (also lines 316-341) |
| UIElements.RemoveChildAsWritten | src/UI/UIElement.cpp:273-288 | whenever the child's index lies inside the list the list comes back unchanged |
| UIElements.RemoveChildAsWrittenKeepsChild | src/UI/UIElement.cpp:275-277 | a child at its index stays in the list as written, while the intended guard removes it |
| UIElements.CreateKeeps | src/UI/UIElement.cpp:49-77 | a fresh element without parent or children keeps the tree well formed |
| UIElements.AddKeeps | src/UI/UIElement.cpp:262-269 | appending a detached child keeps the tree well formed |
| UIElements.AddKeepsIndexed | src/UI/UIElement.cpp:265-268 | the appended child's index is its position and other indices still match |
| UIElements.ReplaceKeeps | src/UI/UIElement.cpp:273-288 | replacing a parent's list by a reindexed list of its children keeps the tree well formed (also lines 316-341) |
| UIElements.Reorder | src/UI/UIElement.cpp:316-341 | the move keeps the tree well formed and the element's index is its new place |
| UIElements.Unlink | src/UI/UIElement.cpp:273-288 | taking a child out keeps the tree well formed and leaves the child in no list |
| UIElements.Shown | src/UI/UIElement.cpp:605-615 | visibility set on the chosen elements, every other flag and element kept |
| UIElements.ShownTwice | src/UI/UIElement.cpp:610-613 | showing two sets in turn shows their union |
| UIElements.Dirtied | src/UI/UIElement.cpp:345-351 | the transform flag set on the chosen elements, everything else kept |
| UIElements.DirtiedTwice | src/UI/UIElement.cpp:349-350 | marking two sets in turn marks their union |
| UIElements.ShownStep | src/UI/UIElement.cpp:612-613 | one more child's recursive call extends the shown part by that child's subtree |
| UIElements.DirtiedStep | src/UI/UIElement.cpp:349-350 | one more child's recursive call extends the marked part by that child's subtree |
| UIElements.ShowBelow | src/UI/UIElement.cpp:605-615 | the recursive `setVisible` sets the visibility of exactly the element's subtree |
| UIElements.DirtyBelow | src/UI/UIElement.cpp:345-351 | the recursive `markTransformDirty` marks exactly the element's subtree |
| UIElements.WithAlpha | src/UI/UIElement.cpp:546-558 | colour transparency holds exactly when alpha is below 1 by more than `FLT_EPSILON`; the element is transparent exactly when that or its texture is |
| UIElements.AlphaDecidesColor | src/UI/UIElement.cpp:546-558 | an opaque colour leaves transparency to the texture; a transparent colour makes the element transparent (also lines 798-801) |
| UIElements.PositionFromEnum | src/UI/UIElement.cpp:14-39 | left, centre and right give x of 0, 0.5 and 1; top, middle and bottom give y of 0, 0.5 and 1 |
| UIElements.PositionFromEnumInjective | src/UI/UIElement.cpp:14-39 | different positions give different points |
| UIElements.UITree.constructor | src/UI/UIElement.cpp:49-77 | an empty tree |
| UIElements.UITree.Create | src/UI/UIElement.cpp:49-77 | a new element with no parent, no children, index 0, visible, nothing dirty or transparent; others unchanged |
| UIElements.UITree.AddChild | src/UI/UIElement.cpp:262-269 | the child is appended to the parent's list, names it as parent, takes its position as index; the tree stays well formed |
| UIElements.UITree.RemoveChild | src/UI/UIElement.cpp:273-288 | a listed child is taken out and later children move down with their indices; otherwise nothing changes; the tree stays well formed (corrected; see Findings) |
| UIElements.UITree.SetIndex | src/UI/UIElement.cpp:316-341 | with a parent and an index inside its list the element moves there and the siblings between shift, indices following; otherwise nothing changes |
| UIElements.UITree.MoveToFront | src/UI/UIElement.cpp:299-304 | with a parent, the parent's list becomes the old one with the element moved to its end (the siblings keep their order), the element's index is the last place, every other list stays and the indices outside that list stay; without a parent nothing changes |
| UIElements.UITree.MoveToBack | src/UI/UIElement.cpp:308-312 | with a parent, the parent's list becomes the old one with the element moved to its start (the siblings keep their order), the element's index is 0, every other list stays and the indices outside that list stay; without a parent nothing changes |
| UIElements.UITree.SetVisible | src/UI/UIElement.cpp:605-615 | the element, and with `recursive` its whole subtree, take the visibility; nothing else changes |
| UIElements.UITree.MarkTransformDirty | src/UI/UIElement.cpp:345-351 | the element and its whole subtree are marked; nothing else changes |
| UIElements.UITree.SetColor | src/UI/UIElement.cpp:546-558 | the element is transparent afterwards exactly when the alpha is below 1 by more than `FLT_EPSILON` or its texture is transparent |
| UIElements.UITree.SetTransparent | src/UI/UIElement.cpp:619-622 | the element is transparent afterwards exactly when the flag is set or its colour is transparent |
| UIElements.UITree.IsVisible | src/UI/UIElement.cpp:791-794 | `isVisible`: the element's visibility flag; `SetVisible` states how it changes |
| UIElements.UITree.IsTransparent | src/UI/UIElement.cpp:798-801 | `isTransparent`: the colour flag or the texture flag; `SetColor`, `SetTransparent` and `AlphaDecidesColor` state what makes it true |
| TextInputs.Prefix | src/UI/TextInput.cpp:499 | `substr(0, n)` gives the first `n` characters, or all when there are fewer (also lines 564, 596) |
| TextInputs.Suffix | src/UI/TextInput.cpp:499 | `substr(pos)` fails exactly past the end, and otherwise completes the prefix to the text (also lines 564, 596) |
| TextInputs.Substring | src/UI/TextInput.cpp:490 | `substr(pos, n)` fails exactly past the end, and otherwise gives at most `n` characters from `pos` (also line 517) |
| TextInputs.Collapse | src/UI/TextInput.cpp:125-145 | the cursor and the anchor go to the position and nothing is selected; the text stays |
| TextInputs.Select | src/UI/TextInput.cpp:170-184 | exactly `[start, end)` is selected, the cursor at its end and the anchor at its start |
| TextInputs.ShiftMove | src/UI/TextInput.cpp:453-467 | the cursor steps one place within the text and the selection spans the anchor and the cursor |
| TextInputs.Replace | src/UI/TextInput.cpp:497-505 | fails exactly when the selection ends past the text; otherwise the selection becomes the inserted text and the cursor sits just after it, nothing selected (also lines 520-527, 576-580, 623-630) |
| TextInputs.ArrowLeft | src/UI/TextInput.cpp:537-544 | a selection collapses to its start; otherwise the cursor steps back unless at 0 |
| TextInputs.ArrowRight | src/UI/TextInput.cpp:546-553 | a selection collapses to its end; otherwise the cursor steps on unless at the end |
| TextInputs.BackspaceEdit | src/UI/TextInput.cpp:555-585 | with nothing selected the character before the cursor goes and the cursor steps back; a selection is removed; nothing happens at 0 |
| TextInputs.DeleteEdit | src/UI/TextInput.cpp:587-614 | with nothing selected the character at the cursor goes and the cursor stays; a selection is removed; nothing happens at the end |
| TextInputs.Selected | src/UI/TextInput.cpp:490 | the copied text is exactly the selected characters (also line 517) |
| TextInputs.TypeThenBackspace | src/UI/TextInput.cpp:555-585 | typing a character and then Backspace restores the state (also lines 620-634) |
| TextInputs.CutThenPaste | src/UI/TextInput.cpp:494-531 | cutting a selection and pasting the cut text restores the text with the cursor at the selection's end |
| TextInputs.DeleteIsRightThenBackspace | src/UI/TextInput.cpp:546-614 | Delete removes what Right then Backspace removes |
| TextInputs.EditsFit | src/UI/TextInput.cpp:436-634 | every edit of a state inside its text succeeds and stays inside its text |
| TextInputs.ArrowsInverse | src/UI/TextInput.cpp:537-553 | Left undoes Right and Right undoes Left where there is room |
| TextInputs.ShiftMoveInverse | src/UI/TextInput.cpp:453-467 | Shift+Right then Shift+Left restores the state, and the other way round |
| TextInputs.ConstructedAsWritten | src/UI/TextInput.cpp:15-44 | the constructed state is consistent exactly when the uninitialised anchor happens to be 0 |
| TextInputs.UninitializedAnchorBreaksTyping | src/UI/TextInput.cpp:15-44 | with a leftover anchor of 3, Shift+Right on the empty text selects past its end and the next typed character fails; with anchor 0 it succeeds (also lines 453-467, 620-625) |
| TextInputs.TextInput.constructor | src/UI/TextInput.cpp:15-44 | empty text, cursor, selection and anchor at 0, Enter as submit key |
| TextInputs.TextInput.SetValue | src/UI/TextInput.cpp:78-87 | a different value replaces the text and is reported; the same value changes nothing |
| TextInputs.TextInput.SetTextCursorPosition | src/UI/TextInput.cpp:125-145 | the state becomes `Collapse` of the old state |
| TextInputs.TextInput.SetTextSelection | src/UI/TextInput.cpp:170-184 | the state becomes `Select` of the old state |
| TextInputs.TextInput.SetString | src/UI/TextInput.cpp:502 | the text is replaced and reported; nothing else changes (also lines 524, 565, 577, 597, 606, 627) |
| TextInputs.TextInput.ReplaceSelection | src/UI/TextInput.cpp:497-508 | succeeds exactly when `Replace` does, and then gives its state and reports the text; otherwise nothing changes (also lines 620-634) |
| TextInputs.TextInput.OnTextInput | src/UI/TextInput.cpp:620-634 | the typed character replaces the selection as `Replace` says |
| TextInputs.TextInput.PressBackspace | src/UI/TextInput.cpp:555-585 | the state follows `BackspaceEdit`, and a change is reported |
| TextInputs.TextInput.PressDelete | src/UI/TextInput.cpp:587-614 | the state follows `DeleteEdit`, and a change is reported |
| TextInputs.TextInput.ShiftKey | src/UI/TextInput.cpp:451-479 | Left and Right follow `ShiftMove`; other keys change nothing |
| TextInputs.TextInput.ControlKey | src/UI/TextInput.cpp:481-533 | C copies the selection, V pastes over it, X cuts a non-empty selection; other keys change nothing |
| TextInputs.TextInput.PlainKey | src/UI/TextInput.cpp:535-615 | Left and Right follow the arrow functions, Backspace and Delete the erase functions; other keys change nothing |
| TextInputs.TextInput.OnKeyEvent | src/UI/TextInput.cpp:436-616 | releases are ignored; a press of the submit key reports the text; Shift, then Control on a press, then no modifier decides the edit |
| Profilers.MarkerName | src/Core/Profiler.cpp:153 | the key is the label, a colon and the function name (also line 199) |
| Profilers.MarkerNameInjective | src/Core/Profiler.cpp:153 | without a colon in the label, different markers get different keys (also line 199) |
| Profilers.MarkerNamesCollide | src/Core/Profiler.cpp:153 | a colon in the label lets two markers share one key (also line 199) |
| Profilers.Fresh | src/Core/Profiler.cpp:11-13 | a new entry holds its label and function, no times and no runs (also lines 163-166) |
| Profilers.Recorded | src/Core/Profiler.cpp:173-189 | a full interval of ten is averaged onto the averages and emptied before the time joins it |
| Profilers.FullStep | src/Core/Profiler.cpp:173-189 | one more time onto a full interval keeps the entry's shape: the interval becomes the newest time and the closed interval becomes the next average |
| Profilers.PartialStep | src/Core/Profiler.cpp:187-189 | one more time onto an interval that is not full keeps the entry's shape: it joins the interval and the averages stay |
| Profilers.HistoryShape | src/Core/Profiler.cpp:173-189 | after `n` times the interval holds the last `(n - 1) % 10 + 1` and each average is the truncated mean of ten consecutive earlier times |
| Profilers.Profiler.constructor | src/Core/Profiler.cpp:6 | no entries |
| Profilers.Profiler.IntervalSum | src/Core/Profiler.cpp:177-179 | the loop adds up the interval |
| Profilers.Profiler.AddMarker | src/Core/Profiler.cpp:148-190 | the marker's entry, made if missing, records the time as `Recorded` says; every other entry stays; the interval holds one to ten times |
| Profilers.Profiler.GetData | src/Core/Profiler.cpp:194-219 | the entry under the key, made empty and stored when missing; nothing else changes |
| Profilers.History | src/Core/Profiler.cpp:173-189 | the entry after recording a sequence of times in order on a new entry; `HistoryShape` states the interval and averages it holds |
| Terrains.FloorSqrt | src/Graphics/Terrain.cpp:47 | the whole square root: its square is at most `n` and the next square exceeds `n` |
| Terrains.BelowSqrt | src/Graphics/Terrain.cpp:47-49 | a number whose square is at most `n` is at most the whole square root |
| Terrains.SplitByFactor | src/Graphics/Terrain.cpp:56-57 | the found factor splits the count into two sides, the factor the shorter |
| Terrains.FoundFactor | src/Graphics/Terrain.cpp:44-53 | the inner loop's last divisor is the largest factor up to the square root |
| Terrains.NoFactor | src/Graphics/Terrain.cpp:44-53 | a count whose inner loop finds no divisor has no factor up to its square root |
| Terrains.EvenHasFactor | src/Graphics/Terrain.cpp:41-61 | of two consecutive counts from 4 on one has the factor 2, so the outer loop ends |
| Terrains.EstimateCacheSize | src/Graphics/Terrain.cpp:33-65 | the rectangle holds the required tiles, its sides are the count over its largest factor up to the square root and that factor, and no smaller count from the required one has such a factor |
| Terrains.Widen | src/Graphics/Terrain.cpp:966-977 | the bounds grow to cover the new ones; they change exactly when the new ones stick out |
| Terrains.HeightsBounded | src/Graphics/Terrain.cpp:937-953 | the scan's minimum and maximum bound every height and are heights (or the start values) |
| Terrains.TileBounds | src/Graphics/Terrain.cpp:937-953 | the loop finds the minimum and the maximum height |
| Terrains.SetCell | src/Graphics/Terrain.cpp:966 | exactly one tile of one level changes |
| Terrains.Propagated | src/Graphics/Terrain.cpp:955-984 | the levels keep their shape |
| Terrains.UpStaysInLevel | src/Graphics/Terrain.cpp:981-983 | halving the tile coordinates stays inside the coarser level |
| Terrains.PropagatedWidens | src/Graphics/Terrain.cpp:955-984 | every tile keeps its old range, the start tile covers the new bounds, and only ancestors of the start change |
| Terrains.PropagatedNestedBut | src/Graphics/Terrain.cpp:955-984 | when only the start tile's children stick out, propagation makes every tile lie within its parent again |
| Terrains.PropagatedKeepsNested | src/Graphics/Terrain.cpp:955-984 | propagation keeps every tile's bounds within its parent tile's bounds |
| Terrains.Terrain.UpdateHeightBounds | src/Graphics/Terrain.cpp:927-985 | the levels become the propagation of the tile's height bounds from the finest level |
| Terrains.Required | src/Graphics/Terrain.cpp:33-36 | the worst-case tile count: 1, plus 4 with at least one level, plus 9 per level past the second; `EstimateCacheSize` states that its rectangle holds this many tiles |
| Images.Wrap32 | src/Graphics/Image.cpp:284 | a `Uint32` result is below 2^32 and equals the value when it fits (also line 416) |
| Images.TypeSize | src/Graphics/Image.cpp:277-281 | 2 bytes for `Uint16`, 4 for `Float`, 1 otherwise (also lines 410-414) |
| Images.Unsigned | src/Graphics/Image.cpp:268-272 | signed 8- and 16-bit types become their unsigned variants of the same size; other types stay |
| Images.IndexBelowCount | src/Graphics/Image.cpp:408 | an in-bounds pixel's row-major index lies below the pixel count (also line 416) |
| Images.IndexInjective | src/Graphics/Image.cpp:416 | different pixels have different row-major indices |
| Images.PixelWithin | src/Graphics/Image.cpp:284 | when the byte size fits 32 bits the offset is the exact product and the pixel's bytes end within the image (also line 416) |
| Images.PixelsDisjoint | src/Graphics/Image.cpp:416 | different pixels have byte ranges that do not overlap |
| Images.Buffer.Zeroed | src/Graphics/Image.cpp:285-286 | a live block of the given size, every byte 0 |
| Images.Image.constructor | src/Graphics/Image.cpp:17-26 | no data, no size, unknown type, owning nothing |
| Images.Image.Free | src/Graphics/Image.cpp:243-249 | an owned block is released and a borrowed one is left alone; `m_data` becomes null; nothing else changes |
| Images.Image.Create | src/Graphics/Image.cpp:253-291 | the old owned block is released; the fields are set with the type made unsigned; given data is kept with the given ownership; without data a zeroed owned block of the image's byte size is made |
| Images.Image.GetPixel | src/Graphics/Image.cpp:406-417 | the offset is `(r * w + c) * channels * typeSize` in `Uint32` arithmetic, and the pixel's bytes end within the image when its size fits 32 bits |
| Images.Image.Moved | src/Graphics/Image.cpp:125-139 | the new image takes every field and the source is left empty |
| Images.Image.MoveAssign | src/Graphics/Image.cpp:143-166 | unless it is the same image, the old owned block is released, every field is taken and the source is left empty |
| Images.DataSize | src/Graphics/Image.cpp:277-284 | `w * h * c * typeSize` with each product wrapped to 32 bits; `PixelWithin` states that it is the exact product when that fits |
| Images.PixelOffset | src/Graphics/Image.cpp:410-416 | `(r * w + c) * channels * typeSize` with each step wrapped to 32 bits; `PixelWithin` and `PixelsDisjoint` state that a pixel's bytes lie inside the image and apart from every other pixel's |
| Matrices.Elements | include/poly/Math/Matrix2.inl:20-26 | the two vectors hold the four elements in order |
| Matrices.IdentityIsUnit | include/poly/Math/Matrix2.inl:8-18 | the default matrix is `Matrix2(1)` and leaves matrices and vectors unchanged under every product in both layouts (also lines 193-243) |
| Matrices.DiagonalScales | include/poly/Math/Matrix2.inl:14-18 | multiplying by `Matrix2(s)` on either side scales by `s` (also lines 181-211) |
| Matrices.AddSubInverse | include/poly/Math/Matrix2.inl:139-179 | addition commutes and subtraction undoes it; negation is subtraction from zero; the scalar forms agree with adding a constant matrix |
| Matrices.QuotExact | include/poly/Math/Matrix2.inl:245-261 | truncating division of an exact multiple gives the factor back |
| Matrices.DivUndoesMul | include/poly/Math/Matrix2.inl:181-191 | elementwise division undoes `elem` and division by a scalar undoes scaling (also lines 245-269) |
| Matrices.ElemCommutes | include/poly/Math/Matrix2.inl:265-269 | `elem` commutes and has the all-ones matrix as unit |
| Matrices.LayoutsMirror | include/poly/Math/Matrix2.inl:193-243 | the column-major product is the row-major one with the operands swapped, and likewise for vectors |
| Matrices.ProductAssociative | include/poly/Math/Matrix2.inl:193-211 | both matrix products are associative |
| Matrices.ProductComposes | include/poly/Math/Matrix2.inl:193-227 | a product acts on a vector as its factors one after the other |
| Matrices.DetMultiplicative | include/poly/Math/Matrix2.inl:193-211 | the determinant of a product is the product of the determinants (also lines 271-275) |
| Matrices.TransposeInvolution | include/poly/Math/Matrix2.inl:287-294 | transposing twice is the identity, reverses products and turns `m * v` into `v * m` |
| Matrices.InverseInverts | include/poly/Math/Matrix2.inl:277-285 | with the adjugate and a determinant of 1 or -1 the inverse inverts on both sides in both layouts |
| Matrices.InverseTruncates | include/poly/Math/Matrix2.inl:280 | any other determinant truncates `1 / det` to 0, so the integer inverse is zero |
| Matrices.InverseAsWrittenTransposed | include/poly/Math/Matrix2.inl:281-284 | the inverse as written is the transpose of the true inverse |
| Matrices.InverseAsWrittenFails | include/poly/Math/Matrix2.inl:277-285 | for (3, 1, 4, 1) `a * inverse(a)` as written is (13, 3, -9, -2), not the identity the test expects (test/Math.cpp:407-411); with the adjugate it is the identity |
| Matrices.RowMajorAsWrittenFails | include/poly/Math/Matrix2.inl:204-209 | for the test's (3, 1, 4, 1) and (5, 9, 2, 6) the row-major product as written gives 36 and 30 where the test expects 33 and 42 (test/Math.cpp:371-374); the corrected product gives them |
| Matrices.RowMajorAsWrittenDiffers | include/poly/Math/Matrix2.inl:206 | the row-major product as written is right exactly when `b.x.y == b.y.y` or both off-diagonal elements of `a` are 0 (also line 208) |
| Matrices.TestValues | test/Math.cpp:348-392 | the sum, difference, matrix-vector products, quotient, determinant and transpose of the test's matrices |
| Matrices.Identity | include/poly/Math/Matrix2.inl:8-12 | the default constructor: 1 on the diagonal, 0 elsewhere; `IdentityIsUnit` states that it is the unit of every product |
| Matrices.Diagonal | include/poly/Math/Matrix2.inl:14-18 | `Matrix2(s)`: `s` on the diagonal, 0 elsewhere; `DiagonalScales` states that multiplying by it scales by `s` |
| Matrices.Zero | include/poly/Math/Matrix2.inl:14-18 | `Matrix2(0)`; `AddSubInverse` states that negation is subtraction from it |
| Matrices.Quot | include/poly/Math/Matrix2.inl:245-261 | C++ integer division, truncating toward zero; `QuotExact` states that an exact multiple divides back to its factor |
| Matrices.Neg | include/poly/Math/Matrix2.inl:139-143 | unary minus on every element; `AddSubInverse` states that it equals `Zero() - m` |
| Matrices.Add | include/poly/Math/Matrix2.inl:157-161 | element-by-element sum; `AddSubInverse` states that it commutes and that `Sub` undoes it |
| Matrices.Sub | include/poly/Math/Matrix2.inl:175-179 | element-by-element difference; `AddSubInverse` states that it undoes `Add` |
| Matrices.AddScalar | include/poly/Math/Matrix2.inl:145-155 | `a + s` and `s + a` add `s` to all four elements, not only the diagonal; `AddSubInverse` states that this is adding the all-`s` matrix |
| Matrices.SubScalar | include/poly/Math/Matrix2.inl:163-167 | `a - s` subtracts `s` from all four elements; `AddSubInverse` states that it undoes `AddScalar` |
| Matrices.ScalarSub | include/poly/Math/Matrix2.inl:169-173 | `s - a` subtracts every element from `s`; `AddSubInverse` relates it to `Neg` and `AddScalar` |
| Matrices.Scale | include/poly/Math/Matrix2.inl:181-191 | `a * s` and `s * a` multiply every element by `s`; `DiagonalScales` states that this is a product with `Matrix2(s)` |
| Matrices.DivScalar | include/poly/Math/Matrix2.inl:245-249 | `a / s` divides every element by `s`, truncating; `DivUndoesMul` states that it undoes `Scale` |
| Matrices.NonZero | include/poly/Math/Matrix2.inl:251-261 | no element is zero: what the element-by-element divisions need to be defined |
| Matrices.ScalarDiv | include/poly/Math/Matrix2.inl:251-255 | `s / a` divides `s` by every element; `ScalarDivIsDiv` relates it to `Div` |
| Matrices.ScalarDivIsDiv | include/poly/Math/Matrix2.inl:251-261 | `s / a` is the element-by-element quotient of the all-`s` matrix by `a`, and dividing an all-`q * k` matrix by the all-`k` matrix gives the all-`q` matrix |
| Matrices.Div | include/poly/Math/Matrix2.inl:257-261 | `a / b` divides element by element; `DivUndoesMul` states that it undoes `elem` |
| Matrices.Elem | include/poly/Math/Matrix2.inl:265-269 | `elem(a, b)`, the element-by-element product; `ElemCommutes` states that it commutes and has the all-ones unit |
| Matrices.MulColumnMajor | include/poly/Math/Matrix2.inl:193-202 | the product with `USE_COLUMN_MAJOR`; `ProductAssociative`, `IdentityIsUnit` and `LayoutsMirror` state its algebra |
| Matrices.MulRowMajorAsWritten | include/poly/Math/Matrix2.inl:203-209 | the row-major product as the source writes it; `RowMajorAsWrittenFails` and `RowMajorAsWrittenDiffers` state where it goes wrong |
| Matrices.MulRowMajor | include/poly/Math/Matrix2.inl:203-209 | the row-major product as rows of `a` times columns of `b` (corrected; see Findings); `ProductAssociative` and `LayoutsMirror` state its algebra |
| Matrices.MulVecColumnMajor | include/poly/Math/Matrix2.inl:213-221 | `m * v` with `USE_COLUMN_MAJOR`; `ProductComposes` states that a product acts as its factors in turn |
| Matrices.MulVecRowMajor | include/poly/Math/Matrix2.inl:222-227 | `m * v` without `USE_COLUMN_MAJOR`; `ProductComposes` and `TransposeInvolution` relate it to the other forms |
| Matrices.VecMulColumnMajor | include/poly/Math/Matrix2.inl:229-237 | `v * m` with `USE_COLUMN_MAJOR`; `LayoutsMirror` states that it is the row-major `m * v` |
| Matrices.VecMulRowMajor | include/poly/Math/Matrix2.inl:238-243 | `v * m` without `USE_COLUMN_MAJOR`; `TransposeInvolution` states that it is `transpose(m) * v` |
| Matrices.Det | include/poly/Math/Matrix2.inl:271-275 | `determinant`; `DetMultiplicative` states that it is multiplicative |
| Matrices.Transpose | include/poly/Math/Matrix2.inl:287-294 | `transpose` swaps the off-diagonal elements; `TransposeInvolution` states that it is an involution that reverses products |
| Matrices.InverseAsWritten | include/poly/Math/Matrix2.inl:277-285 | `inverse` as the source writes it; `InverseAsWrittenTransposed` and `InverseAsWrittenFails` state that it is the transposed inverse |
| Matrices.Inverse | include/poly/Math/Matrix2.inl:277-285 | the adjugate times the truncated `1 / det` (corrected; see Findings); `InverseInverts` and `InverseTruncates` state when it inverts |
| Ecs.SwapPopAll | include/poly/Engine/Ecs.inl:130-135 | swap-popping `k` valid positions in turn leaves exactly `k` fewer elements |
| Ecs.Victims | include/poly/Engine/Ecs.inl:130-135 | the swap-pops take out one element per position |
| Ecs.SwapPopAllSnoc | include/poly/Engine/Ecs.inl:130-135 | one more position stays valid while it is below the remaining length, and its swap-pop applies to what the earlier ones left |
| Ecs.SwapPopAllMultiset | include/poly/Engine/Ecs.inl:130-135 | the survivors plus the removed elements are exactly the original elements: nothing is lost, duplicated or made up |
| Ecs.Zip | include/poly/Engine/Ecs.inl:55-78 | the entity list and a component list, paired position by position |
| Ecs.SwapPopAllZip | include/poly/Engine/Ecs.inl:55-78 | swap-popping the entity list and the component list at the same positions is swap-popping their pairs |
| Ecs.PairsKept | include/poly/Engine/Ecs.inl:55-78 | after the same removals from both lists, every remaining (entity, component) pair was a pair before |
| Ecs.SwapPopAllExample | include/poly/Engine/Ecs.inl:130-135 | removing position 0 twice from `[3, 1, 4]` takes out 3, then the 4 that replaced it, and leaves `[1]` |
| Ecs.Group | include/poly/Engine/Ecs.inl:11-12 | the vector of scene `s`, group `g`; a missing scene or group reads as empty |
| Ecs.SetGroup | include/poly/Engine/Ecs.inl:114 | writing one group's vector changes that group only and keeps the number of scenes |
| Ecs.Grown | include/poly/Engine/Ecs.inl:107-111 | empty scene slots are pushed until scene `s` exists; the existing slots stay |
| Ecs.CreatedGroups | include/poly/Engine/Ecs.inl:100-119 | creating components makes the scene exist, appends `num` copies to the group and leaves every other group as it was |
| Ecs.Touched | include/poly/Engine/Ecs.inl:144 | indexing a group of an existing scene inserts it when missing without changing the contents of any group |
| Ecs.Lookup | include/poly/Engine/Ecs.inl:138-146 | a component exactly when the scene exists and the position is below the group's size, and then the one at that position |
| Ecs.LookupAfterCreate | include/poly/Engine/Ecs.inl:100-146 | after creation the old components keep their positions, the new copies follow them and nothing lies past them |
| Ecs.ComponentData.constructor | include/poly/Engine/Ecs.inl:11-12 | a new store has no scene slots |
| Ecs.ComponentData.CreateComponents | include/poly/Engine/Ecs.inl:100-119 | the new state is the storage with the scene grown and `num` copies appended to the group |
| Ecs.ComponentData.RemoveComponents | include/poly/Engine/Ecs.inl:121-136 | on an existing scene, the group swap-pops the positions in order and no other group changes |
| Ecs.ComponentData.GetComponent | include/poly/Engine/Ecs.inl:138-146 | returns the looked-up component or none; on an existing scene the group is inserted when missing, and no group's contents change |
| Ecs.ComponentData.HasGroup | include/poly/Engine/Ecs.inl:155-162 | true exactly when the scene exists and holds the group; a group that is not there reads as empty |
| Ecs.ComponentData.Cleanup | include/poly/Engine/Ecs.inl:165-172 | for an existing scene slot its group map becomes empty, so `hasGroup` is false for every group of the scene; other scenes and the number of slots stay, and an out-of-range scene changes nothing |
| Ecs.EntityGroup.constructor | src/Engine/Ecs.cpp:32-36 | the group keeps the given scene and group ids and, from any entity ids and component group of equal length (see Left out), runs them side by side |
| Ecs.EntityGroup.DenseIndex | include/poly/Engine/Ecs.inl:69 | for a live handle, the dense position holding that entity |
| Ecs.EntityGroup.RemoveEntities | include/poly/Engine/Ecs.inl:55-78 | the ids are removed from the handle array and their components swap-popped at the same positions, so entities and components stay side by side, every surviving pair was a pair before, the removed handles go stale, the other live handles keep their entities, and no other group changes |
| Ecs.EntityGroup.GetComponent | include/poly/Engine/Ecs.inl:80-84 | the component at the handle's dense position; for a live handle it exists and is paired with that entity |
| Ecs.ComponentTypeSet.constructor | include/poly/Engine/Ecs.h:303 | a new set is empty |
| Ecs.ComponentTypeSet.Set | include/poly/Engine/Ecs.inl:314-322 | the set becomes exactly the given type ids |
| Ecs.ComponentTypeSet.Create | include/poly/Engine/Ecs.inl:306-312 | a new set holding exactly the given type ids |
| Ecs.ComponentTypeSet.Add | include/poly/Engine/Ecs.inl:324-329 | the type id joins the set |
| Ecs.ComponentTypeSet.Remove | include/poly/Engine/Ecs.inl:331-336 | the type id leaves the set; the rest stays |
| Ecs.ComponentTypeSet.Has | include/poly/Engine/Ecs.inl:338-342 | true exactly when the type id is in the set |
| Ecs.Created | include/poly/Engine/Ecs.inl:100-119 | the storage after `createComponents`; `CreatedGroups` and `LookupAfterCreate` state that it grows the scene slots, appends the copies and keeps every other group |
| Ecs.Removed | include/poly/Engine/Ecs.inl:121-136 | the storage after `removeComponents`: the group swap-pops the positions in turn; `SwapPopAll` and `SwapPopAllMultiset` state that it loses exactly those elements |

## Left out

General:
- Integer widths: `Uint16`, `Uint32` and `Int64` values are unbounded integers unless their width decides what the code does. The image byte sizes wrap at 2^32; the `Time` arithmetic requires its results to fit `Int64`, because signed overflow is undefined in C++.
- Floating point is not modelled. Where a listed operation yields a `float` (colour channels, the anchor points of `getPositionFromEnum`), the model uses exact `real`s.
- `ASSERT`s of the source become `requires` clauses; they are what the source demands of its callers.
- Mutexes, clocks, windows, the clipboard, file I/O and the allocator are outside the model. Where a handler needs one of them, the value comes in as a parameter.

Shader bundler (`util/shader_packager.py`):
- `glob`, `open`, `os.makedirs` and `print` are left out. The file system is a map from path to each file's text as `f.read()` returns it in text mode: universal-newline translation has already turned `\r\n` and a lone `\r` into `\n`, so the map's texts hold no `\r`, and on them the `replace('\r', '')` pass changes nothing (`ShaderPackager.ReplaceCharAbsent`). A file's raw bytes and that translation are not modelled. The written headers are returned as a map from output path to text.
- Every file is escaped by its own `read_file` call, included files too, and the includer escapes the spliced text again. The model keeps this as the source has it: a `"` in an included file reaches the header as `\\"`, and an included file that starts with `#version` is found by the includer's version search, whose line then runs to the includer's next real `\n`, so the included text is deleted with it. No bundler that escapes once, at the top level, is modelled.
- ShaderPackager.EscapeRoundTrip: holds for text without backslashes only. The escaping leaves a backslash alone, so `\` followed by `n` and a newline escape to the same text; `ShaderPackager.EscapeMergesBackslashN` proves this.
- ShaderPackager.MacroName: upper-cases the ASCII letters `a`-`z` only, and its length ensures holds for such paths only. Python's `str.upper` also maps non-ASCII letters, some of them to several characters (`ß` becomes `SS`), so for a path with such a letter the source's name is longer than the model's. Unicode case mapping is not modelled.
- ShaderPackager.UpperAscii: carries that ASCII-only upper-casing: it maps `a`-`z` to `A`-`Z` and leaves every other character, non-ASCII letters included, as it is.

Ring buffer (`src/Core/RingBuffer.cpp`):
- RingBuffers.RingBuffer.Write: requires a non-empty block or non-empty data. On an unallocated buffer, an empty write computes its back offset modulo a capacity of 0.
- The heap block is a `seq` that the methods reassign. The aliasing of the raw addresses is not modelled.

Handle array (`include/poly/Core/HandleArray.inl`):
- HandleArrays.HandleArray.Remove: the slot counter is unbounded. The source's `Uint16` counter wraps after 65536 removals from one slot, which would make a stale handle current again.
- `operator[]` logs a counter mismatch and still returns the element the slot points at. The model's `At` returns that element together with a flag that says whether the mismatch message would be logged; the logging itself is left out.

Object pool (`src/Core/ObjectPool.cpp`):
- Objects are (page, slot) pairs instead of raw addresses. `free` of an address outside every page is not modelled; the model's `Free` takes an allocated object or null.
- `sizeof(void*)` in the `ASSERT` of `setObjectSize` is taken as 8, the size on a 64-bit target.

Time (`src/Core/Time.cpp`):
- `fromMinutes`, `fromSeconds`, `toMinutes`, `toSeconds` and the `*` and `/` forms that take a `double` work on floating point and are left out.
- Times.ToMilliseconds: `toMilliseconds` multiplies by the `double` 0.001 and truncates the product. The model divides by 1000 with truncation toward zero; the rounding of the `double` product is not modelled.
- `+=`, `-=`, `*=` and `/=` give the same value as `+`, `-`, `*` and `/`. The model has the binary forms only.
- `!=`, `>`, `<=` and `>=` are `!=` on the datatype and `Less` with its arguments swapped or negated. They have no members of their own.

UI parsers (`src/UI/UIParser.cpp`):
- The vec4 and vec3 branches of `parseColor` parse floating-point numbers. Their results come in as parameters of `ParseColor`.
- Colour channels are divided by 255 into `real`s, which are exact; the source uses `float`.
- The hex branch of `parseColor` writes NUL characters into the attribute's own buffer at positions 3, 5 and 7 to cut out each channel, and an early `return false` leaves the buffer cut short. The model's text is an immutable value, so this side effect on the caller's string is not modelled.

UI element tree (`src/UI/UIElement.cpp`):
- Only the fields the listed operations touch are modelled: the children, the parent, `m_index`, visibility, the transform-dirty flag and the colour. Size, position, rotation, origin, anchor, the shader, the texture and the rendering are left out.
- `getPositionFromEnum` has a `default` branch that returns (0, 0). No enum value reaches it, so it has no counterpart.
- UIElements.UITree.SetIndex: requires that an element with a parent be in that parent's list. As written, `removeChild` never removes a child (see Findings), so the source never breaks this.
- UIElements.UITree.AddChild: requires that the child be in no element's list and that the parent not lie below it. The source accepts any child: a child that already has a parent stays in its old parent's list as well, and a cycle is not detected. Every caller in the modelled code adds a newly created element.

Text input (`src/UI/TextInput.cpp`):
- The mouse handlers, the highlight and cursor geometry, the blink timer (`m_time`, `update`) and focus handling are left out.
- The clipboard and the Shift and Control states are parameters. The value-changed and submit callbacks are recorded as the values they receive.
- TextInputs.TextInput.SetTextSelection: requires `start <= end`. The source does not check this; with `start > end`, its `Uint32` arithmetic `y - x` wraps.
- The `Uint32` sums `x + size` and `y - x` are unbounded here. The `(char)` cast of the typed code point is modelled on characters, with no truncation.

Profiler (`src/Core/Profiler.cpp`):
- `ProfilerData::mean` and `stdDev` work on `double`s and are left out. `ProfilerMarker` reads the clock, so the elapsed time is a parameter of `AddMarker`.
- The interval average `average / 10.0` goes through `Time operator/(Time, double)` (src/Core/Time.cpp:174-177), which divides as a `double` and truncates the quotient through `(Uint64)`. The model's integer division by 10 gives the same whole microseconds; only a sum above 2^53 microseconds, which a `double` cannot hold exactly, could differ, and that rounding is not modelled.
- The mutex around the map is left out.
- `getData` returns a reference to the entry. The model returns its value.

Terrain (`src/Graphics/Terrain.cpp`):
- The conversion of the float height map to `Uint16` heights is left out. The heights of a tile come in as a parameter of `UpdateHeightBounds`.
- The `sqrtf` in `estimateCacheSize` is modelled as the integer square root, rounded down.
- The `Uint32` sums of the cache size are unbounded.

Image (`src/Graphics/Image.cpp`):
- `load` (the stb_image decoder), `resize` and the copy constructor and copy assignment are left out.
- `create` with `Int32` or `Uint32` data asserts in the source; these types are excluded by a precondition.
- Images.Image.Create: requires that the given data not be the block the image owns. In the source, `create` frees that block first and then keeps it as the image's data, a use after free.
- Images.Image.MoveAssign: requires that the two images not share a block that this image owns. In the source, the move assignment frees that block and then takes it from `other`, a use after free.

Matrix2 (`include/poly/Math/Matrix2.inl`):
- Only the integer instantiation is modelled; `Matrix2f` works on `float`s.
- `+=`, `-=`, `*=` and `/=` give the same value as their binary forms.
- `transpose` at line 293 lacks a `;` and does not compile as written. The model's `Transpose` is what it evidently means.
- `Int32` overflow is not modelled.

ECS storage (`include/poly/Engine/Ecs.inl`):
- `createEntities`, `setComponentTypes`, `getComponentData`, `getGroup` and `hasComponentType` are left out. They forward to the modelled members.
- Ecs.EntityGroup.RemoveEntities: requires every queued id to be live and no handle index to repeat. The source checks neither: `removeEntity` (src/Engine/Ecs.cpp:40-43) pushes the id onto the queue unchecked, and `removeQueuedEntities` hands the whole queue over without removing duplicates. An id queued twice in one frame, or a stale id, makes `HandleArray::remove` read a freed slot, whose position field then holds the free-list link. It swap-pops an unrelated entity or indexes past the end of the data, and every component vector follows with the same positions. That path is not modelled.
- Ecs.EntityGroup.constructor: takes any entity-id array and component storage whose group has as many entries, with any group id. The source constructor (src/Engine/Ecs.cpp:32-36) starts a group empty with group id 0; the model starts from any such side-by-side pair.
- `ComponentCleanup::registerType` is left out. It only records a cleanup callback.
- `include/poly/Core/HandleArray.h` declares no `getIndex`, although `removeEntitiesImpl` and `getComponent` call `m_entityIds.getIndex(handle)`. `EntityGroup.DenseIndex` stands for it, as the dense position the handle's slot points at.
- Type ids from `TypeInfo` are plain numbers.
- A parameter pack `Cs...` is modelled as one component type per entity group.

## Findings

| source | as written | input that shows it | evidently intended | confidence | as-written member | corrected member |
|---|---|---|---|---|---|---|
| util/shader_packager.py:30-37 | the directive is cut up to `code.find('\n', …)`, which is -1 when no newline follows, so the slice `code[-1:]` keeps the last character | the file `#include "b"` with no final newline, where `b` holds `B`, bundles to `B"` | the directive runs to the end of the text when no newline follows, giving `B` | high, not executed | ShaderPackager.SpliceAsWritten, ShaderPackager.SpliceAsWrittenKeepsStrayChar | ShaderPackager.Splice, ShaderPackager.Resolve, ShaderPackager.ResolveBody, ShaderPackager.Inline, ShaderPackager.Continue, ShaderPackager.ReadFile, ShaderPackager.Bundle |
| util/shader_packager.py:45-54 | a `#version` line is cut up to `code.find('\n', …)`, which is -1 on the last line, so the slice `code[-1:]` keeps the last character | stripping `a\n#version 330` leaves `a\n0` | the directive runs to the end of the text, leaving `a\n` | high, not executed | ShaderPackager.StripVersionsAsWritten, ShaderPackager.VersionAsWrittenKeepsStrayChar | ShaderPackager.StripVersions, ShaderPackager.StripVersionDirectives, ShaderPackager.ReadFile |
| src/Core/RingBuffer.cpp:99-112 | the part of a write that wraps to the start of the block is copied from `data` instead of `data + roffset` | a 4-byte block holding one byte at offset 2; writing 7, 8, 9 leaves 7, 7, 8 behind it | the bytes read back in the order written: 7, 8, 9 | high, not executed | RingBuffers.StoreAsWritten, RingBuffers.StoreAsWrittenRepeatsData | RingBuffers.Store, RingBuffers.StoreAppends, RingBuffers.RingBuffer.Write |
| src/UI/UIParser.cpp:593-616 | any length of 7 or more is accepted, and blue is read from position 5 to the end unless the length is 9 | `#` + two red, two green and three blue hex digits (blue 256 to 4095) parses, with a blue channel above 1 | only `#RRGGBB` and `#RRGGBBAA` are hex colours | medium, not executed | UIParsers.HexColorAsWritten, UIParsers.HexColorAsWrittenTakesEight | UIParsers.HexColor, UIParsers.HexColorRoundTrip, UIParsers.ParseColor |
| src/UI/UIParser.cpp:101 | the table key is spelt `poweder_blue` | `getNamedColor("powder_blue")` fails | the standard name `powder_blue` finds (176, 224, 230) | high, not executed | NamedColors.NamedRgbAsWritten, NamedColors.NamedRgbAsWrittenMissesPowderBlue | NamedColors.NamedRgb, UIParsers.NamedColor, UIParsers.ParseColor |
| src/UI/UIElement.cpp:276 | `removeChild` returns when `m_index < m_children.size()`, the inverse of its comment | removing any child that sits at its index leaves the list unchanged | return when the index is out of range or the slot holds another element; otherwise erase the child, so that the later children shift down one place and their indices with them | high, not executed | UIElements.RemoveChildAsWritten, UIElements.RemoveChildAsWrittenKeepsChild | UIElements.UITree.RemoveChild |
| src/UI/TextInput.cpp:15-44 | the constructor leaves `m_selectStart` uninitialised | with a leftover value of 3, Shift+Right on the empty text selects [0, 3), and typing a character makes `substr` throw | `m_selectStart` starts at 0 like the cursor | medium, not executed | TextInputs.ConstructedAsWritten, TextInputs.UninitializedAnchorBreaksTyping | TextInputs.TextInput.constructor |
| include/poly/Math/Matrix2.inl:206-208 | the row-major product's `xy` term uses `b.x.y` twice and its `yy` term uses `b.y.y` twice | rows (3, 1), (4, 1) times rows (5, 9), (2, 6) give (17, 36, 22, 30), where the test at test/Math.cpp:371-374 expects (17, 33, 22, 42) | the row-major matrix product, which mirrors the column-major one | high, not executed | Matrices.MulRowMajorAsWritten, Matrices.RowMajorAsWrittenFails | Matrices.MulRowMajor, Matrices.ProductAssociative |
| include/poly/Math/Matrix2.inl:277-285 | `inverse` builds (yy, -yx, -xy, xx) / det, the transpose of the inverse | for `a` = (3, 1, 4, 1), `a * inverse(a)` is (13, 3, -9, -2), where the test at test/Math.cpp:407-411 expects the identity | (yy, -xy, -yx, xx) / det, so that `a * inverse(a)` is the identity | high, not executed | Matrices.InverseAsWritten, Matrices.InverseAsWrittenFails | Matrices.Inverse, Matrices.InverseInverts |

=== FILE: ecs.dfy ===
/**
 * The component storage of include/poly/Engine/Ecs.inl. For each component type, the
 * components of every entity group live densely in one vector per (scene, group); an
 * entity's dense position in its group's handle array is also the position of each of its
 * components. Entities are removed by swap-pop, first from the handle array and then, with
 * the same positions in the same order, from every component vector.
 */
module Ecs {
  import opened Wrappers
  import opened HandleArrays

  // ---------------------------------------------------------------------------------------
  // Swap-pop removal of a list of positions
  // ---------------------------------------------------------------------------------------

  /**
   * Positions that can be swap-popped one after the other from `n` elements: the `i`-th
   * is taken when `n - i` elements remain.
   */
  predicate Removable(n: nat, indices: seq<nat>)
  {
    forall i :: 0 <= i < |indices| ==> indices[i] + i < n
  }

  /** Once the first position is taken, the rest can be taken from what is left. */
  lemma RemovableTail(n: nat, indices: seq<nat>)
    requires |indices| > 0 && Removable(n, indices)
    ensures n >= 1 && Removable(n - 1, indices[1..])
  {
    assert indices[0] + 0 < n;
    forall i | 0 <= i < |indices| - 1
      ensures indices[1..][i] + i < n - 1
    {
      assert indices[1..][i] == indices[i + 1];
    }
  }

  /** The elements left after swap-popping `indices` in order. */
  function SwapPopAll<T>(s: seq<T>, indices: seq<nat>): (r: seq<T>)
    requires Removable(|s|, indices)
    ensures |r| == |s| - |indices|
    decreases |indices|
  {
    if |indices| == 0 then s
    else
      RemovableTail(|s|, indices);
      SwapPopAll(SwapPop(s, indices[0]), indices[1..])
  }

  /** The elements those swap-pops take out, in order. */
  function Victims<T>(s: seq<T>, indices: seq<nat>): (r: seq<T>)
    requires Removable(|s|, indices)
    ensures |r| == |indices|
    decreases |indices|
  {
    if |indices| == 0 then []
    else
      RemovableTail(|s|, indices);
      [s[indices[0]]] + Victims(SwapPop(s, indices[0]), indices[1..])
  }

  /** One more position: the next swap-pop applies to what the earlier ones left. */
  lemma {:induction false} SwapPopAllSnoc<T>(s: seq<T>, indices: seq<nat>, pos: nat)
    requires Removable(|s|, indices) && pos < |s| - |indices|
    ensures Removable(|s|, indices + [pos])
    ensures SwapPopAll(s, indices + [pos]) == SwapPop(SwapPopAll(s, indices), pos)
    decreases |indices|
  {
    var all := indices + [pos];
    assert Removable(|s|, all) by {
      forall i | 0 <= i < |all|
        ensures all[i] + i < |s|
      {
        if i < |indices| {
          assert all[i] == indices[i];
        }
      }
    }
    if |indices| > 0 {
      assert all[0] == indices[0] && all[1..] == indices[1..] + [pos];
      var s' := SwapPop(s, indices[0]);
      RemovableTail(|s|, indices);
      SwapPopAllSnoc(s', indices[1..], pos);
    }
  }

  /** Swap-popping removes exactly the victims: nothing is lost, duplicated or made up. */
  lemma {:induction false} SwapPopAllMultiset<T>(s: seq<T>, indices: seq<nat>)
    requires Removable(|s|, indices)
    ensures multiset(SwapPopAll(s, indices)) + multiset(Victims(s, indices)) == multiset(s)
    decreases |indices|
  {
    if |indices| > 0 {
      var s' := SwapPop(s, indices[0]);
      RemovableTail(|s|, indices);
      SwapPopAllMultiset(s', indices[1..]);
      SwapPopMoves(s, indices[0]);
      var rest, taken := SwapPopAll(s', indices[1..]), Victims(s', indices[1..]);
      assert SwapPopAll(s, indices) == rest;
      assert Victims(s, indices) == [s[indices[0]]] + taken;
      assert multiset(rest) + multiset(taken) == multiset(s');
      assert multiset(s') + multiset{s[indices[0]]} == multiset(s);
    }
  }

  /** Two equally long sequences, side by side. */
  function Zip<A, B>(a: seq<A>, b: seq<B>): (r: seq<(A, B)>)
    requires |a| == |b|
    ensures |r| == |a| && forall i :: 0 <= i < |a| ==> r[i] == (a[i], b[i])
  {
    seq(|a|, i requires 0 <= i < |a| => (a[i], b[i]))
  }

  /** Swap-popping two sequences at the same positions swap-pops their pairs. */
  lemma {:induction false} SwapPopAllZip<A, B>(a: seq<A>, b: seq<B>, indices: seq<nat>)
    requires |a| == |b| && Removable(|a|, indices)
    ensures SwapPopAll(Zip(a, b), indices) == Zip(SwapPopAll(a, indices), SwapPopAll(b, indices))
    decreases |indices|
  {
    if |indices| > 0 {
      var p := indices[0];
      var a', b' := SwapPop(a, p), SwapPop(b, p);
      assert SwapPop(Zip(a, b), p) == Zip(a', b');
      RemovableTail(|a|, indices);
      SwapPopAllZip(a', b', indices[1..]);
    }
  }

  /**
   * Removing the same positions from an entity list and a component list that run side by
   * side leaves every remaining entity with the component it had.
   */
  lemma PairsKept<A, B>(a: seq<A>, b: seq<B>, indices: seq<nat>)
    requires |a| == |b| && Removable(|a|, indices)
    ensures multiset(Zip(SwapPopAll(a, indices), SwapPopAll(b, indices))) <= multiset(Zip(a, b))
  {
    SwapPopAllZip(a, b, indices);
    SwapPopAllMultiset(Zip(a, b), indices);
  }

  /** Positions 0 then 0 out of 3, 1, 4: the 3 goes, the 4 takes its place and goes next. */
  lemma SwapPopAllExample()
    ensures SwapPopAll([3, 1, 4], [0, 0]) == [1]
    ensures Victims([3, 1, 4], [0, 0]) == [3, 4]
  {
    assert SwapPop([3, 1, 4], 0) == [4, 1];
    assert SwapPop([4, 1], 0) == [1];
  }

  // ---------------------------------------------------------------------------------------
  // Component storage
  // ---------------------------------------------------------------------------------------

  /** The group vector `m_data[s][g]`; a missing scene or group reads as empty. */
  function Group<C>(data: seq<map<nat, seq<C>>>, s: nat, g: nat): (r: seq<C>)
    ensures s < |data| && g in data[s] ==> r == data[s][g]
    ensures !(s < |data| && g in data[s]) ==> r == []
  {
    if s < |data| && g in data[s] then data[s][g] else []
  }

  /** Scene `s`'s group `g` replaced by `v`. */
  function SetGroup<C>(data: seq<map<nat, seq<C>>>, s: nat, g: nat, v: seq<C>): (r: seq<map<nat, seq<C>>>)
    requires s < |data|
    ensures |r| == |data| && Group(r, s, g) == v
    ensures forall s': nat, g': nat :: (s', g') != (s, g) ==> Group(r, s', g') == Group(data, s', g')
  {
    var scene: map<nat, seq<C>> := data[s][g := v];
    data[s := scene]
  }

  /** The scene slots after pushing empty ones until scene `s` exists. */
  function Grown<C>(data: seq<map<nat, seq<C>>>, s: nat): (r: seq<map<nat, seq<C>>>)
    ensures |r| == if s < |data| then |data| else s + 1
    ensures r[..|data|] == data && forall i :: |data| <= i < |r| ==> r[i] == map[]
  {
    if s < |data| then data else data + seq(s + 1 - |data|, _ => map[])
  }

  /** The storage after `createComponents(s, g, num, c)`. */
  function Created<C>(data: seq<map<nat, seq<C>>>, s: nat, g: nat, num: nat, c: C): seq<map<nat, seq<C>>>
  {
    var grown := Grown(data, s);
    SetGroup(grown, s, g, Group(grown, s, g) + seq(num, _ => c))
  }

  /**
   * Creating components appends `num` copies to group (`s`, `g`), makes scene `s` exist and
   * leaves every other group as it was.
   */
  lemma CreatedGroups<C>(data: seq<map<nat, seq<C>>>, s: nat, g: nat, num: nat, c: C, s': nat, g': nat)
    ensures var r := Created(data, s, g, num, c);
      |r| == (if s < |data| then |data| else s + 1) &&
      Group(r, s, g) == Group(data, s, g) + seq(num, _ => c) &&
      ((s', g') != (s, g) ==> Group(r, s', g') == Group(data, s', g'))
  {
    var grown := Grown(data, s);
    assert Group(grown, s, g) == Group(data, s, g) by {
      if s < |data| {
      } else {
        assert grown[s] == map[];
      }
    }
    if s' < |data| {
      assert grown[s'] == data[s'] by {
        assert grown[..|data|][s'] == data[s'];
      }
    }
    assert forall i :: s' == i && |data| <= i < |grown| ==> grown[i] == map[];
  }

  /** The storage after the group (`s`, `g`) has swap-popped `indices`. */
  function Removed<C>(data: seq<map<nat, seq<C>>>, s: nat, g: nat, indices: seq<nat>): seq<map<nat, seq<C>>>
    requires s < |data| && Removable(|Group(data, s, g)|, indices)
  {
    SetGroup(data, s, g, SwapPopAll(Group(data, s, g), indices))
  }

  /** `m_data[s][g]` on a scene that exists: a missing group is inserted empty. */
  function Touched<C>(data: seq<map<nat, seq<C>>>, s: nat, g: nat): (r: seq<map<nat, seq<C>>>)
    requires s < |data|
    ensures |r| == |data| && g in r[s] && r[s][g] == Group(data, s, g)
    ensures forall s': nat, g': nat :: Group(r, s', g') == Group(data, s', g')
  {
    SetGroup(data, s, g, Group(data, s, g))
  }

  /** The component at `index` of group (`s`, `g`), none for an unknown scene or a position out of range. */
  function Lookup<C>(data: seq<map<nat, seq<C>>>, s: nat, g: nat, index: nat): (r: Option<C>)
    ensures r.Some? <==> s < |data| && index < |Group(data, s, g)|
    ensures r.Some? ==> r.value == Group(data, s, g)[index]
  {
    if s >= |data| then None
    else if index < |Group(data, s, g)| then Some(Group(data, s, g)[index])
    else None
  }

  /** After creation the old components keep their positions and the new ones follow them. */
  lemma LookupAfterCreate<C>(data: seq<map<nat, seq<C>>>, s: nat, g: nat, num: nat, c: C, index: nat)
    ensures var n := |Group(data, s, g)|;
      var r := Lookup(Created(data, s, g, num, c), s, g, index);
      (index < n ==> r == Some(Group(data, s, g)[index])) &&
      (n <= index < n + num ==> r == Some(c)) &&
      (n + num <= index ==> r == None)
  {
    CreatedGroups(data, s, g, num, c, s, g);
  }

  /** `ComponentData<C>`: `m_data`, per scene a map from group ids to component vectors. */
  class ComponentData<C> {
    var data: seq<map<nat, seq<C>>>

    constructor()
      ensures data == []
    {
      data := [];
    }

    /**
     * `createComponents(sceneId, groupId, num, component)`: pushes empty scene slots until
     * the scene exists, then pushes `num` copies onto the group.
     */
    method CreateComponents(sceneId: nat, groupId: nat, num: nat, component: C)
      modifies this
      ensures data == Created(old(data), sceneId, groupId, num, component)
    {
      while sceneId >= |data|
        invariant data == old(data) + seq(|data| - |old(data)|, _ => map[])
        invariant |data| <= if sceneId < |old(data)| then |old(data)| else sceneId + 1
        decreases sceneId + 1 - |data|
      {
        data := data + [map[]];
      }
      assert data == Grown(old(data), sceneId);
      var group := if groupId in data[sceneId] then data[sceneId][groupId] else [];
      ghost var group0 := group;
      var i := 0;
      while i < num
        invariant i <= num && group == group0 + seq(i, _ => component)
      {
        group := group + [component];
        i := i + 1;
      }
      data := SetGroup(data, sceneId, groupId, group);
    }

    /**
     * `removeComponents(sceneId, groupId, indices)`: each position in turn is overwritten
     * by the group's last component, which is then popped.
     */
    method RemoveComponents(sceneId: nat, groupId: nat, indices: seq<nat>)
      requires sceneId < |data| && Removable(|Group(data, sceneId, groupId)|, indices)
      modifies this
      ensures data == Removed(old(data), sceneId, groupId, indices)
    {
      var group := Group(data, sceneId, groupId);
      ghost var group0 := group;
      var i := 0;
      while i < |indices|
        invariant i <= |indices| && Removable(|group0|, indices[..i])
        invariant group == SwapPopAll(group0, indices[..i]) && data == old(data)
      {
        assert indices[..i + 1] == indices[..i] + [indices[i]];
        SwapPopAllSnoc(group0, indices[..i], indices[i]);
        var last := |group| - 1;
        group := group[indices[i] := group[last]];
        group := group[..last];
        i := i + 1;
      }
      assert indices[..i] == indices;
      data := SetGroup(data, sceneId, groupId, group);
    }

    /**
     * `getComponent(sceneId, groupId, index)`: the component, or none for an unknown scene
     * or a position past the group's end. On a known scene, a missing group is inserted empty.
     */
    method GetComponent(sceneId: nat, groupId: nat, index: nat) returns (r: Option<C>)
      modifies this
      ensures r == Lookup(old(data), sceneId, groupId, index)
      ensures data == if sceneId < |old(data)| then Touched(old(data), sceneId, groupId) else old(data)
    {
      if sceneId >= |data| {
        return None;
      }
      var group := Group(data, sceneId, groupId);
      data := SetGroup(data, sceneId, groupId, group);
      r := if index < |group| then Some(group[index]) else None;
    }

    /** `hasGroup(sceneId, groupId)`: the scene exists and has the group. */
    function HasGroup(sceneId: nat, groupId: nat): (b: bool)
      reads this
      ensures b <==> sceneId < |data| && groupId in data[sceneId]
      ensures !b ==> Group(data, sceneId, groupId) == []
    {
      sceneId < |data| && groupId in data[sceneId]
    }

    /** `cleanup(sceneId)`: a scene with groups loses all of them; the slots stay. */
    method Cleanup(sceneId: nat)
      modifies this
      ensures data == if sceneId < |old(data)| then old(data)[sceneId := map[]] else old(data)
      ensures forall g: nat :: !HasGroup(sceneId, g)
      ensures forall s: nat, g: nat :: Group(data, s, g) == if s == sceneId then [] else Group(old(data), s, g)
    {
      if sceneId >= |data| || |data[sceneId]| == 0 {
        assert sceneId < |data| ==> data[sceneId] == map[];
        return;
      }
      data := data[sceneId := map[]];
    }
  }

  // ---------------------------------------------------------------------------------------
  // Entity groups
  // ---------------------------------------------------------------------------------------

  /** `Entity::Id`: the entity's handle in its group and the group's id. */
  datatype EntityId = EntityId(handle: Handle, group: nat)

  /**
   * `EntityGroup`, with the storage of one component type: the handle array of entity ids
   * and the component vectors of every group.
   */
  class EntityGroup<C> {
    const sceneId: nat
    const groupId: nat
    var entityIds: HandleArray<EntityId>
    var store: ComponentData<C>

    /** The entity ids and this group's components run side by side. */
    ghost predicate Valid()
      reads this, entityIds, store
    {
      entityIds.Valid() && |Group(store.data, sceneId, groupId)| == |entityIds.data|
    }

    /** The group's entities paired with their components. */
    ghost function Pairs(): seq<(EntityId, C)>
      reads this, entityIds, store
      requires Valid()
    {
      Zip(entityIds.data, Group(store.data, sceneId, groupId))
    }

    constructor(sceneId: nat, groupId: nat, entityIds: HandleArray<EntityId>, store: ComponentData<C>)
      requires entityIds.Valid() && |Group(store.data, sceneId, groupId)| == |entityIds.data|
      ensures Valid()
      ensures this.sceneId == sceneId && this.groupId == groupId
      ensures this.entityIds == entityIds && this.store == store
    {
      this.sceneId, this.groupId := sceneId, groupId;
      this.entityIds, this.store := entityIds, store;
    }

    /** The dense position a handle's slot points at, which `getIndex` stands for. */
    function DenseIndex(h: Handle): (pos: nat)
      reads this, entityIds
      requires h.index < |entityIds.slots|
      ensures entityIds.Current(h) ==> pos < |entityIds.data| && entityIds.data[pos] == entityIds.Elem(h)
    {
      entityIds.slots[h.index].index
    }

    /**
     * `removeEntitiesImpl(ids)`: each handle's dense position is recorded just before the
     * handle is removed; the components then swap-pop those positions in the same order,
     * so the two stay side by side and every remaining entity keeps its component.
     */
    method RemoveEntities(ids: seq<EntityId>)
      requires Valid() && sceneId < |store.data|
      requires forall i :: 0 <= i < |ids| ==> entityIds.Current(ids[i].handle)
      requires forall i, j :: 0 <= i < j < |ids| ==> ids[i].handle.index != ids[j].handle.index
      modifies entityIds, store
      ensures Valid()
      ensures |entityIds.data| == old(|entityIds.data|) - |ids|
      ensures forall i :: 0 <= i < |ids| ==> !entityIds.Current(ids[i].handle)
      ensures multiset(Pairs()) <= old(multiset(Pairs()))
      ensures forall s: nat, g: nat :: (s, g) != (sceneId, groupId) ==> Group(store.data, s, g) == Group(old(store.data), s, g)
      ensures forall h :: old(entityIds.Current(h)) && (forall i :: 0 <= i < |ids| ==> h.index != ids[i].handle.index) ==>
        entityIds.Current(h) && entityIds.Elem(h) == old(entityIds.Elem(h))
    {
      ghost var data0, group0 := entityIds.data, Group(store.data, sceneId, groupId);
      var indices: seq<nat> := [];
      var i := 0;
      while i < |ids|
        invariant i <= |ids| && |indices| == i
        invariant entityIds.Valid() && Removable(|data0|, indices)
        invariant entityIds.data == SwapPopAll(data0, indices)
        invariant forall j :: i <= j < |ids| ==> entityIds.Current(ids[j].handle)
        invariant forall h :: old(entityIds.Current(h)) && (forall j :: 0 <= j < i ==> h.index != ids[j].handle.index) ==>
          entityIds.Current(h) && entityIds.Elem(h) == old(entityIds.Elem(h))
        invariant store.data == old(store.data)
        invariant |entityIds.slots| == old(|entityIds.slots|)
        invariant forall j :: 0 <= j < i ==> (ids[j].handle.index < |entityIds.slots| &&
          entityIds.slots[ids[j].handle.index].counter == ids[j].handle.counter + 1)
      {
        var handle := ids[i].handle;
        var pos := DenseIndex(handle);
        SwapPopAllSnoc(data0, indices, pos);
        indices := indices + [pos];
        entityIds.Remove(handle);
        i := i + 1;
      }
      store.RemoveComponents(sceneId, groupId, indices);
      PairsKept(data0, group0, indices);
    }

    /** `getComponent(id)`: the component at the handle's dense position in this group. */
    method GetComponent(id: EntityId) returns (r: Option<C>)
      requires Valid() && id.handle.index < |entityIds.slots|
      modifies store
      ensures Valid()
      ensures r == Lookup(old(store.data), sceneId, groupId, old(DenseIndex(id.handle)))
      ensures entityIds.Current(id.handle) && sceneId < |store.data| ==>
        r.Some? && (entityIds.Elem(id.handle), r.value) in Pairs()
      ensures forall s: nat, g: nat :: Group(store.data, s, g) == Group(old(store.data), s, g)
    {
      var pos := DenseIndex(id.handle);
      r := store.GetComponent(sceneId, groupId, pos);
      if entityIds.Current(id.handle) && sceneId < |store.data| {
        assert Pairs()[pos] == (entityIds.Elem(id.handle), r.value);
      }
    }
  }

  // ---------------------------------------------------------------------------------------
  // Component type sets
  // ---------------------------------------------------------------------------------------

  /** `ComponentTypeSet`: a set of component type ids. */
  class ComponentTypeSet {
    var types: set<nat>

    constructor()
      ensures types == {}
    {
      types := {};
    }

    /** `set<Cs...>()`: the set is cleared, then each type id is inserted. */
    method Set(typeIds: seq<nat>)
      modifies this
      ensures types == set t | t in typeIds
    {
      types := {};
      var i := 0;
      while i < |typeIds|
        invariant i <= |typeIds| && types == set t | t in typeIds[..i]
      {
        assert typeIds[..i + 1] == typeIds[..i] + [typeIds[i]];
        types := types + {typeIds[i]};
        i := i + 1;
      }
      assert typeIds[..i] == typeIds;
    }

    /** `create<Cs...>()`: a new set holding exactly the given type ids. */
    static method Create(typeIds: seq<nat>) returns (r: ComponentTypeSet)
      ensures fresh(r) && r.types == set t | t in typeIds
    {
      r := new ComponentTypeSet();
      r.Set(typeIds);
    }

    /** `add<C>()`. */
    method Add(typeId: nat)
      modifies this
      ensures types == old(types) + {typeId}
    {
      types := types + {typeId};
    }

    /** `remove<C>()`. */
    method Remove(typeId: nat)
      modifies this
      ensures types == old(types) - {typeId}
    {
      types := types - {typeId};
    }

    /** `has<C>()`. */
    function Has(typeId: nat): (b: bool)
      reads this
      ensures b <==> typeId in types
    {
      typeId in types
    }
  }
}

=== FILE: handle_array.dfy ===
/**
 * The handle array of include/poly/Core/HandleArray.inl: elements live densely in
 * `data`; a handle names a slot, and the slot holds the element's position and a
 * counter. Freed slots form a list threaded through their position field, headed
 * by `nextFree`, and end at the slot count.
 */
module HandleArrays {

  /** `Handle`: a slot index and the counter the slot had when the handle was made. */
  datatype Handle = Handle(index: nat, counter: nat)

  /**
   * `std::swap(m_data[pos], m_data.back()); m_data.pop_back();`: the last element
   * takes the place of the one removed.
   */
  function SwapPop<T>(s: seq<T>, pos: nat): (r: seq<T>)
    requires pos < |s|
    ensures |r| == |s| - 1
  {
    s[pos := s[|s| - 1]][..|s| - 1]
  }

  /**
   * Swap-pop keeps every other element where it was, moves the last one into the
   * gap, and removes exactly one occurrence of the removed element.
   */
  lemma SwapPopMoves<T>(s: seq<T>, pos: nat)
    requires pos < |s|
    ensures forall i :: 0 <= i < |s| - 1 && i != pos ==> SwapPop(s, pos)[i] == s[i]
    ensures pos < |s| - 1 ==> SwapPop(s, pos)[pos] == s[|s| - 1]
    ensures multiset(SwapPop(s, pos)) == multiset(s) - multiset{s[pos]}
  {
    var last := |s| - 1;
    var r := SwapPop(s, pos);
    assert s == s[..last] + [s[last]];
    if pos < last {
      var a, b := s[..pos], s[pos + 1..last];
      assert s[..last] == a + [s[pos]] + b;
      assert r == a + [s[last]] + b;
      calc {
        multiset(s);
        multiset(a) + multiset{s[pos]} + multiset(b) + multiset{s[last]};
        multiset(r) + multiset{s[pos]};
      }
    } else {
      assert r == s[..last];
    }
  }

  /** The removals of test/Core.cpp: handles 2 then 1 out of 3, 1, 4, 1, 5 leave 1, 5, 4. */
  lemma SwapPopExample()
    ensures SwapPop(SwapPop([3, 1, 4, 1, 5], 1), 0) == [1, 5, 4]
  {
    assert SwapPop([3, 1, 4, 1, 5], 1) == [3, 5, 4, 1];
  }

  /** Slot `i` names the element at its position: the position maps back to `i`. */
  predicate LiveIn(n: nat, slots: seq<Handle>, d2h: seq<nat>, i: nat)
  {
    i < |slots| && slots[i].index < n && slots[i].index < |d2h| && d2h[slots[i].index] == i
  }

  /** Every element position is named by a slot whose position field points back. */
  predicate Named(n: nat, slots: seq<Handle>, d2h: seq<nat>)
  {
    n <= |d2h| == |slots| &&
    forall p :: 0 <= p < n ==> d2h[p] < |slots| && slots[d2h[p]].index == p
  }

  /**
   * The free list: distinct slots, each pointing at the next, the last at the slot
   * count, headed by `nf`; none of them names an element.
   */
  ghost predicate Chained(n: nat, slots: seq<Handle>, d2h: seq<nat>, nf: nat, free: seq<nat>)
    requires Named(n, slots, d2h)
  {
    && n + |free| == |slots|
    && (forall k :: 0 <= k < |free| ==> free[k] < |slots|)
    && nf == (if free == [] then |slots| else free[0])
    && (forall k :: 0 <= k < |free| ==>
          slots[free[k]].index == if k + 1 < |free| then free[k + 1] else |slots|)
    && (forall j, k :: 0 <= j < k < |free| ==> free[j] != free[k])
    && (forall k, p :: 0 <= k < |free| && 0 <= p < n ==> free[k] != d2h[p])
  }

  ghost predicate Linked(n: nat, slots: seq<Handle>, d2h: seq<nat>, nf: nat, free: seq<nat>)
  {
    Named(n, slots, d2h) && Chained(n, slots, d2h, nf, free)
  }

  /** The link out of the `j`-th free slot. */
  lemma ChainAt(n: nat, slots: seq<Handle>, d2h: seq<nat>, nf: nat, free: seq<nat>, j: nat)
    requires Linked(n, slots, d2h, nf, free) && j < |free|
    ensures free[j] < |slots|
    ensures slots[free[j]].index == if j + 1 < |free| then free[j + 1] else |slots|
  {
  }

  /** A full free list grows by one slot that points past the new end; nothing else moves. */
  lemma {:induction false} GrowKeeps(n: nat, slots: seq<Handle>, d2h: seq<nat>, nf: nat, free: seq<nat>,
                                     slots': seq<Handle>, d2h': seq<nat>)
    requires Linked(n, slots, d2h, nf, free) && |slots| <= nf
    requires slots' == slots + [Handle(|slots| + 1, 0)] && d2h' == d2h + [0]
    ensures free == [] && Linked(n, slots', d2h', |slots|, [|slots|])
    ensures forall i: nat :: LiveIn(n, slots, d2h, i) ==> LiveIn(n, slots', d2h', i) && slots'[i] == slots[i]
  {
    forall p | 0 <= p < n
      ensures d2h'[p] < |slots'| && slots'[d2h'[p]].index == p
    {
      assert d2h'[p] == d2h[p];
    }
  }

  /**
   * Handing out the head of the free list for a new last element: the list loses its
   * head, the slot and the position point at each other, and every live slot stays live
   * with its position and counter.
   */
  lemma {:induction false} ClaimKeeps(n: nat, slots: seq<Handle>, d2h: seq<nat>, nf: nat, free: seq<nat>,
                                      n': nat, slots': seq<Handle>, d2h': seq<nat>, nf': nat)
    requires Linked(n, slots, d2h, nf, free) && nf < |slots|
    requires n' == n + 1 && nf' == slots[nf].index
    requires slots' == slots[nf := Handle(n, slots[nf].counter)]
    requires n < |d2h| && d2h' == d2h[n := nf]
    ensures free != [] && Linked(n', slots', d2h', nf', free[1..])
    ensures LiveIn(n', slots', d2h', nf) && slots'[nf].counter == slots[nf].counter
    ensures forall i: nat :: LiveIn(n, slots, d2h, i) ==> LiveIn(n', slots', d2h', i) && slots'[i] == slots[i]
  {
    assert free != [] && nf == free[0];
    forall i: nat | LiveIn(n, slots, d2h, i)
      ensures i != nf
    {
      assert free[0] != d2h[slots[i].index];
    }
    forall p | 0 <= p < n'
      ensures d2h'[p] < |slots'| && slots'[d2h'[p]].index == p
    {
      if p < n {
        assert free[0] != d2h[p];
      }
    }
    var rest := free[1..];
    forall k | 0 <= k < |rest|
      ensures slots'[rest[k]].index == if k + 1 < |rest| then rest[k + 1] else |slots'|
    {
      assert rest[k] == free[k + 1] != free[0];
      ChainAt(n, slots, d2h, nf, free, k + 1);
    }
    forall k, p | 0 <= k < |rest| && 0 <= p < n'
      ensures rest[k] != d2h'[p]
    {
      assert rest[k] == free[k + 1];
      if p == n {
        assert free[k + 1] != free[0];
      }
    }
    assert nf' == (if rest == [] then |slots'| else rest[0]) by {
      assert slots[free[0]].index == if 1 < |free| then free[1] else |slots|;
    }
    assert Chained(n', slots', d2h', nf', rest);
  }

  /**
   * Removing the element of live slot `hi`: the last element's slot takes over its
   * position, `hi` heads the free list pointing at the old head, and every other live
   * slot stays live with its counter; the slot of the last element now names `pos`.
   */
  lemma {:induction false} ReleaseKeeps(n: nat, slots: seq<Handle>, d2h: seq<nat>, nf: nat, free: seq<nat>,
                                        hi: nat, n': nat, slots': seq<Handle>, d2h': seq<nat>)
    requires Linked(n, slots, d2h, nf, free) && LiveIn(n, slots, d2h, hi)
    requires n' == n - 1
    requires slots' == slots[d2h[n - 1] := Handle(slots[hi].index, slots[d2h[n - 1]].counter)]
                            [hi := Handle(nf, slots[hi].counter + 1)]
    requires d2h' == d2h[slots[hi].index := d2h[n - 1]]
    ensures Linked(n', slots', d2h', hi, [hi] + free)
    ensures slots'[hi].counter == slots[hi].counter + 1 && |slots'| == |slots|
    ensures forall i :: 0 <= i < |slots| && i != hi ==> slots'[i].counter == slots[i].counter
    ensures forall i: nat :: i != hi && LiveIn(n, slots, d2h, i) ==>
      LiveIn(n', slots', d2h', i) && slots'[i].counter == slots[i].counter &&
      slots'[i].index == (if slots[i].index == n - 1 then slots[hi].index else slots[i].index)
  {
    var pos := slots[hi].index;
    var moved := d2h[n - 1];
    assert d2h[pos] == hi;
    assert moved == hi <==> pos == n - 1 by {
      assert slots[moved].index == n - 1;
    }
    forall k | 0 <= k < |free|
      ensures free[k] != hi && free[k] != moved
    {
      assert free[k] != d2h[pos];
      assert free[k] != d2h[n - 1];
    }
    forall p | 0 <= p < n'
      ensures d2h'[p] < |slots'| && slots'[d2h'[p]].index == p
    {
      if p != pos {
        assert d2h'[p] == d2h[p];
        assert slots[d2h[p]].index == p;
      }
    }
    var free' := [hi] + free;
    forall k | 0 <= k < |free'|
      ensures slots'[free'[k]].index == if k + 1 < |free'| then free'[k + 1] else |slots'|
    {
      if 0 < k {
        assert free'[k] == free[k - 1];
        ChainAt(n, slots, d2h, nf, free, k - 1);
      }
    }
    forall k, p | 0 <= k < |free'| && 0 <= p < n'
      ensures free'[k] != d2h'[p]
    {
      if p != pos {
        assert slots[d2h[p]].index == p;
        if 0 < k {
          assert free'[k] == free[k - 1];
        }
      } else if 0 < k {
        assert free'[k] == free[k - 1];
      }
    }
    forall j, k | 0 <= j < k < |free'|
      ensures free'[j] != free'[k]
    {
      assert free'[k] == free[k - 1];
      if 0 < j {
        assert free'[j] == free[j - 1];
      }
    }
    forall i: nat | i != hi && LiveIn(n, slots, d2h, i)
      ensures LiveIn(n', slots', d2h', i)
    {
      var q := slots[i].index;
      if q == n - 1 {
        assert i == moved;
      } else {
        assert i != moved by {
          assert slots[moved].index == n - 1;
        }
        assert q != pos;
      }
    }
    assert Chained(n', slots', d2h', hi, free');
  }

  class HandleArray<T> {
    /** `m_data`: the elements, densely packed. */
    var data: seq<T>
    /** `m_handleToData`: per slot, the element position (or the next free slot) and the counter. */
    var slots: seq<Handle>
    /** `m_dataToHandle`: per element position, the slot that names it. */
    var dataToHandle: seq<nat>
    /** `m_nextFree`: the first free slot, or the slot count when none is free. */
    var nextFree: nat
    /** The free slots in list order, from `nextFree` on. */
    ghost var free: seq<nat>

    /** Slot `i` currently names an element. */
    ghost predicate Live(i: nat)
      reads this
    {
      LiveIn(|data|, slots, dataToHandle, i)
    }

    ghost predicate Valid()
      reads this
    {
      Linked(|data|, slots, dataToHandle, nextFree, free)
    }

    /** `h` names an element and was made after the last removal from its slot. */
    ghost predicate Current(h: Handle)
      reads this
    {
      Live(h.index) && slots[h.index].counter == h.counter
    }

    /** The element a current handle names. */
    ghost function Elem(h: Handle): T
      reads this
      requires Current(h)
    {
      data[slots[h.index].index]
    }

    /** `HandleArray()`: no slots. */
    constructor ()
      ensures Valid() && data == [] && slots == [] && nextFree == 0
    {
      data, slots, dataToHandle, nextFree, free := [], [], [], 0, [];
    }

    /** `HandleArray(size)`: `size` free slots, each pointing at the next. */
    constructor WithSlots(size: nat)
      ensures Valid() && data == [] && |slots| == size && nextFree == 0
      ensures forall i :: 0 <= i < size ==> slots[i] == Handle(i + 1, 0)
    {
      data, dataToHandle, nextFree := [], seq(size, _ => 0), 0;
      var s: seq<Handle> := [];
      for i := 0 to size
        invariant |s| == i && forall j :: 0 <= j < i ==> s[j] == Handle(j + 1, 0)
      {
        s := s + [Handle(i + 1, 0)];
      }
      slots := s;
      free := seq(size, i => i);
    }

    /**
     * `operator[]`: the element at the slot's position, and whether the counter
     * mismatch is reported; a current handle gives its element without a report.
     */
    function At(h: Handle): (r: (T, bool))
      reads this
      requires Valid() && h.index < |slots| && slots[h.index].index < |data|
      ensures r.1 <==> slots[h.index].counter != h.counter
      ensures Current(h) ==> r.0 == Elem(h) && !r.1
    {
      var entry := slots[h.index];
      (data[entry.index], entry.counter != h.counter)
    }

    /** `size()`: the number of elements, which is the number of slots in use. */
    function Size(): (n: nat)
      reads this
      requires Valid()
      ensures n + |free| == |slots|
    {
      |data|
    }

    /**
     * `add(element)`: appends the element and names it by the first free slot (a new
     * slot when none is free); every handle that was current stays current.
     */
    method Add(e: T) returns (h: Handle)
      requires Valid()
      modifies this
      ensures Valid()
      ensures data == old(data) + [e]
      ensures Current(h) && Elem(h) == e
      ensures h.index == if old(nextFree) < old(|slots|) then old(nextFree) else old(|slots|)
      ensures forall g :: old(Current(g)) ==> Current(g) && Elem(g) == old(Elem(g))
    {
      if nextFree >= |slots| {
        ghost var slots0, d2h0 := slots, dataToHandle;
        slots := slots + [Handle(|slots| + 1, 0)];
        dataToHandle := dataToHandle + [0];
        free := [|slots0|];
        GrowKeeps(|data|, slots0, d2h0, nextFree, [], slots, dataToHandle);
      }
      ghost var n, slots0, d2h0, free0 := |data|, slots, dataToHandle, free;
      data := data + [e];
      h := Handle(nextFree, slots[nextFree].counter);
      nextFree := slots[h.index].index;
      slots := slots[h.index := Handle(|data| - 1, slots[h.index].counter)];
      dataToHandle := dataToHandle[|data| - 1 := h.index];
      free := free[1..];
      ClaimKeeps(n, slots0, d2h0, h.index, free0, |data|, slots, dataToHandle, nextFree);
    }

    /**
     * `remove(handle)`: swap-pops the element, repoints the slot of the moved one,
     * pushes the slot on the free list and bumps its counter, so the removed handle
     * is no longer current; every other current handle keeps its element.
     */
    method Remove(h: Handle)
      requires Valid() && Current(h)
      modifies this
      ensures Valid()
      ensures data == SwapPop(old(data), old(slots[h.index].index))
      ensures nextFree == h.index && free == [h.index] + old(free)
      ensures slots[h.index].counter == h.counter + 1 && !Current(h)
      ensures |slots| == old(|slots|) && forall i :: 0 <= i < |slots| && i != h.index ==> slots[i].counter == old(slots[i].counter)
      ensures forall g :: old(Current(g)) && g.index != h.index ==> Current(g) && Elem(g) == old(Elem(g))
    {
      ghost var data0, slots0, d2h0, free0 := data, slots, dataToHandle, free;
      var pos := slots[h.index].index;
      var last := |data| - 1;
      data := SwapPop(data, pos);
      var moved := dataToHandle[last];
      slots := slots[moved := Handle(pos, slots[moved].counter)];
      dataToHandle := dataToHandle[pos := moved];
      slots := slots[h.index := Handle(nextFree, slots[h.index].counter + 1)];
      ReleaseKeeps(|data0|, slots0, d2h0, nextFree, free0, h.index, |data|, slots, dataToHandle);
      free := [h.index] + free;
      nextFree := h.index;
      SwapPopMoves(data0, pos);
    }

    /** `reset()`: no elements, no slots, an empty free list. */
    method Reset()
      modifies this
      ensures Valid() && data == [] && slots == [] && dataToHandle == [] && nextFree == 0
    {
      data, slots, dataToHandle, nextFree, free := [], [], [], 0, [];
    }
  }
}

=== FILE: image.dfy ===
/**
 * The pixel store of src/Graphics/Image.cpp: an image points at a block of pixel bytes it
 * may or may not own, with its width, height, channel count and element type. Owned
 * blocks are released by `free`; a move hands the block over and leaves the source empty.
 */
module Images {

  /** The element types of include/poly/Graphics/GLType.h. */
  datatype GLType = Unknown | Int8 | Uint8 | Int16 | Uint16 | Int32 | Uint32 | HalfFloat | Float | Double

  const Modulus32: nat := 0x1_0000_0000

  /** A `Uint32` result: the value modulo 2^32. */
  function Wrap32(x: nat): (r: nat)
    ensures r < Modulus32 && (x < Modulus32 ==> r == x)
  {
    x % Modulus32
  }

  /** The bytes per channel: 2 for `Uint16`, 4 for `Float`, 1 for every other type. */
  function TypeSize(t: GLType): (n: nat)
    ensures n == 1 || n == 2 || n == 4
    ensures n == 2 <==> t == Uint16
    ensures n == 4 <==> t == Float
  {
    if t == Uint16 then 2 else if t == Float then 4 else 1
  }

  /** The signed 8- and 16-bit types become their unsigned variants; the rest stay. */
  function Unsigned(t: GLType): (u: GLType)
    ensures u != Int8 && u != Int16
    ensures t != Int8 && t != Int16 ==> u == t
    ensures TypeSize(u) == if t == Int16 then 2 else TypeSize(t)
  {
    if t == Int8 then Uint8 else if t == Int16 then Uint16 else t
  }

  /** The byte size `w * h * c * typeSize` of an image, as the `Uint32` product computes it. */
  function DataSize(w: nat, h: nat, c: nat, t: GLType): nat
  {
    Wrap32(Wrap32(Wrap32(w * h) * c) * TypeSize(t))
  }

  /** The byte offset `(r * w + col) * c * typeSize` of pixel (`r`, `col`), as `Uint32` arithmetic computes it. */
  function PixelOffset(w: nat, c: nat, t: GLType, r: nat, col: nat): nat
  {
    Wrap32(Wrap32(Wrap32(r * w + col) * c) * TypeSize(t))
  }

  lemma MulMono(a: nat, b: nat, k: nat)
    requires a <= b
    ensures a * k <= b * k
  {
  }

  /** The row-major index of a pixel lies below the pixel count. */
  lemma IndexBelowCount(w: nat, h: nat, r: nat, col: nat)
    requires r < h && col < w
    ensures r * w + col < w * h
  {
    MulMono(r + 1, h, w);
  }

  /** Different pixels have different row-major indices. */
  lemma IndexInjective(w: nat, r1: nat, c1: nat, r2: nat, c2: nat)
    requires c1 < w && c2 < w && (r1, c1) != (r2, c2)
    ensures r1 * w + c1 != r2 * w + c2
  {
    if r1 < r2 {
      MulMono(r1 + 1, r2, w);
    } else if r2 < r1 {
      MulMono(r2 + 1, r1, w);
    }
  }

  /** The partial products for index `i` stay at or below those for the count `n`. */
  lemma ProductChain(i: nat, n: nat, c: nat, ts: nat)
    requires i < n && 1 <= ts
    ensures n <= n * c * ts || c == 0
    ensures i * c <= n * c <= n * c * ts && i * c * ts + c * ts <= n * c * ts
    ensures i * c * ts == i * (c * ts) && n * c * ts == n * (c * ts)
  {
    MulMono(i + 1, n, c);
    MulMono(i * c + c, n * c, ts);
    MulMono(1, ts, n * c);
    if c > 0 {
      MulMono(1, c, n);
    }
  }

  /** Distinct slots of `p` bytes each do not overlap. */
  lemma SpacedApart(i1: nat, i2: nat, p: nat)
    requires i1 != i2
    ensures i1 * p + p <= i2 * p || i2 * p + p <= i1 * p
  {
    if i1 < i2 {
      MulMono(i1 + 1, i2, p);
    } else {
      MulMono(i2 + 1, i1, p);
    }
  }

  /**
   * When the image's byte size fits 32 bits, pixel (`r`, `col`) starts at
   * `(r * w + col) * c * typeSize` and its `c * typeSize` bytes end within the image.
   */
  lemma PixelWithin(w: nat, h: nat, c: nat, t: GLType, r: nat, col: nat)
    requires r < h && col < w
    requires w * h * c * TypeSize(t) < Modulus32
    ensures PixelOffset(w, c, t, r, col) == (r * w + col) * (c * TypeSize(t))
    ensures DataSize(w, h, c, t) == w * h * (c * TypeSize(t))
    ensures PixelOffset(w, c, t, r, col) + c * TypeSize(t) <= DataSize(w, h, c, t)
  {
    var ts := TypeSize(t);
    var i, n := r * w + col, w * h;
    IndexBelowCount(w, h, r, col);
    ProductChain(i, n, c, ts);
  }

  /** Two different pixels of a row-major image have byte ranges that do not overlap. */
  lemma PixelsDisjoint(w: nat, h: nat, c: nat, t: GLType, r1: nat, c1: nat, r2: nat, c2: nat)
    requires r1 < h && c1 < w && r2 < h && c2 < w && (r1, c1) != (r2, c2)
    requires w * h * c * TypeSize(t) < Modulus32
    ensures PixelOffset(w, c, t, r1, c1) + c * TypeSize(t) <= PixelOffset(w, c, t, r2, c2) ||
            PixelOffset(w, c, t, r2, c2) + c * TypeSize(t) <= PixelOffset(w, c, t, r1, c1)
  {
    PixelWithin(w, h, c, t, r1, c1);
    PixelWithin(w, h, c, t, r2, c2);
    IndexInjective(w, r1, c1, r2, c2);
    SpacedApart(r1 * w + c1, r2 * w + c2, c * TypeSize(t));
  }

  /** A block of pixel bytes from the allocator; `live` until it is released. */
  class Buffer {
    var bytes: seq<bv8>
    var live: bool

    /** `MALLOC_DBG(size)` followed by `memset(…, 0, size)`. */
    constructor Zeroed(size: nat)
      ensures live && |bytes| == size && forall i :: 0 <= i < size ==> bytes[i] == 0
    {
      bytes := seq(size, _ => 0);
      live := true;
    }
  }

  /** `Image`: `m_data` (null for none), the size fields, the type and `m_ownsData`. */
  class Image {
    var data: Buffer?
    var width: nat
    var height: nat
    var numChannels: nat
    var dataType: GLType
    var ownsData: bool

    /** An image never holds a block it owns after that block has been released. */
    ghost predicate Valid()
      reads this, data
    {
      ownsData && data != null ==> data.live
    }

    /** `Image()`: no data, no size, unknown type, owning nothing. */
    constructor()
      ensures Valid()
      ensures data == null && width == 0 && height == 0 && numChannels == 0
      ensures dataType == Unknown && !ownsData
    {
      data := null;
      width, height, numChannels := 0, 0, 0;
      dataType := Unknown;
      ownsData := false;
    }

    /** `free`: an owned block is released, a borrowed one is left alone; `m_data` always becomes null. */
    method Free()
      modifies this, data
      ensures data == null && Valid()
      ensures width == old(width) && height == old(height) && numChannels == old(numChannels)
      ensures dataType == old(dataType) && ownsData == old(ownsData)
      ensures old(ownsData) && old(data) != null ==> !old(data).live && old(data).bytes == old(data.bytes)
      ensures !old(ownsData) && old(data) != null ==> unchanged(old(data))
    {
      if ownsData && data != null {
        data.live := false;
      }
      data := null;
    }

    /**
     * `create(data, w, h, c, dtype, manage)`: the old block is freed, the fields are set and
     * a signed type becomes unsigned; without data, a zeroed block of the image's byte size
     * is allocated and owned.
     */
    method Create(buf: Buffer?, w: nat, h: nat, c: nat, dtype: GLType, manage: bool)
      requires dtype != Int32 && dtype != Uint32
      requires buf != null ==> buf.live && !(ownsData && buf == data)
      modifies this, data
      ensures width == w && height == h && numChannels == c && dataType == Unsigned(dtype)
      ensures buf != null ==> data == buf && ownsData == manage
      ensures buf == null ==> (data != null && fresh(data) && ownsData && data.live &&
        |data.bytes| == DataSize(w, h, c, dataType) && forall i :: 0 <= i < |data.bytes| ==> data.bytes[i] == 0)
      ensures old(ownsData) && old(data) != null ==> !old(data).live
      ensures !old(ownsData) && old(data) != null && old(data) != buf ==> unchanged(old(data))
      ensures Valid()
    {
      Free();
      data := buf;
      width, height, numChannels := w, h, c;
      dataType := dtype;
      ownsData := manage;
      if dataType == Int8 {
        dataType := Uint8;
      } else if dataType == Int16 {
        dataType := Uint16;
      }
      if data == null {
        var typeSize := TypeSize(dataType);
        var size := Wrap32(Wrap32(Wrap32(width * height) * numChannels) * typeSize);
        data := new Buffer.Zeroed(size);
        ownsData := true;
      }
    }

    /** `getPixel(r, c)`: the byte offset of the pixel in the block. */
    function GetPixel(r: nat, col: nat): (off: nat)
      reads this
      requires r < height && col < width
      ensures off == PixelOffset(width, numChannels, dataType, r, col)
      ensures width * height * numChannels * TypeSize(dataType) < Modulus32 ==>
        off + numChannels * TypeSize(dataType) <= DataSize(width, height, numChannels, dataType)
    {
      if width * height * numChannels * TypeSize(dataType) < Modulus32 then
        PixelWithin(width, height, numChannels, dataType, r, col);
        Wrap32(Wrap32(Wrap32(r * width + col) * numChannels) * TypeSize(dataType))
      else
        Wrap32(Wrap32(Wrap32(r * width + col) * numChannels) * TypeSize(dataType))
    }

    /** `Image(Image&&)`: the new image takes every field of `other`, which is left empty. */
    constructor Moved(other: Image)
      requires other.Valid()
      modifies other
      ensures Valid()
      ensures data == old(other.data) && width == old(other.width) && height == old(other.height)
      ensures numChannels == old(other.numChannels) && dataType == old(other.dataType) && ownsData == old(other.ownsData)
      ensures other.data == null && other.width == 0 && other.height == 0 && other.numChannels == 0
      ensures other.dataType == Unknown && !other.ownsData && other.Valid()
    {
      data := other.data;
      width, height, numChannels := other.width, other.height, other.numChannels;
      dataType := other.dataType;
      ownsData := other.ownsData;
      new;
      other.data := null;
      other.width, other.height, other.numChannels := 0, 0, 0;
      other.dataType := Unknown;
      other.ownsData := false;
    }

    /**
     * `operator=(Image&&)`: unless `other` is this image, the old block is freed, every field
     * of `other` is taken and `other` is left empty.
     */
    method MoveAssign(other: Image)
      requires other.Valid() && !(ownsData && data != null && data == other.data && other != this)
      modifies this, other, data
      ensures other == this ==> (data == old(data) && ownsData == old(ownsData) && width == old(width) &&
        height == old(height) && numChannels == old(numChannels) && dataType == old(dataType))
      ensures other != this ==> (
        data == old(other.data) && width == old(other.width) && height == old(other.height) &&
        numChannels == old(other.numChannels) && dataType == old(other.dataType) && ownsData == old(other.ownsData) &&
        other.data == null && other.width == 0 && other.height == 0 && other.numChannels == 0 &&
        other.dataType == Unknown && !other.ownsData)
      ensures other != this && old(ownsData) && old(data) != null ==> !old(data).live
      ensures Valid() && other.Valid()
    {
      if other != this {
        Free();
        data := other.data;
        width, height, numChannels := other.width, other.height, other.numChannels;
        dataType := other.dataType;
        ownsData := other.ownsData;
        other.data := null;
        other.width, other.height, other.numChannels := 0, 0, 0;
        other.dataType := Unknown;
        other.ownsData := false;
      }
    }
  }
}

=== FILE: matrix2.dfy ===
/**
 * The 2x2 matrices of include/poly/Math/Matrix2.inl over integers (`Matrix2i`). A matrix
 * holds two vectors `x` and `y`: its columns when `USE_COLUMN_MAJOR` is defined and its
 * rows otherwise, so the products come in both layouts. Division truncates toward zero, as
 * C++ integer division does.
 */
module Matrices {
  import Times

  datatype Vector2 = Vector2(x: int, y: int)

  /** `Matrix2<T>`: the vectors `x` and `y`. */
  datatype Matrix2 = Matrix2(x: Vector2, y: Vector2)

  // ---------------------------------------------------------------------------------------
  // Constructors
  // ---------------------------------------------------------------------------------------

  /** `Matrix2(xx, xy, yx, yy)`. */
  function Elements(xx: int, xy: int, yx: int, yy: int): (m: Matrix2)
    ensures m.x == Vector2(xx, xy) && m.y == Vector2(yx, yy)
  {
    Matrix2(Vector2(xx, xy), Vector2(yx, yy))
  }

  /** `Matrix2(s)`: `s` on the diagonal, 0 elsewhere. */
  function Diagonal(s: int): Matrix2
  {
    Elements(s, 0, 0, s)
  }

  /** `Matrix2()`: the identity. */
  function Identity(): Matrix2
  {
    Elements(1, 0, 0, 1)
  }

  function Zero(): Matrix2
  {
    Diagonal(0)
  }

  // ---------------------------------------------------------------------------------------
  // Elementwise operators
  // ---------------------------------------------------------------------------------------

  /** C++ division of integers: truncation toward zero. */
  function Quot(a: int, b: int): int
    requires b != 0
  {
    Times.Quot(a, b)
  }

  /** The unary `operator-`. */
  function Neg(m: Matrix2): Matrix2
  {
    Elements(-m.x.x, -m.x.y, -m.y.x, -m.y.y)
  }

  function Add(a: Matrix2, b: Matrix2): Matrix2
  {
    Elements(a.x.x + b.x.x, a.x.y + b.x.y, a.y.x + b.y.x, a.y.y + b.y.y)
  }

  function Sub(a: Matrix2, b: Matrix2): Matrix2
  {
    Elements(a.x.x - b.x.x, a.x.y - b.x.y, a.y.x - b.y.x, a.y.y - b.y.y)
  }

  /** `a + s` and `s + a`: `s` added to every element. */
  function AddScalar(a: Matrix2, s: int): Matrix2
  {
    Elements(a.x.x + s, a.x.y + s, a.y.x + s, a.y.y + s)
  }

  /** `a - s`. */
  function SubScalar(a: Matrix2, s: int): Matrix2
  {
    Elements(a.x.x - s, a.x.y - s, a.y.x - s, a.y.y - s)
  }

  /** `s - a`. */
  function ScalarSub(s: int, a: Matrix2): Matrix2
  {
    Elements(s - a.x.x, s - a.x.y, s - a.y.x, s - a.y.y)
  }

  /** `a * s` and `s * a`. */
  function Scale(a: Matrix2, s: int): Matrix2
  {
    Elements(a.x.x * s, a.x.y * s, a.y.x * s, a.y.y * s)
  }

  /** `a / s`. */
  function DivScalar(a: Matrix2, s: int): Matrix2
    requires s != 0
  {
    Elements(Quot(a.x.x, s), Quot(a.x.y, s), Quot(a.y.x, s), Quot(a.y.y, s))
  }

  /** No element is zero. */
  predicate NonZero(m: Matrix2)
  {
    m.x.x != 0 && m.x.y != 0 && m.y.x != 0 && m.y.y != 0
  }

  /** `s / a`. */
  function ScalarDiv(s: int, a: Matrix2): Matrix2
    requires NonZero(a)
  {
    Elements(Quot(s, a.x.x), Quot(s, a.x.y), Quot(s, a.y.x), Quot(s, a.y.y))
  }

  /** `a / b`: element by element. */
  function Div(a: Matrix2, b: Matrix2): Matrix2
    requires NonZero(b)
  {
    Elements(Quot(a.x.x, b.x.x), Quot(a.x.y, b.x.y), Quot(a.y.x, b.y.x), Quot(a.y.y, b.y.y))
  }

  /** `elem(a, b)`: the element-by-element product. */
  function Elem(a: Matrix2, b: Matrix2): Matrix2
  {
    Elements(a.x.x * b.x.x, a.x.y * b.x.y, a.y.x * b.y.x, a.y.y * b.y.y)
  }

  // ---------------------------------------------------------------------------------------
  // Products
  // ---------------------------------------------------------------------------------------

  /** `a * b` with `USE_COLUMN_MAJOR`: `x` and `y` are columns. */
  function MulColumnMajor(a: Matrix2, b: Matrix2): Matrix2
  {
    Elements(
      a.x.x * b.x.x + a.y.x * b.x.y,
      a.x.y * b.x.x + a.y.y * b.x.y,
      a.x.x * b.y.x + a.y.x * b.y.y,
      a.x.y * b.y.x + a.y.y * b.y.y)
  }

  /** `a * b` without `USE_COLUMN_MAJOR` as written: its `xy` term takes `b.x.y` twice and its `yy` term `b.y.y` twice. */
  function MulRowMajorAsWritten(a: Matrix2, b: Matrix2): Matrix2
  {
    Elements(
      a.x.x * b.x.x + a.x.y * b.y.x,
      a.x.x * b.x.y + a.x.y * b.x.y,
      a.y.x * b.x.x + a.y.y * b.y.x,
      a.y.x * b.y.y + a.y.y * b.y.y)
  }

  /** `a * b` without `USE_COLUMN_MAJOR`, as the rows of `a` times the columns of `b` give it. */
  function MulRowMajor(a: Matrix2, b: Matrix2): Matrix2
  {
    Elements(
      a.x.x * b.x.x + a.x.y * b.y.x,
      a.x.x * b.x.y + a.x.y * b.y.y,
      a.y.x * b.x.x + a.y.y * b.y.x,
      a.y.x * b.x.y + a.y.y * b.y.y)
  }

  /** `m * v` with `USE_COLUMN_MAJOR`. */
  function MulVecColumnMajor(m: Matrix2, v: Vector2): Vector2
  {
    Vector2(m.x.x * v.x + m.y.x * v.y, m.x.y * v.x + m.y.y * v.y)
  }

  /** `m * v` without `USE_COLUMN_MAJOR`. */
  function MulVecRowMajor(m: Matrix2, v: Vector2): Vector2
  {
    Vector2(m.x.x * v.x + m.x.y * v.y, m.y.x * v.x + m.y.y * v.y)
  }

  /** `v * m` with `USE_COLUMN_MAJOR`. */
  function VecMulColumnMajor(v: Vector2, m: Matrix2): Vector2
  {
    Vector2(m.x.x * v.x + m.x.y * v.y, m.y.x * v.x + m.y.y * v.y)
  }

  /** `v * m` without `USE_COLUMN_MAJOR`. */
  function VecMulRowMajor(v: Vector2, m: Matrix2): Vector2
  {
    Vector2(m.x.x * v.x + m.y.x * v.y, m.x.y * v.x + m.y.y * v.y)
  }

  // ---------------------------------------------------------------------------------------
  // Functions
  // ---------------------------------------------------------------------------------------

  /** `determinant`. */
  function Det(m: Matrix2): int
  {
    m.x.x * m.y.y - m.x.y * m.y.x
  }

  /** `transpose`: the off-diagonal elements swap. */
  function Transpose(m: Matrix2): Matrix2
  {
    Elements(m.x.x, m.y.x, m.x.y, m.y.y)
  }

  /** `inverse` as written: (yy, -yx, -xy, xx) times `1 / det`. */
  function InverseAsWritten(m: Matrix2): Matrix2
    requires Det(m) != 0
  {
    Scale(Elements(m.y.y, -m.y.x, -m.x.y, m.x.x), Quot(1, Det(m)))
  }

  /** The inverse: the adjugate (yy, -xy, -yx, xx) times `1 / det`. */
  function Inverse(m: Matrix2): Matrix2
    requires Det(m) != 0
  {
    Scale(Elements(m.y.y, -m.x.y, -m.y.x, m.x.x), Quot(1, Det(m)))
  }

  // ---------------------------------------------------------------------------------------
  // Properties
  // ---------------------------------------------------------------------------------------

  /** The identity leaves matrices and vectors alone under every product, and is `Diagonal(1)`. */
  lemma IdentityIsUnit(m: Matrix2, v: Vector2)
    ensures Identity() == Diagonal(1)
    ensures MulColumnMajor(Identity(), m) == m && MulColumnMajor(m, Identity()) == m
    ensures MulRowMajor(Identity(), m) == m && MulRowMajor(m, Identity()) == m
    ensures MulVecColumnMajor(Identity(), v) == v && MulVecRowMajor(Identity(), v) == v
    ensures VecMulColumnMajor(v, Identity()) == v && VecMulRowMajor(v, Identity()) == v
  {
  }

  /** Multiplying by `Matrix2(s)` scales, on either side and in either layout. */
  lemma DiagonalScales(m: Matrix2, s: int)
    ensures MulColumnMajor(Diagonal(s), m) == Scale(m, s) == MulColumnMajor(m, Diagonal(s))
    ensures MulRowMajor(Diagonal(s), m) == Scale(m, s) == MulRowMajor(m, Diagonal(s))
  {
  }

  /** Addition commutes and subtraction undoes it; negation is subtraction from zero. */
  lemma AddSubInverse(a: Matrix2, b: Matrix2, s: int)
    ensures Add(a, b) == Add(b, a) && Sub(Add(a, b), b) == a
    ensures Neg(a) == Sub(Zero(), a) && Add(a, Neg(a)) == Zero()
    ensures SubScalar(AddScalar(a, s), s) == a && ScalarSub(s, a) == Neg(SubScalar(a, s))
    ensures AddScalar(a, s) == Add(a, Elements(s, s, s, s))
  {
  }

  /** Multiplying by a positive number keeps the order strict. */
  lemma MulStrict(a: int, b: int, y: int)
    requires y > 0
    ensures a < b <==> a * y < b * y
  {
    assert b * y - a * y == (b - a) * y;
  }

  /** Dividing a multiple of a positive number by it gives the factor back. */
  lemma MulDivCancel(x: nat, y: nat)
    requires y > 0
    ensures x * y / y == x
  {
    var q := x * y / y;
    assert q * y <= x * y < q * y + y;
    assert q * y + y == (q + 1) * y;
    MulStrict(x, q, y);
    MulStrict(x, q + 1, y);
  }

  /** Truncating division of an exact multiple gives the factor back. */
  lemma QuotExact(a: int, b: int)
    requires b != 0
    ensures Quot(a * b, b) == a
  {
    var m := Times.Abs(a) * Times.Abs(b);
    assert Times.Abs(a * b) == m by {
      if a < 0 && b < 0 {
        assert a * b == (-a) * (-b);
      } else if a < 0 {
        assert -(a * b) == (-a) * b;
      } else if b < 0 {
        assert -(a * b) == a * (-b);
      }
    }
    MulDivCancel(Times.Abs(a), Times.Abs(b));
    if a != 0 {
      assert a * b != 0;
      assert (a * b < 0) <==> ((a < 0) != (b < 0));
    }
  }

  /** Division undoes the elementwise product and scaling by a non-zero factor. */
  lemma DivUndoesMul(a: Matrix2, b: Matrix2, s: int)
    requires NonZero(b) && s != 0
    ensures Div(Elem(a, b), b) == a
    ensures DivScalar(Scale(a, s), s) == a
  {
    QuotExact(a.x.x, b.x.x);
    QuotExact(a.x.y, b.x.y);
    QuotExact(a.y.x, b.y.x);
    QuotExact(a.y.y, b.y.y);
    QuotExact(a.x.x, s);
    QuotExact(a.x.y, s);
    QuotExact(a.y.x, s);
    QuotExact(a.y.y, s);
  }

  /**
   * `s / a` is the constant matrix `s` divided element by element, and dividing a multiple
   * of `k` by the constant matrix `k` gives the factor back in every element.
   */
  lemma ScalarDivIsDiv(s: int, a: Matrix2, q: int, k: int)
    requires NonZero(a) && k != 0
    ensures ScalarDiv(s, a) == Div(Elements(s, s, s, s), a)
    ensures ScalarDiv(q * k, Elements(k, k, k, k)) == Elements(q, q, q, q)
  {
    QuotExact(q, k);
  }

  /** The elementwise product commutes and has the all-ones matrix as its unit. */
  lemma ElemCommutes(a: Matrix2, b: Matrix2)
    ensures Elem(a, b) == Elem(b, a)
    ensures Elem(a, Elements(1, 1, 1, 1)) == a
  {
  }

  /** The column-major product is the row-major one with the operands swapped. */
  lemma LayoutsMirror(a: Matrix2, b: Matrix2, v: Vector2)
    ensures MulColumnMajor(a, b) == MulRowMajor(b, a)
    ensures MulVecColumnMajor(a, v) == VecMulRowMajor(v, a)
    ensures VecMulColumnMajor(v, a) == MulVecRowMajor(a, v)
  {
  }

  /** The distributive step behind both associativity and composition. */
  lemma AssocEntry(a1: int, a2: int, b1: int, b2: int, b3: int, b4: int, c1: int, c2: int)
    ensures (a1 * b1 + a2 * b2) * c1 + (a1 * b3 + a2 * b4) * c2 == a1 * (b1 * c1 + b3 * c2) + a2 * (b2 * c1 + b4 * c2)
  {
    assert (a1 * b1 + a2 * b2) * c1 == a1 * (b1 * c1) + a2 * (b2 * c1);
    assert (a1 * b3 + a2 * b4) * c2 == a1 * (b3 * c2) + a2 * (b4 * c2);
  }

  /** The products are associative. */
  lemma ProductAssociative(a: Matrix2, b: Matrix2, c: Matrix2)
    ensures MulColumnMajor(MulColumnMajor(a, b), c) == MulColumnMajor(a, MulColumnMajor(b, c))
    ensures MulRowMajor(MulRowMajor(a, b), c) == MulRowMajor(a, MulRowMajor(b, c))
  {
    AssocEntry(a.x.x, a.y.x, b.x.x, b.x.y, b.y.x, b.y.y, c.x.x, c.x.y);
    AssocEntry(a.x.y, a.y.y, b.x.x, b.x.y, b.y.x, b.y.y, c.x.x, c.x.y);
    AssocEntry(a.x.x, a.y.x, b.x.x, b.x.y, b.y.x, b.y.y, c.y.x, c.y.y);
    AssocEntry(a.x.y, a.y.y, b.x.x, b.x.y, b.y.x, b.y.y, c.y.x, c.y.y);
    AssocEntry(a.x.x, a.x.y, b.x.x, b.y.x, b.x.y, b.y.y, c.x.x, c.y.x);
    AssocEntry(a.x.x, a.x.y, b.x.x, b.y.x, b.x.y, b.y.y, c.x.y, c.y.y);
    AssocEntry(a.y.x, a.y.y, b.x.x, b.y.x, b.x.y, b.y.y, c.x.x, c.y.x);
    AssocEntry(a.y.x, a.y.y, b.x.x, b.y.x, b.x.y, b.y.y, c.x.y, c.y.y);
  }

  /** A product of matrices acts on a vector as the matrices one after the other. */
  lemma ProductComposes(a: Matrix2, b: Matrix2, v: Vector2)
    ensures MulVecColumnMajor(MulColumnMajor(a, b), v) == MulVecColumnMajor(a, MulVecColumnMajor(b, v))
    ensures MulVecRowMajor(MulRowMajor(a, b), v) == MulVecRowMajor(a, MulVecRowMajor(b, v))
  {
    AssocEntry(a.x.x, a.y.x, b.x.x, b.x.y, b.y.x, b.y.y, v.x, v.y);
    AssocEntry(a.x.y, a.y.y, b.x.x, b.x.y, b.y.x, b.y.y, v.x, v.y);
    AssocEntry(a.x.x, a.x.y, b.x.x, b.y.x, b.x.y, b.y.y, v.x, v.y);
    AssocEntry(a.y.x, a.y.y, b.x.x, b.y.x, b.x.y, b.y.y, v.x, v.y);
  }

  lemma Expand(p: int, q: int, r: int, s: int)
    ensures (p + q) * (r + s) == p * r + p * s + q * r + q * s
    ensures (p - q) * (r - s) == p * r - p * s - q * r + q * s
  {
  }

  lemma Regroup(a: int, b: int, c: int, d: int)
    ensures (a * b) * (c * d) == (a * c) * (b * d)
  {
  }

  /** The polynomial identity behind the multiplicative determinant. */
  lemma DetEntry(a1: int, a2: int, a3: int, a4: int, b1: int, b2: int, b3: int, b4: int)
    ensures (a1 * b1 + a3 * b2) * (a2 * b3 + a4 * b4) - (a2 * b1 + a4 * b2) * (a1 * b3 + a3 * b4)
         == (a1 * a4 - a2 * a3) * (b1 * b4 - b2 * b3)
  {
    Expand(a1 * b1, a3 * b2, a2 * b3, a4 * b4);
    Regroup(a1, b1, a2, b3);
    Regroup(a1, b1, a4, b4);
    Regroup(a3, b2, a2, b3);
    Regroup(a3, b2, a4, b4);
    Expand(a2 * b1, a4 * b2, a1 * b3, a3 * b4);
    Regroup(a2, b1, a1, b3);
    Regroup(a2, b1, a3, b4);
    Regroup(a4, b2, a1, b3);
    Regroup(a4, b2, a3, b4);
    Expand(a1 * a4, a2 * a3, b1 * b4, b2 * b3);
  }

  /** The determinant is multiplicative in both layouts. */
  lemma DetMultiplicative(a: Matrix2, b: Matrix2)
    ensures Det(MulColumnMajor(a, b)) == Det(a) * Det(b)
    ensures Det(MulRowMajor(a, b)) == Det(a) * Det(b)
  {
    DetEntry(a.x.x, a.x.y, a.y.x, a.y.y, b.x.x, b.x.y, b.y.x, b.y.y);
    DetEntry(b.x.x, b.x.y, b.y.x, b.y.y, a.x.x, a.x.y, a.y.x, a.y.y);
    LayoutsMirror(b, a, Vector2(0, 0));
  }

  /** Transposition is an involution, reverses products and turns `m * v` into `v * m`. */
  lemma TransposeInvolution(m: Matrix2, a: Matrix2, b: Matrix2, v: Vector2)
    ensures Transpose(Transpose(m)) == m
    ensures Transpose(MulColumnMajor(a, b)) == MulColumnMajor(Transpose(b), Transpose(a))
    ensures Transpose(MulRowMajor(a, b)) == MulRowMajor(Transpose(b), Transpose(a))
    ensures MulVecColumnMajor(Transpose(m), v) == VecMulColumnMajor(v, m)
    ensures MulVecRowMajor(Transpose(m), v) == VecMulRowMajor(v, m)
  {
  }

  /** With a determinant of 1 or -1, `inverse` inverts in both layouts and on both sides. */
  lemma InverseInverts(m: Matrix2)
    requires Det(m) == 1 || Det(m) == -1
    ensures MulColumnMajor(m, Inverse(m)) == Identity() && MulColumnMajor(Inverse(m), m) == Identity()
    ensures MulRowMajor(m, Inverse(m)) == Identity() && MulRowMajor(Inverse(m), m) == Identity()
  {
    assert Quot(1, Det(m)) == Det(m);
  }

  /** Any larger determinant truncates `1 / det` to 0, so the integer inverse is the zero matrix. */
  lemma InverseTruncates(m: Matrix2)
    requires Det(m) > 1 || Det(m) < -1
    ensures Inverse(m) == Zero() && InverseAsWritten(m) == Zero()
  {
    assert Times.NatDiv(1, Times.Abs(Det(m))) == 0;
  }

  /** As written, `inverse` is the transpose of the inverse. */
  lemma InverseAsWrittenTransposed(m: Matrix2)
    requires Det(m) != 0
    ensures InverseAsWritten(m) == Transpose(Inverse(m))
  {
  }

  /**
   * For (3, 1, 4, 1), whose determinant is -1, `a * inverse(a)` is not the identity as
   * written; with the adjugate it is.
   */
  lemma InverseAsWrittenFails()
    ensures var a := Elements(3, 1, 4, 1);
      Det(a) == -1 &&
      InverseAsWritten(a) == Elements(-1, 4, 1, -3) &&
      MulColumnMajor(a, InverseAsWritten(a)) == Elements(13, 3, -9, -2) &&
      MulColumnMajor(a, Inverse(a)) == Identity()
  {
    var a := Elements(3, 1, 4, 1);
    assert Quot(1, -1) == -1;
    InverseInverts(a);
  }

  /**
   * The products of (3, 1, 4, 1) and (5, 9, 2, 6): (51, 14, 30, 8) in column-major layout and
   * (17, 33, 22, 42) in row-major layout, where the product as written gives 36 for `xy`
   * and 30 for `yy`.
   */
  lemma RowMajorAsWrittenFails()
    ensures var a, b := Elements(3, 1, 4, 1), Elements(5, 9, 2, 6);
      MulColumnMajor(a, b) == Elements(51, 14, 30, 8) &&
      MulRowMajor(a, b) == Elements(17, 33, 22, 42) &&
      MulRowMajorAsWritten(a, b) == Elements(17, 36, 22, 30)
  {
  }

  /**
   * The as-written row-major product is right exactly when `b.x.y == b.y.y` or `a` has a
   * zero off-diagonal: its `xy` term is off by `a.x.y * (b.x.y - b.y.y)` and its `yy` term
   * by `a.y.x * (b.y.y - b.x.y)`.
   */
  lemma RowMajorAsWrittenDiffers(a: Matrix2, b: Matrix2)
    ensures MulRowMajorAsWritten(a, b) == MulRowMajor(a, b) <==> (b.x.y == b.y.y || (a.x.y == 0 && a.y.x == 0))
  {
    var w, r := MulRowMajorAsWritten(a, b), MulRowMajor(a, b);
    var d := b.x.y - b.y.y;
    assert w.x.y - r.x.y == a.x.y * d;
    assert w.y.y - r.y.y == -(a.y.x * d);
    if d != 0 && a.x.y != 0 {
      assert a.x.y * d != 0;
    }
    if d != 0 && a.y.x != 0 {
      assert a.y.x * d != 0;
    }
  }

  /** The values of the matrix section of test/Math.cpp. */
  lemma TestValues()
    ensures var a, b := Elements(3, 1, 4, 1), Elements(5, 9, 2, 6);
      Add(a, b) == Elements(8, 10, 6, 7) &&
      Sub(a, b) == Elements(-2, -8, 2, -5) &&
      MulVecColumnMajor(a, Vector2(3, 5)) == Vector2(29, 8) &&
      MulVecRowMajor(a, Vector2(3, 5)) == Vector2(14, 17) &&
      Div(a, b) == Elements(0, 0, 2, 0) &&
      Det(a) == -1 &&
      Transpose(a) == Elements(3, 4, 1, 1)
  {
    assert Quot(3, 5) == 0 && Quot(1, 9) == 0 && Quot(4, 2) == 2 && Quot(1, 6) == 0;
  }
}

=== FILE: named_colors.dfy ===
/**
 * The table of named colours `getNamedColor` in src/UI/UIParser.cpp fills on first use:
 * 139 names, each with a red, green and blue byte.
 */
module NamedColors {
  import opened Wrappers

  /** `Vector3u`: one row of the named-colour table. */
  datatype Rgb = Rgb(r: nat, g: nat, b: nat)

  predicate IsByteRgb(c: Rgb)
  {
    c.r < 256 && c.g < 256 && c.b < 256
  }

  /** The first of two lookups that finds the key. */
  function Either(x: Option<Rgb>, y: Option<Rgb>): (c: Option<Rgb>)
    ensures c.Some? <==> x.Some? || y.Some?
    ensures x.Some? ==> c == x
    ensures x.None? ==> c == y
  {
    if x.Some? then x else y
  }

  /** The red rows of the named-colour table. */
  function Reds(name: string): (c: Option<Rgb>)
    ensures c.Some? ==> IsByteRgb(c.value)
  {
    if name == "light_salmon" then Some(Rgb(255, 160, 122)) else
    if name == "salmon" then Some(Rgb(250, 128, 114)) else
    if name == "dark_salmon" then Some(Rgb(233, 150, 122)) else
    if name == "light_coral" then Some(Rgb(240, 128, 128)) else
    if name == "indian_red" then Some(Rgb(205, 92, 92)) else
    if name == "crimson" then Some(Rgb(220, 20, 60)) else
    if name == "firebrick" then Some(Rgb(178, 34, 34)) else
    if name == "red" then Some(Rgb(255, 0, 0)) else
    if name == "dark_red" then Some(Rgb(139, 0, 0)) else
    None
  }

  /** The orange rows of the named-colour table. */
  function Oranges(name: string): (c: Option<Rgb>)
    ensures c.Some? ==> IsByteRgb(c.value)
  {
    if name == "coral" then Some(Rgb(255, 127, 80)) else
    if name == "tomato" then Some(Rgb(255, 99, 71)) else
    if name == "orange_red" then Some(Rgb(255, 69, 0)) else
    if name == "gold" then Some(Rgb(255, 215, 0)) else
    if name == "orange" then Some(Rgb(255, 165, 0)) else
    if name == "dark_orange" then Some(Rgb(255, 140, 0)) else
    None
  }

  /** The yellow rows of the named-colour table. */
  function Yellows(name: string): (c: Option<Rgb>)
    ensures c.Some? ==> IsByteRgb(c.value)
  {
    if name == "light_yellow" then Some(Rgb(255, 255, 224)) else
    if name == "lemon_chiffon" then Some(Rgb(255, 250, 205)) else
    if name == "light_goldenrod_yellow" then Some(Rgb(250, 250, 210)) else
    if name == "papaya_whip" then Some(Rgb(255, 239, 213)) else
    if name == "moccasin" then Some(Rgb(255, 228, 181)) else
    if name == "peach_puff" then Some(Rgb(255, 218, 185)) else
    if name == "pale_goldenrod" then Some(Rgb(238, 232, 170)) else
    if name == "khaki" then Some(Rgb(240, 230, 140)) else
    if name == "dark_khaki" then Some(Rgb(189, 183, 107)) else
    if name == "yellow" then Some(Rgb(255, 255, 0)) else
    None
  }

  /** The green rows of the named-colour table. */
  function Greens(name: string): (c: Option<Rgb>)
    ensures c.Some? ==> IsByteRgb(c.value)
  {
    if name == "lawn_green" then Some(Rgb(124, 252, 0)) else
    if name == "chartreuse" then Some(Rgb(127, 255, 0)) else
    if name == "lime_green" then Some(Rgb(50, 205, 50)) else
    if name == "lime" then Some(Rgb(0, 255, 0)) else
    if name == "forest_green" then Some(Rgb(34, 139, 34)) else
    if name == "green" then Some(Rgb(0, 128, 0)) else
    if name == "dark_green" then Some(Rgb(0, 100, 0)) else
    if name == "green_yellow" then Some(Rgb(173, 255, 47)) else
    if name == "yellow_green" then Some(Rgb(154, 205, 50)) else
    if name == "spring_green" then Some(Rgb(0, 255, 127)) else
    if name == "medium_spring_green" then Some(Rgb(0, 250, 154)) else
    if name == "light_green" then Some(Rgb(144, 238, 144)) else
    if name == "pale_green" then Some(Rgb(152, 251, 152)) else
    if name == "dark_sea_green" then Some(Rgb(143, 188, 143)) else
    if name == "medium_sea_green" then Some(Rgb(60, 179, 113)) else
    if name == "sea_green" then Some(Rgb(46, 139, 87)) else
    if name == "olive" then Some(Rgb(128, 128, 0)) else
    if name == "dark_olive_green" then Some(Rgb(85, 107, 47)) else
    if name == "olive_drab" then Some(Rgb(107, 142, 35)) else
    None
  }

  /** The cyan rows of the named-colour table. */
  function Cyans(name: string): (c: Option<Rgb>)
    ensures c.Some? ==> IsByteRgb(c.value)
  {
    if name == "light_cyan" then Some(Rgb(224, 255, 255)) else
    if name == "cyan" then Some(Rgb(0, 255, 255)) else
    if name == "aqua" then Some(Rgb(0, 255, 255)) else
    if name == "aquamarine" then Some(Rgb(127, 255, 212)) else
    if name == "medium_aquamarine" then Some(Rgb(102, 205, 170)) else
    if name == "pale_turquoise" then Some(Rgb(175, 238, 238)) else
    if name == "turquoise" then Some(Rgb(64, 224, 208)) else
    if name == "medium_turquoise" then Some(Rgb(72, 209, 204)) else
    if name == "dark_turquoise" then Some(Rgb(0, 206, 209)) else
    if name == "light_sea_green" then Some(Rgb(32, 178, 170)) else
    if name == "cadet_blue" then Some(Rgb(95, 158, 160)) else
    if name == "dark_cyan" then Some(Rgb(0, 139, 139)) else
    if name == "teal" then Some(Rgb(0, 128, 128)) else
    None
  }

  /** The blue rows as written: the first key is misspelt "poweder_blue". */
  function BluesAsWritten(name: string): (c: Option<Rgb>)
    ensures c.Some? ==> IsByteRgb(c.value)
  {
    if name == "poweder_blue" then Some(Rgb(176, 224, 230)) else
    if name == "light_blue" then Some(Rgb(173, 216, 230)) else
    if name == "light_sky_blue" then Some(Rgb(135, 206, 250)) else
    if name == "sky_blue" then Some(Rgb(135, 206, 235)) else
    if name == "deep_sky_blue" then Some(Rgb(0, 191, 255)) else
    if name == "light_steel_blue" then Some(Rgb(176, 196, 222)) else
    if name == "dodger_blue" then Some(Rgb(30, 144, 255)) else
    if name == "cornflower_blue" then Some(Rgb(100, 149, 237)) else
    if name == "steel_blue" then Some(Rgb(70, 130, 180)) else
    if name == "royal_blue" then Some(Rgb(65, 105, 225)) else
    if name == "blue" then Some(Rgb(0, 0, 255)) else
    if name == "medium_blue" then Some(Rgb(0, 0, 205)) else
    if name == "dark_blue" then Some(Rgb(0, 0, 139)) else
    if name == "navy" then Some(Rgb(0, 0, 128)) else
    if name == "midnight_blue" then Some(Rgb(25, 25, 112)) else
    if name == "midnight_slate_blue" then Some(Rgb(123, 104, 238)) else
    if name == "slate_blue" then Some(Rgb(106, 90, 205)) else
    if name == "dark_slate_blue" then Some(Rgb(72, 61, 139)) else
    None
  }

  /** The blue rows with the first key spelt "powder_blue". */
  function Blues(name: string): (c: Option<Rgb>)
    ensures c.Some? ==> IsByteRgb(c.value)
  {
    if name == "powder_blue" then Some(Rgb(176, 224, 230)) else
    if name == "light_blue" then Some(Rgb(173, 216, 230)) else
    if name == "light_sky_blue" then Some(Rgb(135, 206, 250)) else
    if name == "sky_blue" then Some(Rgb(135, 206, 235)) else
    if name == "deep_sky_blue" then Some(Rgb(0, 191, 255)) else
    if name == "light_steel_blue" then Some(Rgb(176, 196, 222)) else
    if name == "dodger_blue" then Some(Rgb(30, 144, 255)) else
    if name == "cornflower_blue" then Some(Rgb(100, 149, 237)) else
    if name == "steel_blue" then Some(Rgb(70, 130, 180)) else
    if name == "royal_blue" then Some(Rgb(65, 105, 225)) else
    if name == "blue" then Some(Rgb(0, 0, 255)) else
    if name == "medium_blue" then Some(Rgb(0, 0, 205)) else
    if name == "dark_blue" then Some(Rgb(0, 0, 139)) else
    if name == "navy" then Some(Rgb(0, 0, 128)) else
    if name == "midnight_blue" then Some(Rgb(25, 25, 112)) else
    if name == "midnight_slate_blue" then Some(Rgb(123, 104, 238)) else
    if name == "slate_blue" then Some(Rgb(106, 90, 205)) else
    if name == "dark_slate_blue" then Some(Rgb(72, 61, 139)) else
    None
  }

  /** The purple rows of the named-colour table. */
  function Purples(name: string): (c: Option<Rgb>)
    ensures c.Some? ==> IsByteRgb(c.value)
  {
    if name == "lavender" then Some(Rgb(230, 230, 250)) else
    if name == "thistle" then Some(Rgb(216, 191, 216)) else
    if name == "plum" then Some(Rgb(221, 160, 221)) else
    if name == "violet" then Some(Rgb(238, 130, 238)) else
    if name == "orchid" then Some(Rgb(218, 112, 214)) else
    if name == "fuchsia" then Some(Rgb(255, 0, 255)) else
    if name == "magenta" then Some(Rgb(255, 0, 255)) else
    if name == "medium_orchid" then Some(Rgb(186, 85, 211)) else
    if name == "medium_purple" then Some(Rgb(147, 112, 219)) else
    if name == "blue_violet" then Some(Rgb(138, 43, 226)) else
    if name == "dark_violet" then Some(Rgb(148, 0, 211)) else
    if name == "dark_orchid" then Some(Rgb(153, 50, 204)) else
    if name == "dark_magenta" then Some(Rgb(139, 0, 139)) else
    if name == "purple" then Some(Rgb(128, 0, 128)) else
    if name == "indigo" then Some(Rgb(75, 0, 130)) else
    None
  }

  /** The pink rows of the named-colour table. */
  function Pinks(name: string): (c: Option<Rgb>)
    ensures c.Some? ==> IsByteRgb(c.value)
  {
    if name == "pink" then Some(Rgb(255, 192, 203)) else
    if name == "light_pink" then Some(Rgb(255, 182, 193)) else
    if name == "hot_pink" then Some(Rgb(255, 105, 180)) else
    if name == "deep_pink" then Some(Rgb(255, 20, 147)) else
    if name == "pale_violet_red" then Some(Rgb(219, 112, 147)) else
    if name == "medium_violet_red" then Some(Rgb(199, 21, 133)) else
    None
  }

  /** The white rows of the named-colour table. */
  function Whites(name: string): (c: Option<Rgb>)
    ensures c.Some? ==> IsByteRgb(c.value)
  {
    if name == "white" then Some(Rgb(255, 255, 255)) else
    if name == "snow" then Some(Rgb(255, 250, 250)) else
    if name == "honeydew" then Some(Rgb(240, 255, 240)) else
    if name == "mint_cream" then Some(Rgb(245, 255, 250)) else
    if name == "azure" then Some(Rgb(240, 255, 255)) else
    if name == "alice_blue" then Some(Rgb(240, 248, 255)) else
    if name == "ghost_white" then Some(Rgb(248, 248, 255)) else
    if name == "white_smoke" then Some(Rgb(245, 245, 245)) else
    if name == "seashell" then Some(Rgb(255, 245, 238)) else
    if name == "beige" then Some(Rgb(245, 245, 220)) else
    if name == "old_lace" then Some(Rgb(253, 245, 230)) else
    if name == "floral_white" then Some(Rgb(255, 250, 240)) else
    if name == "ivory" then Some(Rgb(255, 255, 240)) else
    if name == "antique_white" then Some(Rgb(250, 235, 215)) else
    if name == "linen" then Some(Rgb(250, 240, 230)) else
    if name == "lavender_blush" then Some(Rgb(255, 240, 245)) else
    if name == "misty_rose" then Some(Rgb(255, 228, 225)) else
    None
  }

  /** The gray rows of the named-colour table. */
  function Grays(name: string): (c: Option<Rgb>)
    ensures c.Some? ==> IsByteRgb(c.value)
  {
    if name == "gainsboro" then Some(Rgb(220, 220, 220)) else
    if name == "light_gray" then Some(Rgb(211, 211, 211)) else
    if name == "silver" then Some(Rgb(192, 192, 192)) else
    if name == "dark_gray" then Some(Rgb(169, 169, 169)) else
    if name == "gray" then Some(Rgb(128, 128, 128)) else
    if name == "dim_gray" then Some(Rgb(105, 105, 105)) else
    if name == "light_slate_gray" then Some(Rgb(119, 136, 153)) else
    if name == "slate_gray" then Some(Rgb(112, 128, 144)) else
    if name == "dark_slate_gray" then Some(Rgb(47, 79, 79)) else
    if name == "black" then Some(Rgb(0, 0, 0)) else
    None
  }

  /** The brown rows of the named-colour table. */
  function Browns(name: string): (c: Option<Rgb>)
    ensures c.Some? ==> IsByteRgb(c.value)
  {
    if name == "cornsilk" then Some(Rgb(255, 248, 220)) else
    if name == "blanched_almond" then Some(Rgb(255, 235, 205)) else
    if name == "bisque" then Some(Rgb(255, 228, 196)) else
    if name == "navajo_white" then Some(Rgb(255, 222, 173)) else
    if name == "wheat" then Some(Rgb(245, 222, 179)) else
    if name == "burlywood" then Some(Rgb(222, 184, 135)) else
    if name == "tan" then Some(Rgb(210, 180, 140)) else
    if name == "rosy_brown" then Some(Rgb(188, 143, 143)) else
    if name == "sandy_brown" then Some(Rgb(244, 164, 96)) else
    if name == "goldenrod" then Some(Rgb(218, 165, 32)) else
    if name == "peru" then Some(Rgb(205, 133, 63)) else
    if name == "chocolate" then Some(Rgb(210, 105, 30)) else
    if name == "saddle_brown" then Some(Rgb(139, 69, 19)) else
    if name == "sienna" then Some(Rgb(160, 82, 45)) else
    if name == "brown" then Some(Rgb(165, 42, 42)) else
    if name == "maroon" then Some(Rgb(128, 0, 0)) else
    None
  }

  /** The table `getNamedColor` fills, as written. Every key occurs in one group only. */
  function NamedRgbAsWritten(name: string): (c: Option<Rgb>)
    ensures c.Some? ==> IsByteRgb(c.value)
  {
    Either(Either(Either(Either(Reds(name), Oranges(name)), Either(Yellows(name), Greens(name))),
                  Either(Either(Cyans(name), BluesAsWritten(name)), Either(Purples(name), Pinks(name)))),
           Either(Either(Whites(name), Grays(name)), Browns(name)))
  }

  /** The table with the blue key spelt as the other multi-word keys are. */
  function NamedRgb(name: string): (c: Option<Rgb>)
    ensures c.Some? ==> IsByteRgb(c.value)
  {
    Either(Either(Either(Either(Reds(name), Oranges(name)), Either(Yellows(name), Greens(name))),
                  Either(Either(Cyans(name), Blues(name)), Either(Purples(name), Pinks(name)))),
           Either(Either(Whites(name), Grays(name)), Browns(name)))
  }

  /** No red, orange or yellow key is spelt "powder_blue". */
  lemma WarmGroupsLackPowderBlue()
    ensures Reds("powder_blue").None? && Oranges("powder_blue").None? && Yellows("powder_blue").None?
  {
  }

  /** No pink, purple or gray key is spelt "powder_blue". */
  lemma MutedGroupsLackPowderBlue()
    ensures Pinks("powder_blue").None? && Purples("powder_blue").None? && Grays("powder_blue").None?
  {
  }

  /** No green, cyan or brown key is spelt "powder_blue". */
  lemma GreenGroupsLackPowderBlue()
    ensures Greens("powder_blue").None? && Cyans("powder_blue").None? && Browns("powder_blue").None?
  {
  }

  /** The blue rows as written and the white rows lack "powder_blue"; the blue rows hold the misspelling. */
  lemma PaleGroupsLackPowderBlue()
    ensures BluesAsWritten("powder_blue").None? && Whites("powder_blue").None?
    ensures BluesAsWritten("poweder_blue") == Some(Rgb(176, 224, 230))
  {
  }

  /** The standard name finds nothing in the table as written, and finds its colour once spelt right. */
  lemma NamedRgbAsWrittenMissesPowderBlue()
    ensures NamedRgbAsWritten("powder_blue") == None
    ensures NamedRgb("powder_blue") == Some(Rgb(176, 224, 230))
  {
    WarmGroupsLackPowderBlue();
    MutedGroupsLackPowderBlue();
    GreenGroupsLackPowderBlue();
    PaleGroupsLackPowderBlue();
    assert Blues("powder_blue") == Some(Rgb(176, 224, 230));
  }
}

=== FILE: object_pool.dfy ===
/**
 * The paged free-list allocator of src/Core/ObjectPool.cpp. The pool is a list of
 * pages; each page holds `pageSize` object slots, a count of slots in use and an
 * intrusive list of its free slots. Raw addresses are modelled as (page, slot) pairs.
 */
module ObjectPools {
  import opened Wrappers

  /** The object in slot `slot` of the `page`-th page of the list. */
  datatype Ptr = Ptr(page: nat, slot: nat)

  /** `PageHeader`: the free slots in list order (`m_nextFree` on) and `m_numObjects`. */
  datatype Page = Page(free: seq<nat>, count: nat)

  /** A page of `ps` slots: the free list names each slot once and the count makes up the rest. */
  predicate PageOk(p: Page, ps: nat)
  {
    && p.count + |p.free| == ps
    && (forall k :: 0 <= k < |p.free| ==> p.free[k] < ps)
    && Distinct(p.free)
  }

  predicate AllOk(pages: seq<Page>, ps: nat)
  {
    forall i :: 0 <= i < |pages| ==> PageOk(pages[i], ps)
  }

  /** `allocPage`: every slot free, linked in address order, none in use. */
  function FreshPage(ps: nat): (p: Page)
    ensures PageOk(p, ps) && p.count == 0
  {
    Page(seq(ps, i => i), 0)
  }

  /** `ptr` was handed out and not given back. */
  predicate Allocated(pages: seq<Page>, ps: nat, ptr: Ptr)
  {
    ptr.page < |pages| && ptr.slot < ps && ptr.slot !in pages[ptr.page].free
  }

  /** The number of objects in use over all pages. */
  function Total(pages: seq<Page>): nat
  {
    if pages == [] then 0 else Total(pages[..|pages| - 1]) + pages[|pages| - 1].count
  }

  /**
   * The page `alloc` settles on: the first page that is not full, or one past the
   * last page when every page is full.
   */
  function FirstOpen(pages: seq<Page>, ps: nat): (i: nat)
    ensures i <= |pages|
    ensures forall j :: 0 <= j < i ==> pages[j].count == ps
    ensures i < |pages| ==> pages[i].count != ps
  {
    if pages == [] then 0
    else if pages[0].count != ps then 0
    else 1 + FirstOpen(pages[1..], ps)
  }

  /**
   * `alloc`: the head of the first open page's free list, on a page appended to the
   * list when all are full; the slot was free and is now in use, one object more is
   * in use, and no other page changes.
   */
  function AllocStep(pages: seq<Page>, ps: nat): (r: (seq<Page>, Ptr))
    requires AllOk(pages, ps) && 1 <= ps
    ensures AllOk(r.0, ps)
    ensures Allocated(r.0, ps, r.1) && (r.1.page < |pages| ==> !Allocated(pages, ps, r.1))
    ensures r.1.page == FirstOpen(pages, ps)
    ensures |r.0| == if FirstOpen(pages, ps) < |pages| then |pages| else |pages| + 1
    ensures forall i :: 0 <= i < |pages| && i != r.1.page ==> r.0[i] == pages[i]
    ensures r.0[r.1.page].count == (if r.1.page < |pages| then pages[r.1.page].count else 0) + 1
  {
    var i := FirstOpen(pages, ps);
    var grown := if i == |pages| then pages + [FreshPage(ps)] else pages;
    var p := grown[i];
    assert p.free != [];
    (grown[i := Page(p.free[1..], p.count + 1)], Ptr(i, p.free[0]))
  }

  /** `free`: the slot goes back on the head of its page's free list, one object fewer in use. */
  function FreeStep(pages: seq<Page>, ps: nat, ptr: Ptr): (r: seq<Page>)
    requires AllOk(pages, ps) && Allocated(pages, ps, ptr)
    ensures AllOk(r, ps) && |r| == |pages| && !Allocated(r, ps, ptr)
    ensures r[ptr.page].free == [ptr.slot] + pages[ptr.page].free
    ensures forall i :: 0 <= i < |pages| && i != ptr.page ==> r[i] == pages[i]
  {
    var p := pages[ptr.page];
    assert p.count > 0 by {
      if p.count == 0 {
        FreeListFull(p, ps);
      }
    }
    pages[ptr.page := Page([ptr.slot] + p.free, p.count - 1)]
  }

  predicate Distinct(xs: seq<nat>)
  {
    forall j, k :: 0 <= j < k < |xs| ==> xs[j] != xs[k]
  }

  /** A page with no object in use has every slot on its free list. */
  lemma FreeListFull(p: Page, ps: nat)
    requires PageOk(p, ps) && p.count == 0
    ensures forall s :: 0 <= s < ps ==> s in p.free
  {
    forall s | 0 <= s < ps
      ensures s in p.free
    {
      if s !in p.free {
        Pigeonhole(p.free, ps, s);
      }
    }
  }

  /** `xs` without `v`. */
  function Without(xs: seq<nat>, v: nat): (r: seq<nat>)
    ensures forall x :: x in r <==> x in xs && x != v
    ensures |r| <= |xs|
    ensures v !in xs ==> |r| == |xs|
  {
    if xs == [] then []
    else if xs[0] == v then Without(xs[1..], v)
    else [xs[0]] + Without(xs[1..], v)
  }

  /** Dropping a value from distinct slots keeps them distinct and loses at most one. */
  lemma {:induction false} WithoutDistinct(xs: seq<nat>, v: nat)
    requires Distinct(xs)
    ensures Distinct(Without(xs, v)) && |xs| - 1 <= |Without(xs, v)|
  {
    if xs != [] {
      WithoutDistinct(xs[1..], v);
      if xs[0] == v {
        assert v !in xs[1..];
      } else {
        assert xs[0] !in Without(xs[1..], v);
      }
    }
  }

  /** Distinct slots below `n` number at most `n`. */
  lemma {:induction false} Bound(xs: seq<nat>, n: nat)
    requires Distinct(xs) && forall x :: x in xs ==> x < n
    ensures |xs| <= n
    decreases n
  {
    if xs != [] {
      assert xs[0] in xs;
      WithoutDistinct(xs, n - 1);
      Bound(Without(xs, n - 1), n - 1);
    }
  }

  /** Slot numbers above `s` move down by one. */
  function Squeeze(xs: seq<nat>, s: nat): (r: seq<nat>)
    requires s !in xs
    ensures |r| == |xs|
    ensures forall k :: 0 <= k < |xs| ==> r[k] == if xs[k] > s then xs[k] - 1 else xs[k]
  {
    if xs == [] then [] else [if xs[0] > s then xs[0] - 1 else xs[0]] + Squeeze(xs[1..], s)
  }

  /** Distinct slots below `n` that leave out `s` number fewer than `n`. */
  lemma Pigeonhole(xs: seq<nat>, n: nat, s: nat)
    requires Distinct(xs) && (forall x :: x in xs ==> x < n) && s < n && s !in xs
    ensures |xs| < n
  {
    var ys := Squeeze(xs, s);
    forall k | 0 <= k < |ys|
      ensures ys[k] < n - 1
    {
      assert xs[k] in xs;
    }
    forall y | y in ys
      ensures y < n - 1
    {
      var k :| 0 <= k < |ys| && ys[k] == y;
    }
    forall j, k | 0 <= j < k < |ys|
      ensures ys[j] != ys[k]
    {
      assert xs[j] in xs && xs[k] in xs;
    }
    Bound(ys, n - 1);
  }

  /** Changing one page changes the total by the change in its count. */
  lemma {:induction false} TotalUpdate(pages: seq<Page>, i: nat, p: Page)
    requires i < |pages|
    ensures Total(pages[i := p]) == Total(pages) - pages[i].count + p.count
  {
    var last := |pages| - 1;
    if i < last {
      assert pages[i := p][..last] == pages[..last][i := p];
      TotalUpdate(pages[..last], i, p);
    } else {
      assert pages[i := p][..last] == pages[..last];
    }
  }

  /** `alloc` puts one more object in use. */
  lemma AllocCounts(pages: seq<Page>, ps: nat)
    requires AllOk(pages, ps) && 1 <= ps
    ensures Total(AllocStep(pages, ps).0) == Total(pages) + 1
  {
    var i := FirstOpen(pages, ps);
    var grown := if i == |pages| then pages + [FreshPage(ps)] else pages;
    assert Total(grown) == Total(pages) by {
      if i == |pages| {
        assert grown[..|grown| - 1] == pages;
      }
    }
    TotalUpdate(grown, i, AllocStep(pages, ps).0[i]);
    assert AllocStep(pages, ps).0 == grown[i := AllocStep(pages, ps).0[i]];
  }

  /** `free` puts one object fewer in use. */
  lemma FreeCounts(pages: seq<Page>, ps: nat, ptr: Ptr)
    requires AllOk(pages, ps) && Allocated(pages, ps, ptr)
    ensures Total(FreeStep(pages, ps, ptr)) == Total(pages) - 1
  {
    var r := FreeStep(pages, ps, ptr);
    TotalUpdate(pages, ptr.page, r[ptr.page]);
    assert r == pages[ptr.page := r[ptr.page]];
  }

  /** Freeing an object and allocating again on a pool whose earlier pages are full hands back the same object. */
  lemma FreeThenAllocReuses(pages: seq<Page>, ps: nat, ptr: Ptr)
    requires AllOk(pages, ps) && 1 <= ps && Allocated(pages, ps, ptr)
    requires forall j :: 0 <= j < ptr.page ==> pages[j].count == ps
    ensures AllocStep(FreeStep(pages, ps, ptr), ps).1 == ptr
    ensures AllocStep(FreeStep(pages, ps, ptr), ps).0 == pages
  {
    var freed := FreeStep(pages, ps, ptr);
    FirstOpenAt(freed, ps, ptr.page);
    var r := AllocStep(freed, ps).0;
    assert r[ptr.page] == pages[ptr.page];
    assert r == pages;
  }

  /** The first open page is the one before which all are full and which is not. */
  lemma {:induction false} FirstOpenAt(pages: seq<Page>, ps: nat, i: nat)
    requires i < |pages| && pages[i].count != ps
    requires forall j :: 0 <= j < i ==> pages[j].count == ps
    ensures FirstOpen(pages, ps) == i
  {
    if 0 < i {
      FirstOpenAt(pages[1..], ps, i - 1);
    }
  }

  /** `k` allocations on the pool as it stands. */
  function AllocMany(pages: seq<Page>, ps: nat, k: nat): (r: seq<Page>)
    requires AllOk(pages, ps) && 1 <= ps
    ensures AllOk(r, ps)
  {
    if k == 0 then pages else AllocStep(AllocMany(pages, ps, k - 1), ps).0
  }

  /**
   * The pool after `k` allocations from empty: `k` objects in use, every page but the
   * last full, and the last holding at least one object.
   */
  predicate Packed(s: seq<Page>, ps: nat, k: nat)
  {
    && Total(s) == k
    && (forall j :: 0 <= j < |s| - 1 ==> s[j].count == ps)
    && (s == [] <==> k == 0)
    && (s != [] ==> 1 <= s[|s| - 1].count && k == (|s| - 1) * ps + s[|s| - 1].count)
  }

  /** One more allocation on a packed pool packs one more object. */
  lemma AllocKeepsPacked(s: seq<Page>, ps: nat, k: nat)
    requires AllOk(s, ps) && 1 <= ps && Packed(s, ps, k)
    ensures Packed(AllocStep(s, ps).0, ps, k + 1)
  {
    if s != [] && s[|s| - 1].count != ps {
      AllocPackedLast(s, ps, k);
    } else {
      AllocPackedNew(s, ps, k);
    }
  }

  /** An allocation on a packed pool whose last page has room goes to that page. */
  lemma AllocPackedLast(s: seq<Page>, ps: nat, k: nat)
    requires AllOk(s, ps) && 1 <= ps && Packed(s, ps, k)
    requires s != [] && s[|s| - 1].count != ps
    ensures Packed(AllocStep(s, ps).0, ps, k + 1)
  {
    AllocCounts(s, ps);
    FirstOpenAt(s, ps, |s| - 1);
  }

  /** An allocation on a packed pool whose pages are all full opens a new last page. */
  lemma AllocPackedNew(s: seq<Page>, ps: nat, k: nat)
    requires AllOk(s, ps) && 1 <= ps && Packed(s, ps, k)
    requires s == [] || s[|s| - 1].count == ps
    ensures Packed(AllocStep(s, ps).0, ps, k + 1)
  {
    AllocCounts(s, ps);
    assert FirstOpen(s, ps) == |s|;
    var r := AllocStep(s, ps).0;
    assert r[|r| - 1].count == 1 && |r| - 1 == |s|;
    if s != [] {
      FullPages(s, ps, k);
    }
  }

  /** A packed pool whose last page is full holds exactly its pages' worth. */
  lemma FullPages(s: seq<Page>, ps: nat, k: nat)
    requires Packed(s, ps, k) && s != [] && s[|s| - 1].count == ps
    ensures k == |s| * ps
  {
    assert (|s| - 1) * ps + ps == |s| * ps;
  }

  /** A packed pool has as few pages as can hold its objects. */
  lemma PackedPages(s: seq<Page>, ps: nat, k: nat)
    requires AllOk(s, ps) && 1 <= ps && Packed(s, ps, k)
    ensures (|s| - 1) * ps < k <= |s| * ps
  {
    if s != [] {
      assert s[|s| - 1].count <= ps;
      assert (|s| - 1) * ps + ps == |s| * ps;
    }
  }

  /** From an empty pool, `k` allocations fill pages in order. */
  lemma {:induction false} AllocFromEmpty(ps: nat, k: nat)
    requires 1 <= ps
    ensures Packed(AllocMany([], ps, k), ps, k)
  {
    if 0 < k {
      var prev := AllocMany([], ps, k - 1);
      AllocFromEmpty(ps, k - 1);
      AllocKeepsPacked(prev, ps, k - 1);
    }
  }

  /**
   * From an empty pool, `k` allocations take `k / ps` pages rounded up: the pages before
   * the last cannot hold `k` objects and all of them can.
   */
  lemma PagesAfter(ps: nat, k: nat)
    requires 1 <= ps
    ensures var s := AllocMany([], ps, k); (|s| - 1) * ps < k <= |s| * ps
  {
    AllocFromEmpty(ps, k);
    PackedPages(AllocMany([], ps, k), ps, k);
  }

  /** The pool of test/Core.cpp with 128-object pages: 128, 129 and 257 objects take 1, 2 and 3 pages. */
  lemma PagesOfTest()
    ensures |AllocMany([], 128, 128)| == 1
    ensures |AllocMany([], 128, 129)| == 2
    ensures |AllocMany([], 128, 257)| == 3
  {
    PagesOfCount(128, 1);
    PagesOfCount(129, 2);
    PagesOfCount(257, 3);
  }

  /** `n` pages of 128 objects are the fewest that hold `k` objects. */
  lemma PagesOfCount(k: nat, n: nat)
    requires (n - 1) * 128 < k <= n * 128
    ensures |AllocMany([], 128, k)| == n
  {
    PagesAfter(128, k);
  }

  class ObjectPool {
    /** `sizeof(void*)` on a 64-bit target: a free slot holds the next free slot's address. */
    static const AddressSize: nat := 8

    /** `m_objectSize`: bytes per object; it only scales addresses. */
    var objectSize: nat
    /** `m_pageSize`: objects per page. */
    var pageSize: nat
    /** The page list from `m_firstPage` on. */
    var pages: seq<Page>

    ghost predicate Valid()
      reads this
    {
      AllOk(pages, pageSize)
    }

    /** `ObjectPool()`: no pages, object size 0, 512 objects per page. */
    constructor ()
      ensures Valid() && pages == [] && objectSize == 0 && pageSize == 512
    {
      objectSize, pageSize, pages := 0, 512, [];
    }

    /** `ObjectPool(objectSize, pageSize)`. */
    constructor WithSizes(objectSize: nat, pageSize: nat)
      ensures Valid() && pages == [] && this.objectSize == objectSize && this.pageSize == pageSize
    {
      this.objectSize, this.pageSize, pages := objectSize, pageSize, [];
    }

    /** `setObjectSize`: takes effect only while no page exists. */
    method SetObjectSize(size: nat)
      requires Valid() && size >= AddressSize
      modifies this
      ensures Valid() && pages == old(pages) && pageSize == old(pageSize)
      ensures objectSize == if old(pages) == [] then size else old(objectSize)
    {
      if pages == [] {
        objectSize := size;
      }
    }

    /** `setPageSize`: takes effect only while no page exists. */
    method SetPageSize(size: nat)
      requires Valid() && size >= 1
      modifies this
      ensures Valid() && pages == old(pages) && objectSize == old(objectSize)
      ensures pageSize == if old(pages) == [] then size else old(pageSize)
    {
      if pages == [] {
        pageSize := size;
      }
    }

    /** `getNumObjects`: the objects in use, summed over the page list. */
    method NumObjects() returns (n: nat)
      ensures n == Total(pages)
    {
      n := 0;
      var i := 0;
      while i < |pages|
        invariant i <= |pages| && n == Total(pages[..i])
      {
        assert pages[..i + 1][..i] == pages[..i];
        n := n + pages[i].count;
        i := i + 1;
      }
      assert pages[..i] == pages;
    }

    /** `getNumPages`: the length of the page list. */
    method NumPages() returns (n: nat)
      ensures n == |pages|
    {
      n := 0;
      while n < |pages|
        invariant n <= |pages|
      {
        n := n + 1;
      }
    }

    /** `allocPage`: threads every slot onto the free list in address order. */
    method AllocPage() returns (p: Page)
      ensures p == FreshPage(pageSize)
    {
      var free: seq<nat> := [];
      for i := 0 to pageSize
        invariant free == seq(i, j => j)
      {
        free := free + [i];
      }
      p := Page(free, 0);
    }

    /** `alloc`: walks to the first page that is not full, appending a page when none is. */
    method Alloc() returns (ptr: Ptr)
      requires Valid() && 1 <= pageSize
      modifies this
      ensures pageSize == old(pageSize) && objectSize == old(objectSize)
      ensures Valid() && (pages, ptr) == AllocStep(old(pages), old(pageSize))
      ensures Total(pages) == Total(old(pages)) + 1
    {
      AllocCounts(pages, pageSize);
      if pages == [] {
        var first := AllocPage();
        pages := [first];
      }
      var i := 0;
      while pages[i].count == pageSize && i + 1 < |pages|
        invariant i < |pages| && forall j :: 0 <= j < i ==> pages[j].count == pageSize
      {
        i := i + 1;
      }
      if pages[i].count == pageSize {
        var next := AllocPage();
        pages := pages + [next];
        i := i + 1;
      }
      FirstOpenAt(pages, pageSize, i);
      var p := pages[i];
      ptr := Ptr(i, p.free[0]);
      pages := pages[i := Page(p.free[1..], p.count + 1)];
    }

    /**
     * `free`: nothing happens for a null address or a pool without pages; otherwise the
     * page holding the object takes its slot back.
     */
    method Free(ptr: Option<Ptr>)
      requires Valid()
      requires ptr.Some? && pages != [] ==> Allocated(pages, pageSize, ptr.value)
      modifies this
      ensures Valid() && pageSize == old(pageSize) && objectSize == old(objectSize)
      ensures pages == if ptr.None? || old(pages) == [] then old(pages)
                       else FreeStep(old(pages), pageSize, ptr.value)
      ensures ptr.Some? && old(pages) != [] ==> Total(pages) == Total(old(pages)) - 1
    {
      if pages == [] || ptr.None? {
        return;
      }
      var target := ptr.value;
      FreeCounts(pages, pageSize, target);
      var i := 0;
      while i < |pages| && i != target.page
        invariant i <= target.page < |pages|
      {
        i := i + 1;
      }
      var p := pages[i];
      pages := pages[i := Page([target.slot] + p.free, p.count - 1)];
    }

    /** `reset`: releases every page. */
    method Reset()
      modifies this
      ensures pages == [] && Total(pages) == 0
      ensures objectSize == old(objectSize) && pageSize == old(pageSize)
    {
      pages := [];
    }
  }
}

=== FILE: profiler.dfy ===
/**
 * The profiler of src/Core/Profiler.cpp: markers report elapsed times under the name
 * `label:func`; each name keeps its latest interval of up to ten times and the list of
 * averages of the full intervals before it. Times are whole microseconds.
 */
module Profilers {

  /** The number of times an interval holds before it is averaged. */
  const IntervalSize: nat := 10

  /** The sum of the times. */
  function Sum(s: seq<nat>): nat
  {
    if |s| == 0 then 0 else Sum(s[..|s| - 1]) + s[|s| - 1]
  }

  /** `label + ':' + func`, the key of a marker's data. */
  function MarkerName(markerLabel: string, markerFunc: string): (r: string)
    ensures |r| == |markerLabel| + 1 + |markerFunc| && r[|markerLabel|] == ':'
    ensures r[..|markerLabel|] == markerLabel && r[|markerLabel| + 1..] == markerFunc
  {
    markerLabel + [':'] + markerFunc
  }

  /** Without a colon in the markerLabel, the name tells the markerLabel and the function apart. */
  lemma MarkerNameInjective(l1: string, f1: string, l2: string, f2: string)
    requires ':' !in l1 && ':' !in l2
    requires MarkerName(l1, f1) == MarkerName(l2, f2)
    ensures l1 == l2 && f1 == f2
  {
  }

  /** A colon in the markerLabel lets two different markers share one entry. */
  lemma MarkerNamesCollide()
    ensures MarkerName("a:b", "c") == MarkerName("a", "b:c")
  {
  }

  /** `ProfilerData`: the marker it was made for, the current interval, the interval averages and `m_numRuns`. */
  datatype ProfilerData = ProfilerData(markerLabel: string, markerFunc: string, interval: seq<nat>, averages: seq<nat>, numRuns: nat)

  /** A new entry: no times yet, no runs. */
  function Fresh(markerLabel: string, markerFunc: string): (d: ProfilerData)
    ensures d.markerLabel == markerLabel && d.markerFunc == markerFunc && d.interval == [] && d.averages == [] && d.numRuns == 0
  {
    ProfilerData(markerLabel, markerFunc, [], [], 0)
  }

  /**
   * One more time recorded: a full interval is first averaged (`Time / 10.0`, truncated)
   * onto the averages and emptied; then the time joins the interval.
   */
  function Recorded(d: ProfilerData, t: nat): (r: ProfilerData)
    ensures r.markerLabel == d.markerLabel && r.markerFunc == d.markerFunc && r.numRuns == d.numRuns
    ensures |d.interval| == IntervalSize ==> r.averages == d.averages + [Sum(d.interval) / IntervalSize] && r.interval == [t]
    ensures |d.interval| != IntervalSize ==> r.averages == d.averages && r.interval == d.interval + [t]
  {
    if |d.interval| == IntervalSize then
      d.(averages := d.averages + [Sum(d.interval) / IntervalSize], interval := [t])
    else
      d.(interval := d.interval + [t])
  }

  /** The entry after recording `ts` in order on a new entry. */
  function History(markerLabel: string, markerFunc: string, ts: seq<nat>): ProfilerData
  {
    if |ts| == 0 then Fresh(markerLabel, markerFunc)
    else Recorded(History(markerLabel, markerFunc, ts[..|ts| - 1]), ts[|ts| - 1])
  }

  /**
   * The shape of an entry after the times `ts`: the interval holds the last one to ten of
   * them, and each average is the truncated mean of ten consecutive earlier times.
   */
  ghost predicate Shaped(ts: seq<nat>, d: ProfilerData)
  {
    |d.averages| == (|ts| - 1) / IntervalSize &&
    IntervalSize * |d.averages| <= |ts| &&
    d.interval == ts[IntervalSize * |d.averages|..] &&
    1 <= |d.interval| <= IntervalSize &&
    forall j :: 0 <= j < |d.averages| ==>
      IntervalSize * j + IntervalSize <= |ts| &&
      d.averages[j] == Sum(ts[IntervalSize * j..IntervalSize * j + IntervalSize]) / IntervalSize
  }

  /** Recording onto a full interval closes it as the next average and starts a new one. */
  lemma FullStep(ts: seq<nat>, t: nat, d: ProfilerData)
    requires |ts| >= 1 && Shaped(ts, d) && |d.interval| == IntervalSize
    ensures Shaped(ts + [t], Recorded(d, t))
  {
    var a, ts1, r := |d.averages|, ts + [t], Recorded(d, t);
    assert |ts| == IntervalSize * (a + 1);
    assert d.interval == ts1[IntervalSize * a..IntervalSize * a + IntervalSize];
    assert r.interval == ts1[IntervalSize * (a + 1)..];
    forall j | 0 <= j < |r.averages|
      ensures r.averages[j] == Sum(ts1[IntervalSize * j..IntervalSize * j + IntervalSize]) / IntervalSize
    {
      if j < a {
        assert ts[IntervalSize * j..IntervalSize * j + IntervalSize] == ts1[IntervalSize * j..IntervalSize * j + IntervalSize];
      }
    }
  }

  /** Recording onto an interval that is not full extends it; the averages stay. */
  lemma PartialStep(ts: seq<nat>, t: nat, d: ProfilerData)
    requires |ts| >= 1 && Shaped(ts, d) && |d.interval| != IntervalSize
    ensures Shaped(ts + [t], Recorded(d, t))
  {
    var a, ts1 := |d.averages|, ts + [t];
    assert ts[IntervalSize * a..] + [t] == ts1[IntervalSize * a..];
    forall j | 0 <= j < a
      ensures ts[IntervalSize * j..IntervalSize * j + IntervalSize] == ts1[IntervalSize * j..IntervalSize * j + IntervalSize]
    {
    }
  }

  /**
   * After `n >= 1` recorded times the interval holds the last `(n - 1) % 10 + 1` of them,
   * and each average is the truncated mean of ten consecutive earlier times.
   */
  lemma {:induction false} HistoryShape(markerLabel: string, markerFunc: string, ts: seq<nat>)
    requires |ts| >= 1
    ensures Shaped(ts, History(markerLabel, markerFunc, ts))
  {
    var n := |ts|;
    if n == 1 {
      assert ts[..0] == [];
    } else {
      var ts' := ts[..n - 1];
      HistoryShape(markerLabel, markerFunc, ts');
      var d' := History(markerLabel, markerFunc, ts');
      assert ts == ts' + [ts[n - 1]];
      if |d'.interval| == IntervalSize {
        FullStep(ts', ts[n - 1], d');
      } else {
        PartialStep(ts', ts[n - 1], d');
      }
    }
  }

  /** The entry keyed `k` was made for a marker named `k`, keeps at most ten times, and counts no runs. */
  ghost predicate Keyed(k: string, d: ProfilerData)
  {
    MarkerName(d.markerLabel, d.markerFunc) == k && |d.interval| <= IntervalSize && d.numRuns == 0
  }

  /** `Profiler`: the data of every marker name seen. */
  class Profiler {
    var data: map<string, ProfilerData>

    ghost predicate Valid()
      reads this
    {
      forall k :: k in data ==> Keyed(k, data[k])
    }

    constructor()
      ensures Valid() && data == map[]
    {
      data := map[];
    }

    /** The sum of an interval, as the loop of `addMarker` adds it up. */
    static method IntervalSum(interval: seq<nat>) returns (sum: nat)
      ensures sum == Sum(interval)
    {
      sum := 0;
      var i := 0;
      while i < |interval|
        invariant i <= |interval| && sum == Sum(interval[..i])
      {
        assert interval[..i + 1][..i] == interval[..i];
        sum := sum + interval[i];
        i := i + 1;
      }
      assert interval[..i] == interval;
    }

    /**
     * `addMarker`: the entry named `label:func`, made if missing, records `elapsed`; every
     * other entry stays.
     */
    method AddMarker(markerLabel: string, markerFunc: string, elapsed: nat)
      requires Valid()
      modifies this
      ensures Valid()
      ensures var name := MarkerName(markerLabel, markerFunc);
        data == old(data)[name := Recorded(if name in old(data) then old(data)[name] else Fresh(markerLabel, markerFunc), elapsed)]
      ensures 1 <= |data[MarkerName(markerLabel, markerFunc)].interval| <= IntervalSize
    {
      var name := MarkerName(markerLabel, markerFunc);
      var d := if name in data then data[name] else Fresh(markerLabel, markerFunc);
      if |d.interval| == IntervalSize {
        var average := IntervalSum(d.interval);
        d := d.(averages := d.averages + [average / IntervalSize]);
        d := d.(interval := []);
      }
      d := d.(interval := d.interval + [elapsed]);
      assert [] + [elapsed] == [elapsed];
      data := data[name := d];
    }

    /** `getData(func, label)`: the entry named `label:func`, made empty if missing. */
    method GetData(markerFunc: string, markerLabel: string) returns (d: ProfilerData)
      requires Valid()
      modifies this
      ensures Valid()
      ensures var name := MarkerName(markerLabel, markerFunc);
        name in data && d == data[name] &&
        (name in old(data) ==> data == old(data)) &&
        (name !in old(data) ==> d == Fresh(markerLabel, markerFunc) && data == old(data)[name := d])
    {
      var name := MarkerName(markerLabel, markerFunc);
      if name !in data {
        data := data[name := Fresh(markerLabel, markerFunc)];
      }
      d := data[name];
    }
  }
}

=== FILE: ring_buffer.dfy ===
/**
 * The byte FIFO of src/Core/RingBuffer.cpp: a heap block of `capacity` bytes, a
 * front offset and a byte count. Reads take bytes from the front, writes append
 * at the back, and a write that does not fit moves everything into a new block
 * of twice the new size.
 */
module RingBuffers {

  newtype byte = x: int | 0 <= x < 256

  /** `x % c` for an offset below `2 * c`: the two cases the buffer ever meets. */
  function Wrap(x: nat, c: nat): (r: nat)
    requires 0 < c && x < 2 * c
    ensures r < c
  {
    if x < c then x else x - c
  }

  lemma WrapIsMod(x: nat, c: nat)
    requires 0 < c && x < 2 * c
    ensures Wrap(x, c) == x % c
  {
  }

  /** `n` bytes held from `front` fit a block of `c` bytes; the front of an empty block is 0. */
  predicate Fits(c: nat, front: nat, n: nat) {
    n <= c && (if c == 0 then front == 0 else front < c)
  }

  /** The `n` bytes held from offset `front` on, wrapping at the end of the block. */
  function Window(block: seq<byte>, front: nat, n: nat): (w: seq<byte>)
    requires Fits(|block|, front, n)
    ensures |w| == n
  {
    seq(n, i requires 0 <= i < n => block[Wrap(front + i, |block|)])
  }

  /** The two copies of a read: up to the end of the block, then from its start. */
  function Take(block: seq<byte>, front: nat, n: nat): (out: seq<byte>)
    requires Fits(|block|, front, n)
  {
    var roffset := |block| - front;
    if roffset < n then block[front..] + block[..n - roffset]
    else block[front..front + n]
  }

  /** A read copies out exactly the first `n` bytes held. */
  lemma TakeIsPrefix(block: seq<byte>, front: nat, size: nat, n: nat)
    requires Fits(|block|, front, size) && n <= size
    ensures Take(block, front, n) == Window(block, front, size)[..n]
  {
    var out, w := Take(block, front, n), Window(block, front, size);
    var roffset := |block| - front;
    forall i | 0 <= i < n
      ensures out[i] == w[i]
    {
      assert w[i] == block[Wrap(front + i, |block|)];
      if roffset < n {
        if i < roffset {
          assert out[i] == block[front..][i];
        } else {
          assert out[i] == block[..n - roffset][i - roffset];
        }
      } else {
        assert out[i] == block[front..front + n][i];
      }
    }
  }

  /** After a read of `n` bytes the rest starts `n` further on (or at 0 when nothing is left). */
  lemma AdvanceKeepsRest(block: seq<byte>, front: nat, size: nat, n: nat, front': nat, size': nat)
    requires 0 < |block| && Fits(|block|, front, size) && n <= size
    requires size' == size - n && front' == if size' == 0 then 0 else (front + n) % |block|
    ensures Fits(|block|, front', size')
    ensures Window(block, front', size') == Window(block, front, size)[n..]
    ensures n == 0 && 0 < size ==> front' == front
  {
    var c := |block|;
    WrapIsMod(front + n, c);
    var rest, w := Window(block, front', size'), Window(block, front, size);
    forall i | 0 <= i < size'
      ensures rest[i] == w[n + i]
    {
      assert Wrap(front' + i, c) == Wrap(front + n + i, c);
    }
  }

  /**
   * The old block unrolled into the new one: the bytes from the front to the end of
   * the block, then the bytes before the front (the two copies of the growth branch).
   */
  function Unroll(block: seq<byte>, front: nat): (r: seq<byte>)
    requires Fits(|block|, front, 0)
  {
    block[front..] + block[..front]
  }

  /** Unrolling keeps the bytes held, now starting at offset 0. */
  lemma UnrollKeepsWindow(block: seq<byte>, front: nat, size: nat, u: seq<byte>)
    requires Fits(|block|, front, size) && |block| <= |u|
    requires u[..|block|] == Unroll(block, front)
    ensures Fits(|u|, 0, size)
    ensures Window(u, 0, size) == Window(block, front, size)
  {
    forall i | 0 <= i < size
      ensures u[Wrap(i, |u|)] == block[Wrap(front + i, |block|)]
    {
      if front + i >= |block| {
        assert u[i] == block[..front][i - (|block| - front)];
      }
    }
  }

  /**
   * The copy of a write at offset `back` (the corrected form): the first `c - back`
   * bytes go at the end of the block, the remaining ones at its start.
   */
  function Store(block: seq<byte>, back: nat, data: seq<byte>): (r: seq<byte>)
    requires back < |block| && |data| <= |block|
    ensures |r| == |block|
  {
    var roffset := |block| - back;
    if roffset < |data| then data[roffset..] + block[|data| - roffset..back] + data[..roffset]
    else block[..back] + data + block[back + |data|..]
  }

  /** The two copies of a write that wraps past the end of the block make up `Store`. */
  lemma StoreWrapped(block: seq<byte>, back: nat, data: seq<byte>, after: seq<byte>)
    requires back < |block| && |data| <= |block| && |block| - back < |data| && |after| == |block|
    requires forall i :: 0 <= i < |block| - back ==> after[back + i] == data[i]
    requires forall i :: 0 <= i < |data| - (|block| - back) ==> after[i] == data[|block| - back + i]
    requires forall p :: |data| - (|block| - back) <= p < back ==> after[p] == block[p]
    ensures after == Store(block, back, data)
  {
    var s, roffset := Store(block, back, data), |block| - back;
    forall p | 0 <= p < |block|
      ensures after[p] == s[p]
    {
      if p < |data| - roffset {
        assert s[p] == data[roffset..][p];
      } else if p < back {
        assert s[p] == block[|data| - roffset..back][p - (|data| - roffset)];
      } else {
        assert after[back + (p - back)] == data[p - back];
        assert s[p] == data[..roffset][p - back];
      }
    }
  }

  /** The single copy of a write that does not wrap makes up `Store`. */
  lemma StoreInPlace(block: seq<byte>, back: nat, data: seq<byte>, after: seq<byte>)
    requires back < |block| && back + |data| <= |block| && |after| == |block|
    requires forall i :: 0 <= i < |data| ==> after[back + i] == data[i]
    requires forall p :: 0 <= p < |block| && !(back <= p < back + |data|) ==> after[p] == block[p]
    ensures after == Store(block, back, data)
  {
    var s := Store(block, back, data);
    forall p | 0 <= p < |block|
      ensures after[p] == s[p]
    {
      if p < back {
        assert s[p] == block[..back][p];
      } else if p < back + |data| {
        assert after[back + (p - back)] == data[p - back];
        assert s[p] == data[p - back];
      } else {
        assert s[p] == block[back + |data|..][p - back - |data|];
      }
    }
  }

  /**
   * The copy as written at src/Core/RingBuffer.cpp:107-108: the wrapped part is taken
   * from the start of `data` again instead of from `data + roffset`.
   */
  function StoreAsWritten(block: seq<byte>, back: nat, data: seq<byte>): (r: seq<byte>)
    requires back < |block| && |data| <= |block|
    ensures |r| == |block|
  {
    var roffset := |block| - back;
    if roffset < |data| then data[..|data| - roffset] + block[|data| - roffset..back] + data[..roffset]
    else block[..back] + data + block[back + |data|..]
  }

  /** A write at the back appends `data` to the bytes held, and leaves them unchanged. */
  lemma StoreAppends(block: seq<byte>, front: nat, size: nat, data: seq<byte>, back: nat, size': nat)
    requires front < |block| && size' == size + |data| && size' <= |block|
    requires back == (front + size) % |block|
    ensures back < |block| && Fits(|block|, front, size')
    ensures Window(Store(block, back, data), front, size') == Window(block, front, size) + data
  {
    var c := |block|;
    WrapIsMod(front + size, c);
    var s := Store(block, back, data);
    var lhs, rhs := Window(s, front, size'), Window(block, front, size) + data;
    forall i | 0 <= i < size'
      ensures lhs[i] == rhs[i]
    {
      var p := Wrap(front + i, c);
      if c - back < |data| {
        if p < |data| - (c - back) {
          assert s[p] == data[c - back + p];
        } else if p < back {
          assert s[p] == block[|data| - (c - back)..back][p - (|data| - (c - back))];
        } else {
          assert s[p] == data[..c - back][p - back];
        }
      } else {
        if p < back {
          assert s[p] == block[..back][p];
        } else if p < back + |data| {
          assert s[p] == data[p - back];
        } else {
          assert s[p] == block[back + |data|..][p - back - |data|];
        }
      }
    }
  }

  /**
   * The code as written loses the order on a wrapped write: with a block of 4 bytes
   * holding one byte at offset 2, writing 7, 8, 9 leaves 7, 7, 8 after it instead of
   * 7, 8, 9.
   */
  lemma StoreAsWrittenRepeatsData()
    ensures Window(StoreAsWritten([0, 0, 5, 0], 3, [7, 8, 9]), 2, 4) == [5, 7, 7, 8]
    ensures Window(Store([0, 0, 5, 0], 3, [7, 8, 9]), 2, 4) == [5, 7, 8, 9]
  {
    var block: seq<byte> := [0, 0, 5, 0];
    var data: seq<byte> := [7, 8, 9];
    var bad, good := StoreAsWritten(block, 3, data), Store(block, 3, data);
    assert bad == [7, 8] + [5] + [7];
    assert good == [8, 9] + [5] + [7];
    RotateTwo(bad);
    RotateTwo(good);
  }

  /** In a block of 4 bytes, the 4 bytes held from offset 2. */
  lemma RotateTwo(b: seq<byte>)
    requires |b| == 4
    ensures Window(b, 2, 4) == [b[2], b[3], b[0], b[1]]
  {
    var w := Window(b, 2, 4);
    forall i | 0 <= i < 4
      ensures w[i] == b[Wrap(2 + i, 4)]
    {
    }
    assert Wrap(4, 4) == 0 && Wrap(5, 4) == 1;
  }

  class RingBuffer {
    /** The memory block; its length is `m_capacity`, and the empty block stands for no allocation. */
    var block: array<byte>
    /** `m_front - m_buffer`: where the bytes held start. */
    var front: nat
    /** `m_size`: how many bytes are held. */
    var size: nat

    ghost predicate Valid()
      reads this
    {
      Fits(block.Length, front, size)
    }

    /** The bytes held, oldest first. */
    ghost function Contents(): seq<byte>
      reads this, block
      requires Valid()
    {
      Window(block[..], front, size)
    }

    /** The constructor allocates nothing. */
    constructor ()
      ensures Valid() && Contents() == [] && block.Length == 0
    {
      block := new byte[0];
      front, size := 0, 0;
    }

    /** `size()`: the number of bytes held. */
    function Size(): (n: nat)
      reads this, block
      requires Valid()
      ensures n == |Contents()|
    {
      size
    }

    /** `capacity()`: the size of the memory block, never below the bytes held. */
    function Capacity(): (c: nat)
      reads this
      requires Valid()
      ensures size <= c && (c == 0 ==> size == 0)
    {
      block.Length
    }

    /**
     * `read(buffer, max)`: copies out `min(max, size)` bytes from the front, drops
     * them, and moves the front past them, back to the block start once empty.
     */
    method Read(max: nat) returns (numRead: nat, out: seq<byte>)
      requires Valid()
      modifies this
      ensures Valid() && block == old(block)
      ensures numRead == if max > old(size) then old(size) else max
      ensures out == old(Contents())[..numRead]
      ensures Contents() == old(Contents())[numRead..]
      ensures size == old(size) - numRead
      ensures 0 < numRead && size == 0 ==> front == 0
      ensures 0 < numRead && 0 < size ==> front == (old(front) + numRead) % block.Length
      ensures numRead == 0 ==> front == old(front)
    {
      if block.Length == 0 || size == 0 {
        return 0, [];
      }
      numRead := if max > size then size else max;
      ghost var bytes := block[..];
      out := Take(block[..], front, numRead);
      TakeIsPrefix(bytes, front, size, numRead);
      var size' := size - numRead;
      var front' := if size' == 0 then 0 else (front + numRead) % block.Length;
      AdvanceKeepsRest(bytes, front, size, numRead, front', size');
      size, front := size', front';
    }

    /**
     * `write(data, size)`: appends `data` at the back. When the bytes held would
     * exceed the block, the block is first replaced by one of twice the new size
     * holding the old bytes from offset 0.
     */
    method Write(data: seq<byte>)
      requires Valid()
      requires 0 < block.Length || 0 < |data|
      modifies this, block
      ensures Valid()
      ensures Contents() == old(Contents()) + data
      ensures size == old(size) + |data|
      ensures old(size) + |data| > old(block.Length) ==>
                fresh(block) && block.Length == 2 * size && front == 0
      ensures old(size) + |data| <= old(block.Length) ==>
                block == old(block) && front == old(front)
    {
      if size + |data| > block.Length {
        Relocate(2 * (size + |data|));
      }
      ghost var bytes, n := block[..], size;
      size := size + |data|;
      var backOffset := (front + (size - |data|)) % block.Length;
      StoreAppends(bytes, front, n, data, backOffset, size);
      CopyIn(backOffset, data);
    }

    /** The copies of `write` into the block at `backOffset`, wrapping at its end. */
    method CopyIn(backOffset: nat, data: seq<byte>)
      requires backOffset < block.Length && |data| <= block.Length
      modifies block
      ensures block[..] == Store(old(block[..]), backOffset, data)
    {
      ghost var bytes := block[..];
      var roffset := block.Length - backOffset;
      if roffset < |data| {
        forall i | 0 <= i < roffset {
          block[backOffset + i] := data[i];
        }
        forall i | 0 <= i < |data| - roffset {
          block[i] := data[roffset + i];
        }
        StoreWrapped(bytes, backOffset, data, block[..]);
      } else {
        forall i | 0 <= i < |data| {
          block[backOffset + i] := data[i];
        }
        StoreInPlace(bytes, backOffset, data, block[..]);
      }
    }

    /**
     * The growth branch of `write`: a new block of `newSize` bytes receives the old
     * block unrolled, so the bytes held now start at offset 0.
     */
    method Relocate(newSize: nat)
      requires Valid() && block.Length < newSize
      modifies this
      ensures Valid() && fresh(block) && block.Length == newSize
      ensures front == 0 && size == old(size)
      ensures Contents() == old(Contents())
    {
      ghost var bytes := block[..];
      var newData := new byte[newSize];
      var roffset := block.Length - front;
      forall i | 0 <= i < roffset {
        newData[i] := block[front + i];
      }
      forall i | 0 <= i < block.Length - roffset {
        newData[roffset + i] := block[i];
      }
      ghost var grown := newData[..];
      assert grown[..block.Length] == Unroll(bytes, front);
      UnrollKeepsWindow(bytes, front, size, grown);
      block := newData;
      front := 0;
      assert block[..] == grown;
    }

    /** `clear()`: drops every byte and keeps the block. */
    method Clear()
      requires Valid()
      modifies this
      ensures Valid() && Contents() == [] && block == old(block)
      ensures front == 0
    {
      size := 0;
      front := 0;
    }
  }
}

=== FILE: shader_packager.dfy ===
/**
 * The shader bundler (util/shader_packager.py).
 *
 * Each shader entry file is flattened into one text: `#include "name"` lines are
 * replaced by the (already bundled) text of the named file, resolved against the
 * including file's directory, and a file that was already loaded during the same
 * pass contributes nothing.  The flattened text is trimmed, every `#version` line
 * that does not start the text is deleted, and the text is escaped for a C string
 * literal.  The main loop derives `SHADER_<PATH>` macro names and `<path>.h`
 * output paths and writes one `#ifndef/#define/#endif` header per entry file.
 *
 * The file system is a map from path to file contents; paths are POSIX strings.
 */
module ShaderPackager {
  import opened Wrappers

  type Path = string

  /** The files the bundler can open: path -> full text. */
  type FileSystem = map<Path, string>

  datatype Error =
    | FileNotFound(path: Path)        // `open` raises FileNotFoundError
    | MalformedInclude(line: string)  // `split('"')[1]` raises IndexError: no '"' on the line

  /**
   * What resolving one file yields: the text, the loaded-set afterwards, and the
   * files that were actually read, in the order they were read.
   */
  datatype Resolved = Resolved(code: string, loaded: set<Path>, visited: seq<Path>)

  const IncludeToken := "#include"
  const VersionToken := "#version"

  // ---------------------------------------------------------------------------
  // Text search (str.find)
  // ---------------------------------------------------------------------------

  predicate OccursAt(s: string, pat: string, i: int) {
    0 <= i && i + |pat| <= |s| && s[i..i + |pat|] == pat
  }

  /** `s.find(pat, from)`: the first occurrence at or after `from`, or -1. */
  function Find(s: string, pat: string, from: nat): (r: int)
    requires pat != []
    ensures r == -1 || (from <= r && OccursAt(s, pat, r))
    ensures forall j :: from <= j && (r == -1 || j < r) ==> !OccursAt(s, pat, j)
    decreases |s| - from
  {
    if from + |pat| > |s| then -1
    else if s[from..from + |pat|] == pat then from
    else Find(s, pat, from + 1)
  }

  lemma OccursAtChars(s: string, pat: string, j: int)
    ensures OccursAt(s, pat, j) ==> forall i :: j <= i < j + |pat| ==> s[i] == pat[i - j]
  {
    if OccursAt(s, pat, j) {
      forall i | j <= i < j + |pat|
        ensures s[i] == pat[i - j]
      {
        assert s[i] == s[j..j + |pat|][i - j];
      }
    }
  }

  lemma OccursAtChar(s: string, c: char, j: int)
    ensures OccursAt(s, [c], j) <==> 0 <= j < |s| && s[j] == c
  {
    if 0 <= j < |s| {
      assert s[j..j + 1] == [s[j]];
    }
  }

  /**
   * End of the directive line starting at `from`: the next '\n', or the end of the
   * text when there is none (the corrected reading of `code.find('\n', idx)`).
   */
  function LineEnd(code: string, from: nat): (e: nat)
    requires from <= |code|
    ensures from <= e <= |code|
    ensures e < |code| ==> code[e] == '\n'
    ensures forall j :: from <= j < e ==> code[j] != '\n'
  {
    var f := Find(code, "\n", from);
    OccursAtChar(code, '\n', f);
    forall j | from <= j && (f == -1 || j < f)
      ensures j < |code| ==> code[j] != '\n'
    {
      OccursAtChar(code, '\n', j);
    }
    if f < 0 then |code| else f
  }

  /** A directive token that holds no '\n' spans at least its own length on its line. */
  lemma DirectiveLine(code: string, idx: nat, tok: string)
    requires OccursAt(code, tok, idx) && '\n' !in tok
    ensures LineEnd(code, idx) >= idx + |tok|
  {
    forall j | idx <= j < idx + |tok|
      ensures code[j] != '\n'
    {
      assert code[j] == code[idx..idx + |tok|][j - idx] == tok[j - idx];
    }
  }

  // ---------------------------------------------------------------------------
  // Splicing a directive line
  // ---------------------------------------------------------------------------

  /**
   * `code[:idx] + repl + code[line_end:]` exactly as written: when no '\n' follows,
   * `line_end` is -1 and Python's `code[-1:]` keeps the LAST character of the text.
   */
  function SpliceAsWritten(code: string, idx: nat, repl: string): (r: string)
    requires idx < |code|
    ensures Find(code, "\n", idx) == -1 ==> r == code[..idx] + repl + [code[|code| - 1]]
  {
    var le := Find(code, "\n", idx);
    code[..idx] + repl + (if le < 0 then code[|code| - 1..] else code[le..])
  }

  /** `code` with `code[idx..le]` replaced by `text`. */
  function SpliceIn(code: string, idx: nat, le: nat, text: string): (r: string)
    requires idx <= le <= |code|
    ensures |r| == |code| - (le - idx) + |text|
    ensures r[..idx] == code[..idx] && r[idx..idx + |text|] == text && r[idx + |text|..] == code[le..]
  {
    code[..idx] + text + code[le..]
  }

  /** The corrected splice: the directive line runs to its '\n' or to the end of the text. */
  function Splice(code: string, idx: nat, repl: string): (r: string)
    requires idx <= |code|
    ensures |r| == idx + |repl| + |code| - LineEnd(code, idx)
    ensures r[..idx] == code[..idx] && r[idx..idx + |repl|] == repl
    ensures r[idx + |repl|..] == code[LineEnd(code, idx)..]
    ensures '\n' !in code[idx..] ==> r == code[..idx] + repl
  {
    LastLineEnd(code, idx);
    SpliceIn(code, idx, LineEnd(code, idx), repl)
  }

  lemma LastLineEnd(code: string, idx: nat)
    requires idx <= |code|
    ensures '\n' !in code[idx..] ==> LineEnd(code, idx) == |code|
  {
    if '\n' !in code[idx..] {
      forall j | idx <= j < |code|
        ensures code[j] != '\n'
      {
        assert code[idx..][j - idx] == code[j];
      }
    }
  }

  /** On a last line without '\n', the code as written keeps a stray last character. */
  lemma SpliceAsWrittenKeepsStrayChar()
    ensures SpliceAsWritten("#include \"b\"", 0, "B") == "B\""
    ensures Splice("#include \"b\"", 0, "B") == "B"
  {
    var code := "#include \"b\"";
    forall j
      ensures !OccursAt(code, "\n", j)
    {
      OccursAtChar(code, '\n', j);
    }
    assert code[0..] == code;
  }

  // ---------------------------------------------------------------------------
  // Include names and paths
  // ---------------------------------------------------------------------------

  /** `line.split('"')[1]`: the text after the first '"' up to the next '"' or the end. */
  function IncludeName(line: string): (r: Option<string>)
    ensures r.None? <==> '"' !in line
    ensures r.Some? ==> '"' !in r.value
    ensures r.Some? ==> exists q :: 0 <= q < |line| && line[q] == '"' && r.value <= line[q + 1..]
  {
    var q := Find(line, "\"", 0);
    if q < 0 then
      assert forall j :: 0 <= j < |line| ==> line[j] != '"' by {
        forall j | 0 <= j < |line| ensures line[j] != '"' { OccursAtChar(line, '"', j); }
      }
      None
    else
      OccursAtChar(line, '"', q);
      var rest := line[q + 1..];
      var q2 := Find(rest, "\"", 0);
      OccursAtChar(rest, '"', q2);
      var name := if q2 < 0 then rest else rest[..q2];
      assert forall j :: 0 <= j < |name| ==> name[j] != '"' by {
        forall j | 0 <= j < |name| ensures name[j] != '"' { OccursAtChar(rest, '"', j); }
      }
      Some(name)
  }

  predicate AllSlashes(s: string) {
    forall i :: 0 <= i < |s| ==> s[i] == '/'
  }

  /** `s.rfind('/')`. */
  function LastSlash(s: string): (r: int)
    ensures -1 <= r < |s|
    ensures r >= 0 ==> s[r] == '/'
    ensures forall j :: r < j < |s| ==> s[j] != '/'
  {
    if s == [] then -1
    else if s[|s| - 1] == '/' then |s| - 1
    else LastSlash(s[..|s| - 1])
  }

  /** `s.rstrip('/')`. */
  function StripTrailingSlashes(s: string): (r: string)
    ensures r <= s
    ensures r == [] || r[|r| - 1] != '/'
  {
    if s != [] && s[|s| - 1] == '/' then StripTrailingSlashes(s[..|s| - 1]) else s
  }

  /** `os.path.dirname` (POSIX): everything before the last '/', without trailing slashes. */
  function DirName(p: Path): (d: Path)
    ensures d <= p
    ensures forall j :: |d| <= j < |p| && j > LastSlash(p) ==> p[j] != '/'
  {
    var head := p[..LastSlash(p) + 1];
    if head != [] && !AllSlashes(head) then StripTrailingSlashes(head) else head
  }

  /** `os.path.join(a, b)` (POSIX) for two components. */
  function Join(a: Path, b: Path): (r: Path)
    ensures |r| >= |b| && r[|r| - |b|..] == b
    ensures b != [] && b[0] == '/' ==> r == b
    ensures (b == [] || b[0] != '/') ==> a <= r
  {
    if b != [] && b[0] == '/' then b
    else if a == [] || a[|a| - 1] == '/' then a + b
    else a + "/" + b
  }

  lemma {:induction false} LastSlashSkipsBase(s: string, base: string)
    requires '/' !in base
    ensures LastSlash(s + base) == LastSlash(s)
    decreases |base|
  {
    if base == [] {
      assert s + base == s;
    } else {
      var b := base[..|base| - 1];
      assert (s + base)[..|s + base| - 1] == s + b;
      assert (s + base)[|s + base| - 1] == base[|base| - 1] != '/' by {
        assert base[|base| - 1] in base;
      }
      assert forall c :: c in b ==> c in base;
      LastSlashSkipsBase(s, b);
    }
  }

  /** The directory of `dir/base` is `dir`. */
  lemma DirNameOfChild(dir: Path, base: Path)
    requires '/' !in base && dir != [] && dir[|dir| - 1] != '/'
    ensures DirName(dir + "/" + base) == dir
  {
    LastSlashSkipsBase(dir + "/", base);
    assert (dir + "/")[..|dir|] == dir;
    assert LastSlash(dir + "/") == |dir|;
    assert (dir + "/" + base)[..|dir| + 1] == dir + "/";
    assert !AllSlashes(dir + "/") by { assert (dir + "/")[|dir| - 1] != '/'; }
    assert StripTrailingSlashes(dir + "/") == StripTrailingSlashes(dir) == dir;
  }

  /** A path without '/' has the empty directory. */
  lemma DirNameOfBare(p: Path)
    requires '/' !in p
    ensures DirName(p) == []
  {
    LastSlashSkipsBase([], p);
    assert [] + p == p;
  }

  /**
   * A relative include names a sibling of the including file: for a file
   * `dir/base` (with `dir` not ending in '/'), `join(dirname(file), name)` is
   * `dir/name`.
   */
  lemma IncludeResolvesNextToIncluder(dir: Path, base: Path, name: Path)
    requires '/' !in base && dir != [] && dir[|dir| - 1] != '/'
    requires name == [] || name[0] != '/'
    ensures Join(DirName(dir + "/" + base), name) == dir + "/" + name
  {
    DirNameOfChild(dir, base);
  }

  /** An include from a file at the top level (no '/') is looked up under its own name. */
  lemma IncludeFromTopLevel(file: Path, name: Path)
    requires '/' !in file
    ensures Join(DirName(file), name) == name
  {
    DirNameOfBare(file);
  }

  // ---------------------------------------------------------------------------
  // Trimming, version stripping, escaping
  // ---------------------------------------------------------------------------

  /** Python's `str.isspace` characters. */
  predicate IsSpace(c: char) {
    c in {' ', '\t', '\n', '\r', '\U{000B}', '\U{000C}', '\U{001C}', '\U{001D}', '\U{001E}',
          '\U{001F}', '\U{0085}', '\U{00A0}', '\U{1680}', '\U{2000}', '\U{2001}', '\U{2002}',
          '\U{2003}', '\U{2004}', '\U{2005}', '\U{2006}', '\U{2007}', '\U{2008}', '\U{2009}',
          '\U{200A}', '\U{2028}', '\U{2029}', '\U{202F}', '\U{205F}', '\U{3000}'}
  }

  function StripLeading(s: string): (r: string)
    ensures |r| <= |s| && r == s[|s| - |r|..]
    ensures r == [] || !IsSpace(r[0])
  {
    if s != [] && IsSpace(s[0]) then StripLeading(s[1..]) else s
  }

  function StripTrailing(s: string): (r: string)
    ensures r <= s
    ensures r == [] || !IsSpace(r[|r| - 1])
  {
    if s != [] && IsSpace(s[|s| - 1]) then StripTrailing(s[..|s| - 1]) else s
  }

  /** `str.strip()`: the text without leading and trailing white space. */
  function Strip(s: string): (r: string)
    ensures r == [] || (!IsSpace(r[0]) && !IsSpace(r[|r| - 1]))
  {
    StripTrailing(StripLeading(s))
  }

  /**
   * The version-stripping loop from position `from` on (corrected splice): delete
   * the line of the first `#version` found at or after `from`, search again from
   * where it stood.
   */
  function StripVersionsFrom(code: string, from: nat): (r: string)
    decreases |code|
  {
    var idx := Find(code, VersionToken, from);
    if idx < 0 then code
    else
      DirectiveLine(code, idx, VersionToken);
      StripVersionsFrom(Splice(code, idx, ""), idx)
  }

  /** `code.find('#version', 1)` and the loop after it. */
  function StripVersions(code: string): string {
    StripVersionsFrom(code, 1)
  }

  /**
   * Deleting a directive line as written leaves a shorter text: the line runs at least
   * past the token, and with no '\n' after it only one character of the token's line stays.
   */
  lemma SpliceAsWrittenShrinks(code: string, idx: nat, tok: string)
    requires OccursAt(code, tok, idx) && '\n' !in tok && |tok| >= 2
    ensures idx < |code| && |SpliceAsWritten(code, idx, "")| < |code|
  {
    DirectiveLine(code, idx, tok);
  }

  /**
   * The version-stripping loop from position `from` on as written: each `#version` line is
   * deleted with `SpliceAsWritten`, so a last line without '\n' leaves its last character.
   */
  function StripVersionsFromAsWritten(code: string, from: nat): string
    requires from >= 1
    decreases |code|
  {
    var idx := Find(code, VersionToken, from);
    if idx < 0 then code
    else
      SpliceAsWrittenShrinks(code, idx, VersionToken);
      StripVersionsFromAsWritten(SpliceAsWritten(code, idx, ""), idx)
  }

  /** `code.find('#version', 1)` and the loop after it, as written. */
  function StripVersionsAsWritten(code: string): string {
    StripVersionsFromAsWritten(code, 1)
  }

  /** In "a\n#version 330" the search from 1 finds `#version` at 2, with no '\n' after it. */
  lemma VersionOnLastLine(code: string)
    requires code == "a\n#version 330"
    ensures Find(code, VersionToken, 1) == 2 && Find(code, "\n", 2) == -1
  {
    assert OccursAt(code, VersionToken, 2);
    assert !OccursAt(code, VersionToken, 1) by {
      OccursAtChars(code, VersionToken, 1);
      assert code[1] == '\n' && VersionToken[0] == '#';
    }
    forall j | j >= 2
      ensures !OccursAt(code, "\n", j)
    {
      OccursAtChar(code, '\n', j);
    }
  }

  /**
   * A `#version` on the last line, which `strip()` always leaves without a '\n' after it:
   * as written the loop turns "a\n#version 330" into "a\n0"; the corrected loop gives "a\n".
   */
  lemma VersionAsWrittenKeepsStrayChar()
    ensures StripVersionsAsWritten("a\n#version 330") == "a\n0"
    ensures StripVersions("a\n#version 330") == "a\n"
  {
    var code := "a\n#version 330";
    VersionOnLastLine(code);
    var asWritten := SpliceAsWritten(code, 2, "");
    assert asWritten == code[..2] + [code[|code| - 1]];
    assert asWritten == "a\n0";
    LastLineEnd(code, 2);
    assert '\n' !in code[2..] by {
      forall j | 2 <= j < |code|
        ensures code[j] != '\n'
      {
        OccursAtChar(code, '\n', j);
      }
    }
    assert Splice(code, 2, "") == code[..2];
  }

  /** Deleting a whole line never creates a `#version` before the deletion point. */
  lemma {:induction false} StripVersionsFromSound(code: string, from: nat)
    requires from >= 1
    requires forall j :: 1 <= j < from ==> !OccursAt(code, VersionToken, j)
    ensures forall j :: 1 <= j ==> !OccursAt(StripVersionsFrom(code, from), VersionToken, j)
    ensures var r := StripVersionsFrom(code, from);
            var m := if from < |code| then from else |code|;
            |r| >= m && r[..m] == code[..m]
    decreases |code|
  {
    var idx := Find(code, VersionToken, from);
    if idx >= 0 {
      DirectiveLine(code, idx, VersionToken);
      var next := Splice(code, idx, "");
      forall j | 1 <= j < idx
        ensures !OccursAt(next, VersionToken, j)
      {
        SpliceAddsNoVersion(code, from, idx, j);
      }
      StripVersionsFromSound(next, idx);
      SamePrefix(StripVersionsFrom(next, idx), next, code, idx, from);
    }
  }

  lemma SamePrefix(a: string, b: string, c: string, n: nat, m: nat)
    requires m <= n <= |a| && n <= |b| && n <= |c|
    requires a[..n] == b[..n] && b[..n] == c[..n]
    ensures a[..m] == c[..m]
  {
    assert a[..m] == a[..n][..m] && c[..m] == c[..n][..m];
  }

  /**
   * Deleting the line of the first `#version` at or after `from` creates no new
   * `#version` in front of it.
   */
  lemma SpliceAddsNoVersion(code: string, from: nat, idx: nat, j: nat)
    requires from >= 1 && idx == Find(code, VersionToken, from)
    requires forall j :: 1 <= j < from ==> !OccursAt(code, VersionToken, j)
    requires 1 <= j < idx
    ensures !OccursAt(Splice(code, idx, ""), VersionToken, j)
  {
    DirectiveLine(code, idx, VersionToken);
    var next := Splice(code, idx, "");
    var e := LineEnd(code, idx);
    var n := |VersionToken|;
    assert !OccursAt(code, VersionToken, j);
    if j + n <= idx {
      assert next[j..j + n] == code[j..j + n];
    } else {
      assert idx < |next| ==> next[idx] == code[e] == '\n';
      OccursAtChars(next, VersionToken, j);
    }
  }

  /** After stripping, no `#version` stands at an index >= 1. */
  lemma VersionsStripped(code: string)
    ensures forall j :: 1 <= j ==> !OccursAt(StripVersions(code), VersionToken, j)
  {
    StripVersionsFromSound(code, 1);
  }

  /** `#version` cannot overlap itself: a second occurrence starts at least 8 characters on. */
  lemma VersionNotSelfOverlapping(code: string, i: int)
    requires OccursAt(code, VersionToken, 0) && 1 <= i < |VersionToken|
    ensures !OccursAt(code, VersionToken, i)
  {
    OccursAtChars(code, VersionToken, 0);
    OccursAtChars(code, VersionToken, i);
    assert code[i] == VersionToken[i] != VersionToken[0];
  }

  /** A `#version` line that begins the text is kept. */
  lemma LeadingVersionKept(code: string)
    ensures OccursAt(code, VersionToken, 0) ==> OccursAt(StripVersions(code), VersionToken, 0)
  {
    var n := |VersionToken|;
    var idx := Find(code, VersionToken, 1);
    if OccursAt(code, VersionToken, 0) && idx >= 0 {
      forall i | 1 <= i < n
        ensures !OccursAt(code, VersionToken, i)
      {
        VersionNotSelfOverlapping(code, i);
      }
      var next := Splice(code, idx, "");
      forall j | 1 <= j < idx
        ensures !OccursAt(next, VersionToken, j)
      {
        SpliceAddsNoVersion(code, 1, idx, j);
      }
      StripVersionsFromSound(next, idx);
      var r := StripVersions(code);
      assert r == StripVersionsFrom(next, idx);
      assert r[..n] == r[..idx][..n] == next[..idx][..n] == code[..n];
    }
  }

  /** Searching behind a prefix finds what searching the rest finds, moved by the prefix's length. */
  lemma {:induction false} FindShift(p: string, s: string, pat: string, k: nat)
    requires pat != []
    ensures var f := Find(s, pat, k);
            Find(p + s, pat, |p| + k) == if f < 0 then -1 else |p| + f
    decreases |s| - k
  {
    if k + |pat| <= |s| {
      assert (p + s)[|p| + k..|p| + k + |pat|] == s[k..k + |pat|];
      if s[k..k + |pat|] != pat {
        FindShift(p, s, pat, k + 1);
      }
    }
  }

  lemma LineEndShift(p: string, s: string, i: nat)
    requires i <= |s|
    ensures LineEnd(p + s, |p| + i) == |p| + LineEnd(s, i)
  {
    FindShift(p, s, "\n", i);
  }

  /** Deleting a line behind a prefix leaves the prefix in front. */
  lemma SpliceShift(p: string, s: string, i: nat)
    requires i <= |s|
    ensures Splice(p + s, |p| + i, "") == p + Splice(s, i, "")
  {
    LineEndShift(p, s, i);
    var e := LineEnd(s, i);
    assert (p + s)[..|p| + i] == p + s[..i];
    assert (p + s)[|p| + e..] == s[e..];
  }

  /** The loop never touches the text in front of where it starts searching. */
  lemma {:induction false} StripVersionsFromShift(p: string, s: string, k: nat)
    ensures StripVersionsFrom(p + s, |p| + k) == p + StripVersionsFrom(s, k)
    decreases |s|
  {
    FindShift(p, s, VersionToken, k);
    var f := Find(s, VersionToken, k);
    if f >= 0 {
      DirectiveLine(s, f, VersionToken);
      SpliceShift(p, s, f);
      StripVersionsFromShift(p, Splice(s, f, ""), f);
    }
  }

  /**
   * What the loop keeps: with no `#version` at or after `from` the text stays as it is;
   * otherwise the text in front of the first one stays, the directive up to its line's
   * '\n' goes, and the loop carries on over the rest of the text from that '\n'.
   */
  lemma StripVersionsFromKeeps(code: string, from: nat)
    ensures var idx := Find(code, VersionToken, from);
            StripVersionsFrom(code, from) ==
              if idx < 0 then code
              else code[..idx] + StripVersionsFrom(code[LineEnd(code, idx)..], 0)
  {
    var idx := Find(code, VersionToken, from);
    if idx >= 0 {
      DirectiveLine(code, idx, VersionToken);
      var e := LineEnd(code, idx);
      assert Splice(code, idx, "") == code[..idx] + code[e..];
      StripVersionsFromShift(code[..idx], code[e..], 0);
    }
  }

  /** Text with no `#version` past its first character goes through the loop unchanged. */
  lemma StripVersionsUnchanged(code: string)
    requires forall j :: 1 <= j ==> !OccursAt(code, VersionToken, j)
    ensures StripVersions(code) == code
  {
    assert Find(code, VersionToken, 1) == -1;
  }

  /** The version-stripping loop as a method over the text. */
  method StripVersionDirectives(code0: string) returns (code: string)
    ensures code == StripVersions(code0)
  {
    code := code0;
    var idx := Find(code, VersionToken, 1);
    while idx > 0
      invariant idx == -1 || idx >= 1
      invariant idx >= 1 ==> StripVersionsFrom(code, idx) == StripVersions(code0)
      invariant idx >= 1 ==> idx == Find(code, VersionToken, idx)
      invariant idx == -1 ==> code == StripVersions(code0)
      decreases |code|
    {
      DirectiveLine(code, idx, VersionToken);
      code := Splice(code, idx, "");
      idx := Find(code, VersionToken, idx);
    }
  }

  /** `s.replace(c, rep)` for a one-character pattern. */
  function ReplaceChar(s: string, c: char, rep: string): (r: string)
    ensures c !in rep ==> c !in r
  {
    if s == [] then [] else (if s[0] == c then rep else [s[0]]) + ReplaceChar(s[1..], c, rep)
  }

  lemma {:induction false} ReplaceCharAppend(a: string, b: string, c: char, rep: string)
    ensures ReplaceChar(a + b, c, rep) == ReplaceChar(a, c, rep) + ReplaceChar(b, c, rep)
  {
    if a == [] {
      assert a + b == b;
    } else {
      assert (a + b)[0] == a[0] && (a + b)[1..] == a[1..] + b;
      ReplaceCharAppend(a[1..], b, c, rep);
    }
  }

  /** The three passes, in the order the bundler runs them. */
  function Escape(s: string): string {
    ReplaceChar(ReplaceChar(ReplaceChar(s, '\n', "\\n"), '\r', ""), '"', "\\\"")
  }

  /** What the three passes do to one character. */
  function EscapeChar(c: char): string {
    if c == '\n' then "\\n" else if c == '\r' then "" else if c == '"' then "\\\"" else [c]
  }

  function EscapeEach(s: string): string {
    if s == [] then [] else EscapeChar(s[0]) + EscapeEach(s[1..])
  }

  /**
   * The passes compose character by character: the quote pass does not touch the
   * backslashes written by the newline pass.
   */
  lemma {:induction false} EscapeIsCharwise(s: string)
    ensures Escape(s) == EscapeEach(s)
  {
    if s != [] {
      var c, rest := s[0], s[1..];
      assert s == [c] + rest;
      ReplaceCharAppend([c], rest, '\n', "\\n");
      var a1, b1 := ReplaceChar([c], '\n', "\\n"), ReplaceChar(rest, '\n', "\\n");
      ReplaceCharAppend(a1, b1, '\r', "");
      var a2, b2 := ReplaceChar(a1, '\r', ""), ReplaceChar(b1, '\r', "");
      ReplaceCharAppend(a2, b2, '"', "\\\"");
      EscapeOneChar(c);
      EscapeIsCharwise(rest);
    }
  }

  lemma EscapeOneChar(c: char)
    ensures Escape([c]) == EscapeChar(c)
  {
    ReplaceCharOne(c, '\n', "\\n");
    if c == '\n' {
      ReplaceCharAbsent("\\n", '\r', "");
      ReplaceCharAbsent("\\n", '"', "\\\"");
    } else {
      ReplaceCharOne(c, '\r', "");
      if c != '\r' {
        ReplaceCharOne(c, '"', "\\\"");
      }
    }
  }

  lemma {:induction false} ReplaceCharAbsent(s: string, c: char, rep: string)
    requires c !in s
    ensures ReplaceChar(s, c, rep) == s
  {
    if s != [] {
      ReplaceCharAbsent(s[1..], c, rep);
      assert [s[0]] + s[1..] == s;
    }
  }

  lemma ReplaceCharOne(c: char, x: char, rep: string)
    ensures ReplaceChar([c], x, rep) == if c == x then rep else [c]
  {
    assert [c][1..] == [];
  }

  /** The escaped text is one line: it holds neither '\n' nor '\r'. */
  lemma EscapedIsOneLine(s: string)
    ensures '\n' !in Escape(s) && '\r' !in Escape(s)
  {
    var t1 := ReplaceChar(s, '\n', "\\n");
    var t2 := ReplaceChar(t1, '\r', "");
    assert '\r' !in t2;
    NoCharKept(t1, '\n', '\r', "");
    NoCharKept(t2, '\n', '"', "\\\"");
    NoCharKept(t2, '\r', '"', "\\\"");
  }

  lemma {:induction false} NoCharKept(s: string, x: char, c: char, rep: string)
    requires x !in s && x !in rep
    ensures x !in ReplaceChar(s, c, rep)
  {
    if s != [] {
      NoCharKept(s[1..], x, c, rep);
    }
  }

  /** Reads `\n` back as a newline and `\"` as a quote, as a C compiler does. */
  function Unescape(t: string): string
    decreases |t|
  {
    if t == [] then []
    else if |t| >= 2 && t[0] == '\\' && t[1] == 'n' then "\n" + Unescape(t[2..])
    else if |t| >= 2 && t[0] == '\\' && t[1] == '"' then "\"" + Unescape(t[2..])
    else [t[0]] + Unescape(t[1..])
  }

  /**
   * Escaping round trip: for a text without backslashes, reading the literal back
   * gives the text with every '\r' removed.
   */
  lemma {:induction false} EscapeRoundTrip(s: string)
    requires '\\' !in s
    ensures Unescape(Escape(s)) == ReplaceChar(s, '\r', "")
  {
    EscapeIsCharwise(s);
    EachRoundTrip(s);
  }

  lemma {:induction false} EachRoundTrip(s: string)
    requires '\\' !in s
    ensures Unescape(EscapeEach(s)) == ReplaceChar(s, '\r', "")
  {
    if s != [] {
      var c := s[0];
      assert c in s;
      EachRoundTrip(s[1..]);
      var t := EscapeEach(s[1..]);
      if c == '\n' {
        assert EscapeEach(s) == "\\n" + t;
        assert ("\\n" + t)[2..] == t;
      } else if c == '"' {
        assert EscapeEach(s) == "\\\"" + t;
        assert ("\\\"" + t)[2..] == t;
      } else if c != '\r' {
        assert EscapeEach(s) == [c] + t;
        assert ([c] + t)[1..] == t;
      } else {
        assert EscapeEach(s) == t;
        assert ReplaceChar(s, '\r', "") == ReplaceChar(s[1..], '\r', "");
      }
    }
  }

  /** A backslash followed by 'n' and a real newline escape alike, hence the requirement above. */
  lemma EscapeMergesBackslashN()
    ensures Escape("\\n") == Escape("\n")
  {
  }

  // ---------------------------------------------------------------------------
  // Include resolution (read_file)
  // ---------------------------------------------------------------------------

  /** Each file read at most once, only files outside the loaded-set, and the set grows by exactly them. */
  ghost predicate ReadsOnce(fs: FileSystem, loaded: set<Path>, r: Resolved) {
    && (forall p :: p in r.loaded <==> p in loaded || p in r.visited)
    && (forall i, j :: 0 <= i < j < |r.visited| ==> r.visited[i] != r.visited[j])
    && (forall p :: p in r.visited ==> p !in loaded && p in fs)
  }

  lemma CardShrinks(keys: set<Path>, loaded: set<Path>, more: set<Path>)
    requires loaded <= more
    ensures |keys - more| <= |keys - loaded|
  {
    var big, small := keys - loaded, keys - more;
    assert big == small + (big - small);
  }

  lemma CardShrinksStrictly(keys: set<Path>, loaded: set<Path>, f: Path, more: set<Path>)
    requires f in keys && f !in loaded && loaded + {f} <= more
    ensures |keys - more| < |keys - loaded|
  {
    CardShrinks(keys, loaded + {f}, more);
    assert keys - (loaded + {f}) == (keys - loaded) - {f};
  }

  /**
   * `read_file(fname, loaded)`: "" for a file already loaded; otherwise the file
   * with its includes inlined, trimmed, its non-leading `#version` lines deleted,
   * and escaped.
   */
  function Resolve(fs: FileSystem, fname: Path, loaded: set<Path>): (r: Result<Resolved, Error>)
    ensures r.Ok? ==> loaded <= r.value.loaded
    ensures r.Ok? ==> ReadsOnce(fs, loaded, r.value)
    ensures r.Ok? && fname !in loaded ==> r.value.visited != [] && r.value.visited[0] == fname
    ensures r.Err? && r.error.FileNotFound? ==> r.error.path !in fs
    decreases |fs.Keys - loaded|, 0, 0
  {
    if fname in loaded then Ok(Resolved("", loaded, []))
    else if fname !in fs then Err(FileNotFound(fname))
    else
      CardShrinksStrictly(fs.Keys, loaded, fname, loaded + {fname});
      var body :- Inline(fs, DirName(fname), fs[fname], 0, loaded + {fname});
      ReadsOnceCons(fs, loaded, fname, body, Escape(StripVersions(Strip(body.code))));
      Ok(Resolved(Escape(StripVersions(Strip(body.code))), body.loaded, [fname] + body.visited))
  }

  /**
   * The include loop from search position `from`: find `#include`, read the quoted
   * name, resolve it next to the including file, splice its text over the directive
   * line, and search again just after the inserted text.
   */
  function Inline(fs: FileSystem, dir: Path, code: string, from: nat, loaded: set<Path>)
    : (r: Result<Resolved, Error>)
    requires from <= |code|
    ensures r.Ok? ==> loaded <= r.value.loaded
    ensures r.Ok? ==> ReadsOnce(fs, loaded, r.value)
    ensures r.Err? && r.error.FileNotFound? ==> r.error.path !in fs
    decreases |fs.Keys - loaded|, 1, |code| - from, 1
  {
    match NextInclude(code, from)
    case None => Ok(Resolved(code, loaded, []))
    case Some((idx, le)) =>
      match IncludeName(code[idx..le])
      case None => Err(MalformedInclude(code[idx..le]))
      case Some(name) =>
        match Resolve(fs, Join(dir, name), loaded)
        case Err(e) => Err(e)
        case Ok(child) => Continue(fs, dir, code, from, idx, le, loaded, child)
  }

  /** After an include resolved to `child`: splice it in and search on after it. */
  function Continue(fs: FileSystem, dir: Path, code: string, from: nat, idx: nat, le: nat,
                    loaded: set<Path>, child: Resolved): (r: Result<Resolved, Error>)
    requires from <= idx && idx + |IncludeToken| <= le <= |code|
    requires loaded <= child.loaded && ReadsOnce(fs, loaded, child)
    ensures r.Ok? ==> loaded <= r.value.loaded
    ensures r.Ok? ==> ReadsOnce(fs, loaded, r.value)
    ensures r.Err? && r.error.FileNotFound? ==> r.error.path !in fs
    decreases |fs.Keys - loaded|, 1, |code| - from, 0
  {
    CardShrinks(fs.Keys, loaded, child.loaded);
    var rest := Inline(fs, dir, SpliceIn(code, idx, le, child.code), Resume(idx, child.code), child.loaded);
    ReadsOnceAfter(fs, loaded, child, rest);
    After(child.visited, rest)
  }

  /** Where the search goes on after `text` was inserted at `idx`. */
  function Resume(idx: nat, text: string): nat {
    idx + |text|
  }

  lemma ReadsOnceAfter(fs: FileSystem, loaded: set<Path>, child: Resolved, rest: Result<Resolved, Error>)
    requires ReadsOnce(fs, loaded, child)
    requires rest.Ok? ==> ReadsOnce(fs, child.loaded, rest.value)
    ensures After(child.visited, rest).Ok? ==> ReadsOnce(fs, loaded, After(child.visited, rest).value)
  {
    if rest.Ok? {
      ReadsOnceCompose(fs, loaded, child, rest.value);
    }
  }

  /** The next `#include` at or after `from`, with the end of its line. */
  function NextInclude(code: string, from: nat): (r: Option<(nat, nat)>)
    requires from <= |code|
    ensures r.None? <==> Find(code, IncludeToken, from) < 0
    ensures r.Some? ==> var (idx, le) := r.value;
              idx == Find(code, IncludeToken, from) && from <= idx &&
              idx + |IncludeToken| <= le <= |code| && le == LineEnd(code, idx)
  {
    var idx := Find(code, IncludeToken, from);
    if idx < 0 then None
    else
      DirectiveLine(code, idx, IncludeToken);
      Some((idx, LineEnd(code, idx)))
  }

  lemma ReadsOnceCompose(fs: FileSystem, loaded: set<Path>, child: Resolved, rest: Resolved)
    requires ReadsOnce(fs, loaded, child) && ReadsOnce(fs, child.loaded, rest)
    ensures ReadsOnce(fs, loaded, Resolved(rest.code, rest.loaded, child.visited + rest.visited))
  {
    var v := child.visited + rest.visited;
    forall i, j | 0 <= i < j < |v|
      ensures v[i] != v[j]
    {
      if j >= |child.visited| && i < |child.visited| {
        assert v[i] in child.loaded;
      }
    }
  }

  lemma ReadsOnceCons(fs: FileSystem, loaded: set<Path>, fname: Path, body: Resolved, code: string)
    requires fname in fs && fname !in loaded
    requires ReadsOnce(fs, loaded + {fname}, body)
    ensures ReadsOnce(fs, loaded, Resolved(code, body.loaded, [fname] + body.visited))
  {
    var v := [fname] + body.visited;
    forall i, j | 0 <= i < j < |v|
      ensures v[i] != v[j]
    {
      assert v[j] == body.visited[j - 1];
    }
  }

  /** Adds files read earlier in the same loop in front of a result's trace. */
  function After(trail: seq<Path>, r: Result<Resolved, Error>): (a: Result<Resolved, Error>)
    ensures a.Ok? <==> r.Ok?
    ensures a.Err? ==> a == r
    ensures a.Ok? ==> a.value.code == r.value.code && a.value.loaded == r.value.loaded
    ensures a.Ok? ==> |a.value.visited| == |trail| + |r.value.visited|
    ensures a.Ok? ==> a.value.visited[..|trail|] == trail && a.value.visited[|trail|..] == r.value.visited
  {
    match r
    case Ok(v) => Ok(Resolved(v.code, v.loaded, trail + v.visited))
    case Err(e) => Err(e)
  }

  lemma AfterAfter(t1: seq<Path>, t2: seq<Path>, r: Result<Resolved, Error>)
    ensures After(t1, After(t2, r)) == After(t1 + t2, r)
    ensures After([], r) == r
  {
    if r.Ok? {
      assert t1 + (t2 + r.value.visited) == (t1 + t2) + r.value.visited;
      assert [] + r.value.visited == r.value.visited;
    }
  }

  /** `read_file`, with its two loops, proved to compute `Resolve`. */
  method ReadFile(fs: FileSystem, fname: Path, loaded: set<Path>) returns (r: Result<Resolved, Error>)
    ensures r == Resolve(fs, fname, loaded)
    decreases |fs.Keys - loaded|
  {
    if fname in loaded {
      return Ok(Resolved("", loaded, []));
    }
    if fname !in fs {
      return Err(FileNotFound(fname));
    }
    var dir := DirName(fname);
    var code, files, trail: seq<Path>, from: nat := fs[fname], loaded + {fname}, [], 0;
    ghost var body := Inline(fs, dir, code, 0, files);
    ResolveBody(fs, fname, loaded);
    var directive := NextInclude(code, 0);
    AfterAfter([], [], body);
    while directive.Some?
      invariant from <= |code| && directive == NextInclude(code, from)
      invariant loaded + {fname} <= files
      invariant Remains(fs, dir, code, from, files, trail, body)
      decreases |fs.Keys - files|, |code| - from
    {
      var (idx, le) := directive.value;
      var name := IncludeName(code[idx..le]);
      if name.None? {
        InlineMalformed(fs, dir, code, from, files, idx, le);
        return Err(MalformedInclude(code[idx..le]));
      }
      CardShrinksStrictly(fs.Keys, loaded, fname, files);
      var child := ReadFile(fs, Join(dir, name.value), files);
      if child.Err? {
        InlineChildFails(fs, dir, code, from, files, idx, le, name.value);
        return Err(child.error);
      }
      CardShrinks(fs.Keys, files, child.value.loaded);
      LoopStep(fs, dir, code, from, files, idx, le, name.value, child.value, trail, body);
      code, from := SpliceIn(code, idx, le, child.value.code), Resume(idx, child.value.code);
      files := child.value.loaded;
      trail := trail + child.value.visited;
      directive := NextInclude(code, from);
    }
    InlineDone(fs, dir, code, from, files);
    assert trail + [] == trail;
    var flat := StripVersionDirectives(Strip(code));
    return Ok(Resolved(Escape(flat), files, [fname] + trail));
  }

  /** What is left of the include loop, `Inline` from `from`, after `trail` gives `body`. */
  ghost predicate Remains(fs: FileSystem, dir: Path, code: string, from: nat, loaded: set<Path>,
                          trail: seq<Path>, body: Result<Resolved, Error>)
  {
    from <= |code| && body == After(trail, Inline(fs, dir, code, from, loaded))
  }

  /** One pass of the include loop keeps `body` equal to what is left of it. */
  lemma {:induction false} LoopStep(fs: FileSystem, dir: Path, code: string, from: nat,
                                    loaded: set<Path>, idx: nat, le: nat, name: Path, child: Resolved,
                                    trail: seq<Path>, body: Result<Resolved, Error>)
    requires from <= |code| && NextInclude(code, from) == Some((idx, le))
    requires IncludeName(code[idx..le]) == Some(name)
    requires Resolve(fs, Join(dir, name), loaded) == Ok(child)
    requires Remains(fs, dir, code, from, loaded, trail, body)
    ensures Remains(fs, dir, SpliceIn(code, idx, le, child.code), Resume(idx, child.code), child.loaded,
                    trail + child.visited, body)
  {
    InlineSplices(fs, dir, code, from, loaded, idx, le, name, child);
    ContinueUnfolds(fs, dir, code, from, idx, le, loaded, child);
    AfterAfter(trail, child.visited,
               Inline(fs, dir, SpliceIn(code, idx, le, child.code), Resume(idx, child.code), child.loaded));
  }

  /** One step of `Resolve`, for a file not yet loaded. */
  lemma ResolveBody(fs: FileSystem, fname: Path, loaded: set<Path>)
    requires fname !in loaded && fname in fs
    ensures var body := Inline(fs, DirName(fname), fs[fname], 0, loaded + {fname});
            Resolve(fs, fname, loaded) ==
              if body.Err? then Err(body.error)
              else Ok(Resolved(Escape(StripVersions(Strip(body.value.code))), body.value.loaded,
                               [fname] + body.value.visited))
  {
  }

  /** `Inline` with no directive left: the text is finished. */
  lemma {:induction false} InlineDone(fs: FileSystem, dir: Path, code: string, from: nat, loaded: set<Path>)
    requires from <= |code| && NextInclude(code, from).None?
    ensures Inline(fs, dir, code, from, loaded) == Ok(Resolved(code, loaded, []))
  {
  }

  /** `Inline` on a directive without a quoted name fails with that line. */
  lemma {:induction false} InlineMalformed(fs: FileSystem, dir: Path, code: string, from: nat,
                                           loaded: set<Path>, idx: nat, le: nat)
    requires from <= |code| && NextInclude(code, from) == Some((idx, le))
    requires IncludeName(code[idx..le]).None?
    ensures Inline(fs, dir, code, from, loaded) == Err(MalformedInclude(code[idx..le]))
  {
  }

  /** `Inline` fails with the error of an included file that fails. */
  lemma {:induction false} InlineChildFails(fs: FileSystem, dir: Path, code: string, from: nat,
                                            loaded: set<Path>, idx: nat, le: nat, name: Path)
    requires from <= |code| && NextInclude(code, from) == Some((idx, le))
    requires IncludeName(code[idx..le]) == Some(name)
    requires Resolve(fs, Join(dir, name), loaded).Err?
    ensures Inline(fs, dir, code, from, loaded) == Err(Resolve(fs, Join(dir, name), loaded).error)
  {
  }

  /** `Inline` splices a resolved include and carries on just after it. */
  lemma {:induction false} InlineSplices(fs: FileSystem, dir: Path, code: string, from: nat,
                                         loaded: set<Path>, idx: nat, le: nat, name: Path, child: Resolved)
    requires from <= |code| && NextInclude(code, from) == Some((idx, le))
    requires IncludeName(code[idx..le]) == Some(name)
    requires Resolve(fs, Join(dir, name), loaded) == Ok(child)
    ensures Inline(fs, dir, code, from, loaded) ==
            Continue(fs, dir, code, from, idx, le, loaded, child)
  {
  }

  /** `Continue` is the rest of the include loop over the spliced text. */
  lemma {:induction false} ContinueUnfolds(fs: FileSystem, dir: Path, code: string, from: nat, idx: nat,
                                           le: nat, loaded: set<Path>, child: Resolved)
    requires from <= idx && idx + |IncludeToken| <= le <= |code|
    requires loaded <= child.loaded && ReadsOnce(fs, loaded, child)
    ensures ContinuesAs(fs, dir, code, from, idx, le, loaded, child,
                        SpliceIn(code, idx, le, child.code), Resume(idx, child.code))
  {
  }

  /**
   * `Continue` goes on with `Inline` over the spliced text `code'` from `from'` (stated
   * through a non-recursive predicate, which keeps the unfolding of `Inline` shallow).
   */
  ghost predicate ContinuesAs(fs: FileSystem, dir: Path, code: string, from: nat, idx: nat,
                              le: nat, loaded: set<Path>, child: Resolved, code': string, from': nat)
    requires from <= idx && idx + |IncludeToken| <= le <= |code|
    requires loaded <= child.loaded && ReadsOnce(fs, loaded, child)
    requires from' <= |code'|
  {
    Continue(fs, dir, code, from, idx, le, loaded, child) ==
      After(child.visited, Inline(fs, dir, code', from', child.loaded))
  }

  // ---------------------------------------------------------------------------
  // Output naming and emission (the main loop)
  // ---------------------------------------------------------------------------

  const MacroPrefix := "SHADER_"

  /** `upper()` on the ASCII letters; other characters, non-ASCII letters included, stay. */
  function UpperAscii(c: char): char {
    if 'a' <= c <= 'z' then (c as int - 32) as char else c
  }

  /** `upper()` then '/', '\\' and '.' replaced by '_'. */
  function MangleChar(c: char): char {
    var u := UpperAscii(c);
    if u == '/' || u == '\\' || u == '.' then '_' else u
  }

  /** `'SHADER_' + relpath.upper().replace('/', '_').replace('\\', '_').replace('.', '_')`. */
  function MacroName(relpath: Path): (r: string)
    ensures |r| == |MacroPrefix| + |relpath| && r[..|MacroPrefix|] == MacroPrefix
    ensures forall i :: 0 <= i < |relpath| ==> r[|MacroPrefix| + i] == MangleChar(relpath[i])
    ensures forall i :: |MacroPrefix| <= i < |r| ==>
              r[i] !in {'/', '\\', '.'} && !('a' <= r[i] <= 'z')
  {
    MacroPrefix + seq(|relpath|, i requires 0 <= i < |relpath| => MangleChar(relpath[i]))
  }

  /** `os.path.join(output_dir, relpath + '.h')`. */
  function OutputPath(outputDir: Path, relpath: Path): (p: Path)
    ensures |p| >= |relpath| + 2 && p[|p| - |relpath| - 2..] == relpath + ".h"
  {
    Join(outputDir, relpath + ".h")
  }

  /** The header written for one shader. */
  function HeaderText(name: string, code: string): string {
    "#ifndef " + name + "\n#define " + name + " \"" + code + "\"\n#endif"
  }

  /** The header has exactly two '\n': escaped code keeps the definition on one line. */
  lemma HeaderHasThreeLines(name: string, s: string)
    requires '\n' !in name
    ensures var h := HeaderText(name, Escape(s));
            h == "#ifndef " + name + "\n" + "#define " + name + " \"" + Escape(s) + "\"" + "\n" + "#endif"
    ensures '\n' !in "#define " + name + " \"" + Escape(s) + "\""
  {
    EscapedIsOneLine(s);
  }

  /** One entry of the main loop: its output path and the header to write there, or the error. */
  type Job = (Path, Result<string, Error>)

  /** What the main loop has to write for one entry `rel`. */
  function JobOf(fs: FileSystem, inputDir: Path, outputDir: Path, rel: Path): (job: Job)
    ensures job.0 == OutputPath(outputDir, rel)
    ensures job.1.Err? <==> Resolve(fs, Join(inputDir, rel), {}).Err?
    ensures job.1.Err? ==> job.1.error == Resolve(fs, Join(inputDir, rel), {}).error
    ensures job.1.Ok? ==> job.1.value == HeaderText(MacroName(rel), Resolve(fs, Join(inputDir, rel), {}).value.code)
  {
    match Resolve(fs, Join(inputDir, rel), {})
    case Ok(v) => (OutputPath(outputDir, rel), Ok(HeaderText(MacroName(rel), v.code)))
    case Err(e) => (OutputPath(outputDir, rel), Err(e))
  }

  function Jobs(fs: FileSystem, inputDir: Path, outputDir: Path, entries: seq<Path>): (jobs: seq<Job>)
    ensures |jobs| == |entries|
    ensures forall i :: 0 <= i < |entries| ==> jobs[i] == JobOf(fs, inputDir, outputDir, entries[i])
  {
    seq(|entries|, i requires 0 <= i < |entries| => JobOf(fs, inputDir, outputDir, entries[i]))
  }

  /**
   * The writing side of the main loop, as a fold over the jobs: the files written so
   * far, and the error that stopped the run, if any.
   */
  function Emit(jobs: seq<Job>): (map<Path, string>, Option<Error>)
    decreases |jobs|
  {
    if jobs == [] then (map[], None)
    else
      var (written, failure) := Emit(jobs[..|jobs| - 1]);
      var (path, header) := jobs[|jobs| - 1];
      if failure.Some? then (written, failure)
      else match header
        case Err(e) => (written, Some(e))
        case Ok(text) => (written[path := text], None)
  }

  lemma PrefixOfInit(jobs: seq<Job>)
    requires jobs != []
    ensures var init := jobs[..|jobs| - 1];
            init == jobs[..|init|] &&
            forall k :: 0 <= k < |init| ==> init[..k] == jobs[..k] && init[k] == jobs[k]
  {
  }

  /** The output paths of the given jobs. */
  function Paths(jobs: seq<Job>): (ps: set<Path>)
    ensures forall i :: 0 <= i < |jobs| ==> jobs[i].0 in ps
    ensures forall p :: p in ps ==> exists i :: 0 <= i < |jobs| && jobs[i].0 == p
  {
    set i | 0 <= i < |jobs| :: jobs[i].0
  }

  /** With no failure every job succeeded and exactly the jobs' output paths are written. */
  lemma {:induction false} EmitSucceeds(jobs: seq<Job>)
    ensures Emit(jobs).1.None? ==>
              (forall i :: 0 <= i < |jobs| ==> jobs[i].1.Ok?) && Emit(jobs).0.Keys == Paths(jobs)
    decreases |jobs|
  {
    if jobs != [] && Emit(jobs).1.None? {
      var init := jobs[..|jobs| - 1];
      PrefixOfInit(jobs);
      EmitSucceeds(init);
      PathsSnoc(jobs);
    }
  }

  lemma PathsSnoc(jobs: seq<Job>)
    requires jobs != []
    ensures Paths(jobs) == Paths(jobs[..|jobs| - 1]) + {jobs[|jobs| - 1].0}
  {
    var init := jobs[..|jobs| - 1];
    forall p | p in Paths(jobs)
      ensures p in Paths(init) + {jobs[|jobs| - 1].0}
    {
      var i :| 0 <= i < |jobs| && jobs[i].0 == p;
      if i < |init| {
        assert init[i] == jobs[i];
      }
    }
    forall p | p in Paths(init)
      ensures p in Paths(jobs)
    {
      var i :| 0 <= i < |init| && init[i].0 == p;
      assert jobs[i] == init[i];
    }
  }

  /**
   * After a failure, the jobs before the first failing one succeeded, that one gave
   * the error, and exactly the output paths of the jobs before it are written.
   */
  lemma {:induction false} EmitFails(jobs: seq<Job>)
    ensures Emit(jobs).1.Some? ==>
              exists k :: (0 <= k < |jobs| &&
                           (forall i :: 0 <= i < k ==> jobs[i].1.Ok?) &&
                           jobs[k].1 == Err(Emit(jobs).1.value) &&
                           Emit(jobs).0.Keys == Paths(jobs[..k]))
    decreases |jobs|
  {
    if jobs != [] && Emit(jobs).1.Some? {
      var init := jobs[..|jobs| - 1];
      PrefixOfInit(jobs);
      if Emit(init).1.Some? {
        EmitFails(init);
        var k :| 0 <= k < |init| && (forall i :: 0 <= i < k ==> init[i].1.Ok?) &&
                 init[k].1 == Err(Emit(init).1.value) && Emit(init).0.Keys == Paths(init[..k]);
        assert jobs[k] == init[k];
      } else {
        EmitSucceeds(init);
        var k := |jobs| - 1;
        assert jobs[..k] == init;
      }
    }
  }

  /** One more job after a run without failure. */
  lemma EmitStep(jobs: seq<Job>, k: nat)
    requires k < |jobs| && Emit(jobs[..k]).1.None?
    ensures jobs[k].1.Err? ==> Emit(jobs[..k + 1]) == (Emit(jobs[..k]).0, Some(jobs[k].1.error))
    ensures jobs[k].1.Ok? ==> Emit(jobs[..k + 1]) == (Emit(jobs[..k]).0[jobs[k].0 := jobs[k].1.value], None)
  {
    assert jobs[..k + 1][..k] == jobs[..k];
  }

  /** Once a job fails, later jobs change nothing. */
  lemma {:induction false} EmitStops(jobs: seq<Job>, k: nat)
    requires k <= |jobs|
    requires Emit(jobs[..k]).1.Some?
    ensures Emit(jobs) == Emit(jobs[..k])
    decreases |jobs| - k
  {
    if k < |jobs| {
      assert jobs[..k + 1][..k] == jobs[..k];
      EmitStops(jobs, k + 1);
    } else {
      assert jobs[..k] == jobs;
    }
  }

  /** The main loop: read each entry, stop at the first failure, write one header per entry. */
  method Bundle(fs: FileSystem, inputDir: Path, outputDir: Path, entries: seq<Path>)
    returns (written: map<Path, string>, failure: Option<Error>)
    ensures (written, failure) == Emit(Jobs(fs, inputDir, outputDir, entries))
  {
    ghost var jobs := Jobs(fs, inputDir, outputDir, entries);
    written, failure := map[], None;
    for k := 0 to |entries|
      invariant (written, failure) == Emit(jobs[..k])
      invariant failure.None?
    {
      var rel := entries[k];
      var code := ReadFile(fs, Join(inputDir, rel), {});
      EmitStep(jobs, k);
      if code.Err? {
        failure := Some(code.error);
        EmitStops(jobs, k + 1);
        return;
      }
      written := written[OutputPath(outputDir, rel) := HeaderText(MacroName(rel), code.value.code)];
    }
    assert jobs[..|entries|] == jobs;
  }
}

=== FILE: terrain.dfy ===
/**
 * The terrain bookkeeping of src/Graphics/Terrain.cpp that is plain counting: the size of
 * the tile cache (`estimateCacheSize`) and the propagation of a tile's height bounds up the
 * quadtree of level-of-detail levels (`updateHeightBounds`).
 */
module Terrains {

  type Uint16 = x: int | 0 <= x < 0x1_0000

  // ---------------------------------------------------------------------------------------
  // Cache size
  // ---------------------------------------------------------------------------------------

  /** The number of tiles the cache needs in the worst case: 1, plus 4 with a level, plus 9 per level past the second. */
  function Required(numLevels: nat): nat
  {
    1 + (if numLevels >= 1 then 4 else 0) + (if numLevels >= 2 then 9 * (numLevels - 2) else 0)
  }

  /** `f` is a factor of `n` other than 1 and no larger than the square root of `n`. */
  predicate SquareFactor(n: nat, f: nat)
  {
    2 <= f && f * f <= n && n % f == 0
  }

  /** The whole square root: what `(Uint32)sqrtf(n)` computes. */
  function FloorSqrt(n: nat): (s: nat)
    ensures s * s <= n < (s + 1) * (s + 1)
  {
    SqrtFrom(n, 0)
  }

  function SqrtFrom(n: nat, r: nat): (s: nat)
    requires r * r <= n
    ensures s * s <= n < (s + 1) * (s + 1)
    decreases n - r
  {
    if (r + 1) * (r + 1) > n then r
    else
      assert r + 1 <= (r + 1) * (r + 1);
      SqrtFrom(n, r + 1)
  }

  /** `f` divides `n`. */
  predicate Divides(f: nat, n: nat)
    requires f > 0
  {
    n % f == 0
  }

  /** A number whose square is at most `n` is at most the whole square root of `n`. */
  lemma BelowSqrt(n: nat, s: nat, f: nat)
    requires n < (s + 1) * (s + 1) && f * f <= n
    ensures f <= s
  {
  }

  /** A divisor `b` of `n` with `b * b <= n` splits `n` into `(n / b) * b` with `b <= n / b`. */
  lemma SplitByFactor(n: nat, b: nat)
    requires 2 <= b && b * b <= n && Divides(b, n)
    ensures (n / b) * b == n && b <= n / b
  {
    var x := n / b;
    assert x * b == n;
  }

  /**
   * The inner search found `b` as the largest divisor in [2, s], s the whole square root of
   * `n`: then `b` is a factor up to the square root, and no larger one is.
   */
  lemma FoundFactor(n: nat, s: nat, b: nat)
    requires s * s <= n < (s + 1) * (s + 1) && 2 <= b <= s && Divides(b, n)
    requires forall f :: b < f <= s ==> !Divides(f, n)
    ensures SquareFactor(n, b) && forall f: nat :: b < f ==> !SquareFactor(n, f)
  {
    assert b * b <= s * s by {
      assert b * b <= b * s <= s * s;
    }
    forall f: nat | b < f
      ensures !SquareFactor(n, f)
    {
      if f * f <= n {
        BelowSqrt(n, s, f);
        assert !Divides(f, n);
      }
    }
  }

  /** The inner search found no divisor in [2, s]: `n` has no factor up to its square root. */
  lemma NoFactor(n: nat, s: nat)
    requires n < (s + 1) * (s + 1)
    requires forall f :: 2 <= f <= s ==> !Divides(f, n)
    ensures forall f: nat :: !SquareFactor(n, f)
  {
    forall f: nat
      ensures !SquareFactor(n, f)
    {
      if 2 <= f && f * f <= n {
        BelowSqrt(n, s, f);
        assert !Divides(f, n);
      }
    }
  }

  /** Of two consecutive counts from 4 on, the even one has the factor 2. */
  lemma EvenHasFactor(m: nat)
    requires m >= 4
    ensures SquareFactor(m, 2) || SquareFactor(m + 1, 2)
  {
  }

  /**
   * `estimateCacheSize`: from the required count upward, the first count with a factor no
   * larger than its square root; the result is (count / f, f) for the largest such factor f.
   */
  method EstimateCacheSize(numLevels: nat) returns (x: nat, y: nat)
    ensures x * y >= Required(numLevels) && y <= x
    ensures SquareFactor(x * y, y)
    ensures forall f: nat :: y < f ==> !SquareFactor(x * y, f)
    ensures forall m: nat, f: nat :: Required(numLevels) <= m < x * y ==> !SquareFactor(m, f)
  {
    var numTiles: nat := 1;
    numTiles := numTiles + if numLevels >= 1 then 4 else 0;
    numTiles := numTiles + if numLevels >= 2 then 9 * (numLevels - 2) else 0;
    ghost var required := numTiles;
    ghost var last := if required < 4 then 5 else required + 1;
    while true
      invariant required == Required(numLevels) <= numTiles <= last
      invariant forall m: nat, f: nat :: required <= m < numTiles ==> !SquareFactor(m, f)
      decreases last - numTiles
    {
      var biggestFactor := 1;
      var stop := FloorSqrt(numTiles) + 1;
      var i := 2;
      while i < stop
        invariant 2 <= i && (i <= stop || stop < 2)
        invariant biggestFactor == 1 || (2 <= biggestFactor < i && Divides(biggestFactor, numTiles))
        invariant forall f :: biggestFactor < f < i && 2 <= f ==> !Divides(f, numTiles)
      {
        if numTiles % i == 0 {
          biggestFactor := i;
        }
        i := i + 1;
      }
      if biggestFactor != 1 {
        FoundFactor(numTiles, stop - 1, biggestFactor);
        SplitByFactor(numTiles, biggestFactor);
        return numTiles / biggestFactor, biggestFactor;
      }
      NoFactor(numTiles, stop - 1);
      EvenHasFactor(last - 1);
      numTiles := numTiles + 1;
    }
  }

  // ---------------------------------------------------------------------------------------
  // Height bounds
  // ---------------------------------------------------------------------------------------

  /** A tile's height bounds, `Vector2<Uint16>(min, max)`. */
  datatype Bounds = Bounds(lo: Uint16, hi: Uint16)

  /** `a` lies within `b`. */
  predicate Within(a: Bounds, b: Bounds)
  {
    b.lo <= a.lo && a.hi <= b.hi
  }

  /** The bounds with `lo` lowering the minimum and `hi` raising the maximum. */
  function Widen(b: Bounds, lo: Uint16, hi: Uint16): (r: Bounds)
    ensures Within(b, r) && r.lo <= lo && hi <= r.hi
    ensures r == b <==> (b.lo <= lo && hi <= b.hi)
    ensures forall a :: Within(a, b) ==> Within(a, r)
  {
    Bounds(if lo < b.lo then lo else b.lo, if hi > b.hi then hi else b.hi)
  }

  /** The smallest and largest of the heights, from 65535 and 0. */
  function MinHeight(values: seq<Uint16>): (m: Uint16)
  {
    if |values| == 0 then 65535
    else
      var m := MinHeight(values[..|values| - 1]);
      if values[|values| - 1] < m then values[|values| - 1] else m
  }

  function MaxHeight(values: seq<Uint16>): (m: Uint16)
  {
    if |values| == 0 then 0
    else
      var m := MaxHeight(values[..|values| - 1]);
      if values[|values| - 1] > m then values[|values| - 1] else m
  }

  /** The minimum is at most every height and is one of them (or 65535); the maximum likewise. */
  lemma {:induction false} HeightsBounded(values: seq<Uint16>)
    ensures forall i :: 0 <= i < |values| ==> MinHeight(values) <= values[i] <= MaxHeight(values)
    ensures MinHeight(values) == 65535 || MinHeight(values) in values
    ensures MaxHeight(values) == 0 || MaxHeight(values) in values
  {
    if |values| > 0 {
      var front := values[..|values| - 1];
      HeightsBounded(front);
      assert values == front + [values[|values| - 1]];
    }
  }

  /** The scan of a tile's heights for their bounds. */
  method TileBounds(values: seq<Uint16>) returns (lo: Uint16, hi: Uint16)
    ensures lo == MinHeight(values) && hi == MaxHeight(values)
  {
    lo, hi := 65535, 0;
    var i := 0;
    while i < |values|
      invariant i <= |values|
      invariant lo == MinHeight(values[..i]) && hi == MaxHeight(values[..i])
    {
      assert values[..i + 1][..i] == values[..i];
      if values[i] < lo {
        lo := values[i];
      }
      if values[i] > hi {
        hi := values[i];
      }
      i := i + 1;
    }
    assert values[..i] == values;
  }

  /** The number of tiles along an edge of level `k`; level 0 is the root. */
  function Edge(k: nat): (e: nat)
    ensures e >= 1
  {
    if k == 0 then 1 else 2 * Edge(k - 1)
  }

  /** Level `k` holds one bounds per tile of its `Edge(k)` by `Edge(k)` grid, row by row. */
  ghost predicate Shaped(levels: seq<seq<seq<Bounds>>>)
  {
    |levels| >= 1 &&
    forall k :: 0 <= k < |levels| ==>
      |levels[k]| == Edge(k) && forall r :: 0 <= r < Edge(k) ==> |levels[k][r]| == Edge(k)
  }

  /** The bounds of tile (`r`, `c`) of level `k`. */
  ghost function Cell(levels: seq<seq<seq<Bounds>>>, k: nat, r: nat, c: nat): Bounds
    requires Shaped(levels) && k < |levels| && r < Edge(k) && c < Edge(k)
  {
    levels[k][r][c]
  }

  /** The levels with tile (`r`, `c`) of level `k` set to `b`. */
  ghost function SetCell(levels: seq<seq<seq<Bounds>>>, k: nat, r: nat, c: nat, b: Bounds): (r': seq<seq<seq<Bounds>>>)
    requires Shaped(levels) && k < |levels| && r < Edge(k) && c < Edge(k)
    ensures Shaped(r') && |r'| == |levels|
    ensures forall j: nat, r1: nat, c1: nat {:trigger Cell(r', j, r1, c1)} :: j < |levels| && r1 < Edge(j) && c1 < Edge(j) ==>
      Cell(r', j, r1, c1) == if j == k && r1 == r && c1 == c then b else Cell(levels, j, r1, c1)
  {
    levels[k := levels[k][r := levels[k][r][c := b]]]
  }

  /**
   * The bound propagation of `updateHeightBounds` from tile (`r`, `c`) of level `k`: the
   * tile is widened by (`lo`, `hi`); when that changed it and `k` is not the root, the parent
   * tile of level `k - 1` follows, else the walk stops.
   */
  ghost function Propagated(levels: seq<seq<seq<Bounds>>>, k: nat, r: nat, c: nat, lo: Uint16, hi: Uint16): (r': seq<seq<seq<Bounds>>>)
    requires Shaped(levels) && k < |levels| && r < Edge(k) && c < Edge(k)
    ensures Shaped(r') && |r'| == |levels|
    decreases k
  {
    var b := Cell(levels, k, r, c);
    var w := Widen(b, lo, hi);
    var next := SetCell(levels, k, r, c, w);
    if w != b && k > 0 then Propagated(next, k - 1, r / 2, c / 2, lo, hi) else next
  }

  /** Tile (`r`, `c`) of level `k` climbed `d` levels toward the root. */
  function Up(x: nat, d: nat): nat
  {
    if d == 0 then x else Up(x / 2, d - 1)
  }

  lemma {:induction false} UpStaysInLevel(x: nat, k: nat, d: nat)
    requires d <= k && x < Edge(k)
    ensures Up(x, d) < Edge(k - d)
    decreases d
  {
    if d > 0 {
      UpStaysInLevel(x / 2, k - 1, d - 1);
    }
  }

  /**
   * Propagation only widens: every tile keeps at least its old range, the starting tile
   * then covers (`lo`, `hi`), and a tile that is not an ancestor of the start is untouched.
   */
  lemma {:induction false} PropagatedWidens(levels: seq<seq<seq<Bounds>>>, k: nat, r: nat, c: nat, lo: Uint16, hi: Uint16)
    requires Shaped(levels) && k < |levels| && r < Edge(k) && c < Edge(k)
    ensures var p := Propagated(levels, k, r, c, lo, hi);
      (forall j: nat, r': nat, c': nat {:trigger Cell(p, j, r', c')} :: j < |levels| && r' < Edge(j) && c' < Edge(j) ==>
        Within(Cell(levels, j, r', c'), Cell(p, j, r', c'))) &&
      Cell(p, k, r, c).lo <= lo && hi <= Cell(p, k, r, c).hi &&
      (forall j: nat, r': nat, c': nat {:trigger Cell(p, j, r', c')} ::
        (j < |levels| && r' < Edge(j) && c' < Edge(j) && (j > k || r' != Up(r, k - j) || c' != Up(c, k - j))) ==>
        Cell(p, j, r', c') == Cell(levels, j, r', c'))
    decreases k
  {
    var b := Cell(levels, k, r, c);
    var w := Widen(b, lo, hi);
    var next := SetCell(levels, k, r, c, w);
    var p := Propagated(levels, k, r, c, lo, hi);
    if w != b && k > 0 {
      PropagatedWidens(next, k - 1, r / 2, c / 2, lo, hi);
      assert p == Propagated(next, k - 1, r / 2, c / 2, lo, hi);
      forall j: nat, r': nat, c': nat | j < |levels| && r' < Edge(j) && c' < Edge(j) &&
        (j > k || r' != Up(r, k - j) || c' != Up(c, k - j))
        ensures Cell(p, j, r', c') == Cell(levels, j, r', c')
      {
        if j < k {
          assert Up(r, k - j) == Up(r / 2, k - 1 - j) && Up(c, k - j) == Up(c / 2, k - 1 - j);
        }
      }
    }
  }

  /** Tile (`j`, `r`, `c`), when it is one below the root, lies within its parent tile. */
  ghost predicate NestsAt(levels: seq<seq<seq<Bounds>>>, j: nat, r: nat, c: nat)
    requires Shaped(levels)
  {
    1 <= j < |levels| && r < Edge(j) && c < Edge(j) ==>
      Within(Cell(levels, j, r, c), Cell(levels, j - 1, r / 2, c / 2))
  }

  /** Every tile below the root lies within its parent tile. */
  ghost predicate Nested(levels: seq<seq<seq<Bounds>>>)
    requires Shaped(levels)
  {
    forall j: nat, r: nat, c: nat :: NestsAt(levels, j, r, c)
  }

  /**
   * As `NestsAt`, except that a child of tile (`r`, `c`) of level `k` need only lie within
   * that tile widened by (`lo`, `hi`).
   */
  ghost predicate NestsButAt(levels: seq<seq<seq<Bounds>>>, k: nat, r: nat, c: nat, lo: Uint16, hi: Uint16, j: nat, r': nat, c': nat)
    requires Shaped(levels) && k < |levels| && r < Edge(k) && c < Edge(k)
  {
    1 <= j < |levels| && r' < Edge(j) && c' < Edge(j) ==>
      Within(Cell(levels, j, r', c'),
        if j == k + 1 && r' / 2 == r && c' / 2 == c then Widen(Cell(levels, k, r, c), lo, hi)
        else Cell(levels, j - 1, r' / 2, c' / 2))
  }

  /** Nested but for the children of tile (`r`, `c`) of level `k`, as `NestsButAt` says. */
  ghost predicate NestedBut(levels: seq<seq<seq<Bounds>>>, k: nat, r: nat, c: nat, lo: Uint16, hi: Uint16)
    requires Shaped(levels) && k < |levels| && r < Edge(k) && c < Edge(k)
  {
    forall j: nat, r': nat, c': nat :: NestsButAt(levels, k, r, c, lo, hi, j, r', c')
  }

  lemma {:induction false} PropagatedNestedBut(levels: seq<seq<seq<Bounds>>>, k: nat, r: nat, c: nat, lo: Uint16, hi: Uint16)
    requires Shaped(levels) && k < |levels| && r < Edge(k) && c < Edge(k)
    requires NestedBut(levels, k, r, c, lo, hi)
    ensures Nested(Propagated(levels, k, r, c, lo, hi))
    decreases k
  {
    var b := Cell(levels, k, r, c);
    var w := Widen(b, lo, hi);
    var next := SetCell(levels, k, r, c, w);
    if w != b && k > 0 {
      assert NestsButAt(levels, k, r, c, lo, hi, k, r, c);
      var k1, r1, c1 := k - 1, r / 2, c / 2;
      forall j: nat, r': nat, c': nat
        ensures NestsButAt(next, k1, r1, c1, lo, hi, j, r', c')
      {
        assert NestsButAt(levels, k, r, c, lo, hi, j, r', c');
      }
      PropagatedNestedBut(next, k1, r1, c1, lo, hi);
    } else {
      forall j: nat, r': nat, c': nat
        ensures NestsAt(next, j, r', c')
      {
        assert NestsButAt(levels, k, r, c, lo, hi, j, r', c');
      }
    }
  }

  /** Propagation keeps every tile within its parent tile. */
  lemma PropagatedKeepsNested(levels: seq<seq<seq<Bounds>>>, k: nat, r: nat, c: nat, lo: Uint16, hi: Uint16)
    requires Shaped(levels) && k < |levels| && r < Edge(k) && c < Edge(k)
    requires Nested(levels)
    ensures Nested(Propagated(levels, k, r, c, lo, hi))
  {
    forall j: nat, r': nat, c': nat
      ensures NestsButAt(levels, k, r, c, lo, hi, j, r', c')
    {
      assert NestsAt(levels, j, r', c');
    }
    PropagatedNestedBut(levels, k, r, c, lo, hi);
  }

  /** The height-bound levels of `Terrain`; level 0 is the root of the quadtree. */
  class Terrain {
    var levels: seq<seq<seq<Bounds>>>

    ghost predicate Valid()
      reads this
    {
      Shaped(levels)
    }

    constructor(levels0: seq<seq<seq<Bounds>>>)
      requires Shaped(levels0)
      ensures Valid() && levels == levels0
    {
      levels := levels0;
    }

    /**
     * `updateHeightBounds(nr, nc)` given the heights of the tile's pixels: their bounds are
     * propagated from the tile of the finest level toward the root.
     */
    method UpdateHeightBounds(nr: nat, nc: nat, values: seq<Uint16>)
      requires Valid() && nr < Edge(|levels| - 1) && nc < Edge(|levels| - 1)
      modifies this
      ensures Valid()
      ensures levels == Propagated(old(levels), |old(levels)| - 1, nr, nc, MinHeight(values), MaxHeight(values))
    {
      var lo, hi := TileBounds(values);
      var bounds := levels;
      ghost var target := Propagated(bounds, |bounds| - 1, nr, nc, lo, hi);
      var boundsChanged := true;
      var level: int := |bounds| - 1;
      var r: nat, c: nat := nr, nc;
      var numTilesPerEdge := Edge(level);
      while boundsChanged && level >= 0
        invariant Shaped(bounds) && |bounds| == |levels|
        invariant -1 <= level < |bounds|
        invariant level >= 0 ==> numTilesPerEdge == Edge(level) && r < Edge(level) && c < Edge(level)
        invariant target == if boundsChanged && level >= 0 then Propagated(bounds, level, r, c, lo, hi) else bounds
        decreases level + 1
      {
        ghost var before := bounds;
        boundsChanged := false;
        var currBounds := bounds[level][r][c];
        var updated := Widen(currBounds, lo, hi);
        boundsChanged := updated != currBounds;
        bounds := bounds[level := bounds[level][r := bounds[level][r][c := updated]]];
        assert bounds == SetCell(before, level, r, c, updated);
        level := level - 1;
        r := r / 2;
        c := c / 2;
        numTilesPerEdge := numTilesPerEdge / 2;
      }
      levels := bounds;
    }
  }
}

=== FILE: text_input.dfy ===
/**
 * The editing state of src/UI/TextInput.cpp: the text, the cursor (`m_cursorCharPos`),
 * the selection range (`m_textSelection`) and where the last selection started
 * (`m_selectStart`), with the key, text and setter handlers that change them. The
 * clipboard and the modifier keys are the window's and come in as parameters; the
 * value-changed and submit callbacks are recorded as the values they receive.
 */
module TextInputs {
  import opened Wrappers

  // ---------------------------------------------------------------------------
  // `std::string::substr`

  /** `s.substr(0, n)`: the first `n` characters, or all of them when there are fewer. */
  function Prefix(s: string, n: nat): (r: string)
    ensures |r| == if n <= |s| then n else |s|
    ensures r <= s
  {
    if n <= |s| then s[..n] else s
  }

  /** `s.substr(pos)`: the characters from `pos` on; `std::out_of_range` when `pos` is past the end. */
  function Suffix(s: string, pos: nat): (r: Option<string>)
    ensures r.Some? <==> pos <= |s|
    ensures r.Some? ==> s[..pos] + r.value == s
  {
    if pos <= |s| then Some(s[pos..]) else None
  }

  /** `s.substr(pos, n)`: at most `n` characters from `pos`; `std::out_of_range` past the end. */
  function Substring(s: string, pos: nat, n: nat): (r: Option<string>)
    ensures r.Some? <==> pos <= |s|
    ensures r.Some? && pos + n <= |s| ==> r.value == s[pos..pos + n]
    ensures r.Some? && pos + n > |s| ==> r.value == s[pos..]
  {
    if pos > |s| then None
    else if pos + n <= |s| then Some(s[pos..pos + n])
    else Some(s[pos..])
  }

  // ---------------------------------------------------------------------------
  // The editing state and its operations

  /** The text, the cursor, the selection `[selStart, selEnd)` and the selection anchor. */
  datatype Editor = Editor(text: string, cursor: nat, selStart: nat, selEnd: nat, anchor: nat)

  function Min(a: nat, b: nat): nat { if a < b then a else b }
  function Max(a: nat, b: nat): nat { if a > b then a else b }

  /** The selection runs from the anchor to the cursor, whichever comes first. */
  predicate Spanned(e: Editor)
  {
    e.selStart == Min(e.cursor, e.anchor) && e.selEnd == Max(e.cursor, e.anchor)
  }

  /** The cursor and the anchor lie inside the text (so the selection does too). */
  predicate Fits(e: Editor)
  {
    e.cursor <= |e.text| && e.anchor <= |e.text|
  }

  /** Nothing is selected. */
  predicate Collapsed(e: Editor)
  {
    e.selStart == e.selEnd
  }

  /**
   * `setTextCursorPosition`: the cursor goes to `pos`, selecting starts there and the
   * selection shrinks to it; the text stays.
   */
  function Collapse(e: Editor, pos: nat): (r: Editor)
    ensures r.text == e.text && r.cursor == pos && r.anchor == pos
    ensures Spanned(r) && Collapsed(r)
  {
    Editor(e.text, pos, pos, pos, pos)
  }

  /** `setTextSelection`: `[start, end)` is selected, the cursor at its end. */
  function Select(e: Editor, start: nat, end: nat): (r: Editor)
    requires start <= end
    ensures r.text == e.text && r.cursor == end && r.anchor == start
    ensures Spanned(r) && r.selStart == start && r.selEnd == end
  {
    Editor(e.text, end, start, end, start)
  }

  /**
   * Shift with Left or Right: the cursor steps one place within the text and the
   * selection stretches from the anchor to it.
   */
  function ShiftMove(e: Editor, right: bool): (r: Editor)
    ensures r.text == e.text && r.anchor == e.anchor && Spanned(r)
    ensures right && e.cursor < |e.text| ==> r.cursor == e.cursor + 1
    ensures !right && e.cursor > 0 ==> r.cursor + 1 == e.cursor
    ensures (right && e.cursor >= |e.text|) || (!right && e.cursor == 0) ==> r.cursor == e.cursor
  {
    var c := if right && e.cursor < |e.text| then e.cursor + 1
             else if !right && e.cursor > 0 then e.cursor - 1
             else e.cursor;
    Editor(e.text, c, Min(c, e.anchor), Max(c, e.anchor), e.anchor)
  }

  /**
   * The selection replaced by `ins` and the cursor put just after it: typing a character,
   * pasting, cutting, and deleting a selection. Fails as `substr` does when the selection
   * ends past the text.
   */
  function Replace(e: Editor, ins: string): (r: Option<Editor>)
    requires Spanned(e)
    ensures r.Some? <==> e.selEnd <= |e.text|
    ensures r.Some? ==> r.value.text == e.text[..e.selStart] + ins + e.text[e.selEnd..]
    ensures r.Some? ==> r.value.cursor == e.selStart + |ins| && Spanned(r.value) && Collapsed(r.value)
    ensures r.Some? ==> Fits(r.value)
  {
    var tail :- Suffix(e.text, e.selEnd);
    var text := Prefix(e.text, e.selStart) + ins + tail;
    Some(Collapse(e.(text := text), e.selStart + |ins|))
  }

  /** Left without Shift or Control: to the selection's start, or one place back. */
  function ArrowLeft(e: Editor): (r: Editor)
    requires Spanned(e)
    ensures r.text == e.text
    ensures !Collapsed(e) ==> r == Collapse(e, e.selStart)
    ensures Collapsed(e) && e.cursor > 0 ==> r == Collapse(e, e.cursor - 1)
    ensures Collapsed(e) && e.cursor == 0 ==> r == e
  {
    if e.selStart < e.selEnd then Collapse(e, e.selStart)
    else if e.cursor > 0 then Collapse(e, e.cursor - 1)
    else e
  }

  /** Right without Shift or Control: to the selection's end, or one place on within the text. */
  function ArrowRight(e: Editor): (r: Editor)
    requires Spanned(e)
    ensures r.text == e.text
    ensures !Collapsed(e) ==> r == Collapse(e, e.selEnd)
    ensures Collapsed(e) && e.cursor < |e.text| ==> r == Collapse(e, e.cursor + 1)
    ensures Collapsed(e) && e.cursor >= |e.text| ==> r == e
  {
    if e.selStart < e.selEnd then Collapse(e, e.selEnd)
    else if e.cursor < |e.text| then Collapse(e, e.cursor + 1)
    else e
  }

  /**
   * Backspace: with nothing selected the character before the cursor goes and the cursor
   * steps back; with a selection, the selection goes. `None` is `substr` failing.
   */
  function BackspaceEdit(e: Editor): (r: Option<Editor>)
    requires Spanned(e)
    ensures Collapsed(e) && e.cursor == 0 ==> r == Some(e)
    ensures Collapsed(e) && 0 < e.cursor <= |e.text| ==>
      r.Some? && r.value.text == e.text[..e.cursor - 1] + e.text[e.cursor..] &&
      r.value == Collapse(r.value, e.cursor - 1)
    ensures Collapsed(e) && e.cursor > |e.text| ==> r.None?
    ensures !Collapsed(e) ==> r == Replace(e, [])
  {
    if e.cursor > 0 && e.selStart == e.selEnd then
      var tail :- Suffix(e.text, e.cursor);
      Some(Collapse(e.(text := Prefix(e.text, e.cursor - 1) + tail), e.cursor - 1))
    else if e.selStart < e.selEnd then Replace(e, [])
    else Some(e)
  }

  /**
   * Delete: with nothing selected the character at the cursor goes and the cursor stays;
   * with a selection, the selection goes.
   */
  function DeleteEdit(e: Editor): (r: Option<Editor>)
    requires Spanned(e)
    ensures Collapsed(e) && e.cursor < |e.text| ==>
      r == Some(e.(text := e.text[..e.cursor] + e.text[e.cursor + 1..]))
    ensures Collapsed(e) && e.cursor >= |e.text| ==> r == Some(e)
    ensures !Collapsed(e) ==> r == Replace(e, [])
  {
    if e.cursor < |e.text| && e.selStart == e.selEnd then
      var tail := Suffix(e.text, e.cursor + 1).value;
      Some(e.(text := Prefix(e.text, e.cursor) + tail))
    else if e.selStart < e.selEnd then Replace(e, [])
    else Some(e)
  }

  /** What Control+C and Control+X put on the clipboard: the selected text. */
  function Selected(e: Editor): (r: Option<string>)
    requires Spanned(e)
    ensures r.Some? <==> e.selStart <= |e.text|
    ensures e.selEnd <= |e.text| ==> r == Some(e.text[e.selStart..e.selEnd])
  {
    Substring(e.text, e.selStart, e.selEnd - e.selStart)
  }

  // ---------------------------------------------------------------------------
  // Properties of the operations

  /** Typing a character with nothing selected and then Backspace gives back the state before. */
  lemma TypeThenBackspace(e: Editor, c: char)
    requires Spanned(e) && Fits(e) && Collapsed(e)
    ensures Replace(e, [c]).Some? && BackspaceEdit(Replace(e, [c]).value) == Some(e)
  {
    var t := Replace(e, [c]).value;
    assert t.text[..e.cursor] == e.text[..e.cursor];
    assert t.text[e.cursor + 1..] == e.text[e.cursor..];
    assert e.text[..e.cursor] + e.text[e.cursor..] == e.text;
  }

  /** Cutting a selection and pasting what was cut gives back the text, the cursor at the selection's end. */
  lemma CutThenPaste(e: Editor)
    requires Spanned(e) && Fits(e) && !Collapsed(e)
    ensures Selected(e).Some? && Replace(e, []).Some?
    ensures var cut := Replace(e, []).value;
      var pasted := Replace(cut, Selected(e).value);
      pasted.Some? && pasted.value.text == e.text && pasted.value == Collapse(e, e.selEnd)
  {
    var cut := Replace(e, []).value;
    var clip := e.text[e.selStart..e.selEnd];
    assert cut.text[..e.selStart] == e.text[..e.selStart];
    assert cut.text[e.selStart..] == e.text[e.selEnd..];
    assert e.text[..e.selStart] + clip + e.text[e.selEnd..] == e.text;
  }

  /** Delete removes the character that Right then Backspace would remove, leaving the cursor where it was. */
  lemma DeleteIsRightThenBackspace(e: Editor)
    requires Spanned(e) && Fits(e) && Collapsed(e) && e.cursor < |e.text|
    ensures BackspaceEdit(ArrowRight(e)) == DeleteEdit(e)
  {
  }

  /** Every edit of a state inside its text succeeds and leaves a state inside its text. */
  lemma EditsFit(e: Editor, ins: string)
    requires Spanned(e) && Fits(e)
    ensures Replace(e, ins).Some? && Fits(Replace(e, ins).value)
    ensures BackspaceEdit(e).Some? && Fits(BackspaceEdit(e).value)
    ensures DeleteEdit(e).Some? && Fits(DeleteEdit(e).value)
    ensures Selected(e).Some?
    ensures Fits(ArrowLeft(e)) && Fits(ArrowRight(e))
    ensures Fits(ShiftMove(e, true)) && Fits(ShiftMove(e, false))
  {
  }

  /** Left undoes Right, and Right undoes Left, at a cursor with room on that side. */
  lemma ArrowsInverse(e: Editor)
    requires Spanned(e) && Collapsed(e)
    ensures e.cursor < |e.text| ==> ArrowLeft(ArrowRight(e)) == e
    ensures 0 < e.cursor <= |e.text| ==> ArrowRight(ArrowLeft(e)) == e
  {
  }

  /** Shift-selection stretches from the anchor: going right and back left gives back the state. */
  lemma ShiftMoveInverse(e: Editor)
    requires Spanned(e)
    ensures e.cursor < |e.text| ==> ShiftMove(ShiftMove(e, true), false) == e
    ensures 0 < e.cursor <= |e.text| ==> ShiftMove(ShiftMove(e, false), true) == e
  {
  }

  // ---------------------------------------------------------------------------
  // The constructor as written

  /**
   * The state `TextInput()` leaves: empty text, cursor and selection at 0, and
   * `m_selectStart`, which the constructor does not initialise, holding whatever
   * `anchor` was in memory.
   */
  function ConstructedAsWritten(anchor: nat): (r: Editor)
    ensures r.text == [] && r.cursor == 0 && Collapsed(r)
    ensures Spanned(r) <==> anchor == 0
  {
    Editor([], 0, 0, 0, anchor)
  }

  /**
   * With a leftover anchor, Shift+Right on the empty text selects past its end, and the
   * next typed character makes `substr` throw.
   */
  lemma UninitializedAnchorBreaksTyping()
    ensures var e := ShiftMove(ConstructedAsWritten(3), true);
      e.selStart == 0 && e.selEnd == 3 && |e.text| == 0 && Replace(e, ['a']).None?
    ensures Replace(ShiftMove(ConstructedAsWritten(0), true), ['a']).Some?
  {
  }

  // ---------------------------------------------------------------------------
  // The widget

  /** `E_KeyEvent::m_action`. */
  datatype Action = Press | Repeat | Release

  /** The keys the handlers look at; every other key is `OtherKey`. */
  datatype Key = Left | Right | Backspace | Delete | C | V | X | Enter | OtherKey(code: nat)

  /**
   * A `TextInput`: the editing state, the submit key, and the values handed to the
   * value-changed and submit callbacks, in order.
   */
  class TextInput {
    var text: string
    var cursor: nat
    var selStart: nat
    var selEnd: nat
    var anchor: nat
    var submitKey: Key
    var changes: seq<string>
    var submissions: seq<string>

    function State(): Editor
      reads this
    {
      Editor(text, cursor, selStart, selEnd, anchor)
    }

    ghost predicate Valid()
      reads this
    {
      Spanned(State())
    }

    /** `TextInput()`, with the selection anchor starting at 0. */
    constructor()
      ensures Valid() && State() == Editor([], 0, 0, 0, 0)
      ensures submitKey == Enter && changes == [] && submissions == []
    {
      text, cursor, selStart, selEnd, anchor := [], 0, 0, 0, 0;
      submitKey := Enter;
      changes, submissions := [], [];
    }

    /** `setValue`: a different value replaces the text and is reported; the same value does nothing. */
    method SetValue(value: string)
      requires Valid()
      modifies this
      ensures Valid() && submitKey == old(submitKey) && submissions == old(submissions)
      ensures value != old(text) ==> State() == old(State()).(text := value) && changes == old(changes) + [value]
      ensures value == old(text) ==> State() == old(State()) && changes == old(changes)
    {
      if value != text {
        text := value;
        changes := changes + [value];
      }
    }

    /** `setTextCursorPosition`. */
    method SetTextCursorPosition(pos: nat)
      modifies this
      ensures State() == Collapse(old(State()), pos) && Valid()
      ensures submitKey == old(submitKey) && changes == old(changes) && submissions == old(submissions)
    {
      if cursor != pos {
        cursor := pos;
      }
      anchor := pos;
      selStart, selEnd := cursor, cursor;
    }

    /** `setTextSelection`: `start` is inclusive and `end` exclusive, so `start <= end`. */
    method SetTextSelection(start: nat, end: nat)
      requires start <= end
      modifies this
      ensures State() == Select(old(State()), start, end) && Valid()
      ensures submitKey == old(submitKey) && changes == old(changes) && submissions == old(submissions)
    {
      selStart, selEnd := start, end;
      cursor := end;
      anchor := start;
    }

    /** The text replaced, as `m_text->setString`, and the new value reported. */
    method SetString(value: string)
      modifies this
      ensures text == value && changes == old(changes) + [value]
      ensures cursor == old(cursor) && selStart == old(selStart) && selEnd == old(selEnd) && anchor == old(anchor)
      ensures submitKey == old(submitKey) && submissions == old(submissions)
    {
      text := value;
      changes := changes + [value];
    }

    /**
     * The selection replaced by `ins` with the cursor after it, shared by typing, paste,
     * cut and deleting a selection; `ok` is false when `substr` throws, and then nothing
     * changes.
     */
    method ReplaceSelection(ins: string) returns (ok: bool)
      requires Valid()
      modifies this
      ensures ok <==> Replace(old(State()), ins).Some?
      ensures ok ==> State() == Replace(old(State()), ins).value && changes == old(changes) + [text]
      ensures !ok ==> State() == old(State()) && changes == old(changes)
      ensures Valid() && submitKey == old(submitKey) && submissions == old(submissions)
    {
      var tail := Suffix(text, selEnd);
      if tail.None? {
        return false;
      }
      var x := selStart;
      SetString(Prefix(text, x) + ins + tail.value);
      SetTextCursorPosition(x + |ins|);
      ok := true;
    }

    /** `onTextInput`: the typed character replaces the selection. */
    method OnTextInput(c: char) returns (ok: bool)
      requires Valid()
      modifies this
      ensures ok <==> Replace(old(State()), [c]).Some?
      ensures ok ==> State() == Replace(old(State()), [c]).value && changes == old(changes) + [text]
      ensures !ok ==> State() == old(State()) && changes == old(changes)
      ensures Valid() && submitKey == old(submitKey) && submissions == old(submissions)
    {
      ok := ReplaceSelection([c]);
    }

    /**
     * Backspace without modifiers (`onKeyEvent`): the character before the cursor, or the
     * selection, goes.
     */
    method PressBackspace() returns (ok: bool)
      requires Valid()
      modifies this
      ensures ok <==> BackspaceEdit(old(State())).Some?
      ensures ok ==> State() == BackspaceEdit(old(State())).value
      ensures !ok ==> State() == old(State())
      ensures ok && BackspaceEdit(old(State())).value != old(State()) ==> changes == old(changes) + [text]
      ensures (ok && BackspaceEdit(old(State())).value == old(State())) || !ok ==> changes == old(changes)
      ensures Valid() && submitKey == old(submitKey) && submissions == old(submissions)
    {
      if cursor > 0 && selEnd - selStart == 0 {
        var tail := Suffix(text, cursor);
        if tail.None? {
          return false;
        }
        var c := cursor;
        SetString(Prefix(text, c - 1) + tail.value);
        assert text != old(text) by {
          assert |text| + 1 == |old(text)|;
        }
        SetTextCursorPosition(c - 1);
        ok := true;
      } else if selEnd - selStart > 0 {
        ok := ReplaceSelection([]);
        assert ok ==> |text| < |old(text)|;
      } else {
        ok := true;
      }
    }

    /** Delete without modifiers: the character at the cursor, or the selection, goes. */
    method PressDelete() returns (ok: bool)
      requires Valid()
      modifies this
      ensures ok <==> DeleteEdit(old(State())).Some?
      ensures ok ==> State() == DeleteEdit(old(State())).value
      ensures !ok ==> State() == old(State())
      ensures ok && DeleteEdit(old(State())).value != old(State()) ==> changes == old(changes) + [text]
      ensures (ok && DeleteEdit(old(State())).value == old(State())) || !ok ==> changes == old(changes)
      ensures Valid() && submitKey == old(submitKey) && submissions == old(submissions)
    {
      if cursor < |text| && selEnd - selStart == 0 {
        var tail := Suffix(text, cursor + 1);
        SetString(Prefix(text, cursor) + tail.value);
        assert |text| + 1 == |old(text)|;
        ok := true;
      } else if selEnd - selStart > 0 {
        ok := ReplaceSelection([]);
        assert ok ==> |text| < |old(text)|;
      } else {
        ok := true;
      }
    }

    /** Shift held (`onKeyEvent`): Left and Right move the cursor and stretch the selection from the anchor. */
    method ShiftKey(key: Key)
      requires Valid()
      modifies this
      ensures State() == (if key == Left || key == Right then ShiftMove(old(State()), key == Right) else old(State()))
      ensures Valid() && submitKey == old(submitKey) && changes == old(changes) && submissions == old(submissions)
    {
      if key == Left || key == Right {
        if key == Left && cursor > 0 {
          cursor := cursor - 1;
        } else if key == Right && cursor < |text| {
          cursor := cursor + 1;
        }
        selStart, selEnd := Min(cursor, anchor), Max(cursor, anchor);
      }
    }

    /**
     * Control held (`onKeyEvent`), on a press: C copies the selection, V pastes
     * `clipboard` over it and X cuts it. `copied` is what goes to the clipboard.
     */
    method ControlKey(key: Key, clipboard: string) returns (ok: bool, copied: Option<string>)
      requires Valid()
      modifies this
      ensures Valid() && submitKey == old(submitKey) && submissions == old(submissions)
      ensures key == C ==>
        State() == old(State()) && changes == old(changes) &&
        (ok <==> Collapsed(old(State())) || Selected(old(State())).Some?) &&
        copied == (if Collapsed(old(State())) then None else Selected(old(State())))
      ensures key == V ==>
        (ok <==> Replace(old(State()), clipboard).Some?) && copied.None? &&
        (ok ==> State() == Replace(old(State()), clipboard).value && changes == old(changes) + [text]) &&
        (!ok ==> State() == old(State()) && changes == old(changes))
      ensures key == X && !Collapsed(old(State())) ==>
        (ok <==> Replace(old(State()), []).Some?) && copied == Selected(old(State())) &&
        (ok ==> State() == Replace(old(State()), []).value && changes == old(changes) + [text]) &&
        (!ok ==> State() == old(State()) && changes == old(changes))
      ensures (key == X && Collapsed(old(State()))) || (key != C && key != V && key != X) ==>
        State() == old(State()) && changes == old(changes) && ok && copied.None?
    {
      ok, copied := true, None;
      if key == C {
        if selEnd - selStart > 0 {
          copied := Substring(text, selStart, selEnd - selStart);
          ok := copied.Some?;
        }
      } else if key == V {
        ok := ReplaceSelection(clipboard);
      } else if key == X {
        if selEnd - selStart > 0 {
          copied := Substring(text, selStart, selEnd - selStart);
          if copied.None? {
            return false, copied;
          }
          ok := ReplaceSelection([]);
        }
      }
    }

    /** No modifier (`onKeyEvent`): Left and Right move the cursor; Backspace and Delete erase. */
    method PlainKey(key: Key) returns (ok: bool)
      requires Valid()
      modifies this
      ensures Valid() && submitKey == old(submitKey) && submissions == old(submissions)
      ensures key == Left ==> State() == ArrowLeft(old(State())) && changes == old(changes) && ok
      ensures key == Right ==> State() == ArrowRight(old(State())) && changes == old(changes) && ok
      ensures key == Backspace ==>
        (ok <==> BackspaceEdit(old(State())).Some?) &&
        (ok ==> State() == BackspaceEdit(old(State())).value) && (!ok ==> State() == old(State())) &&
        changes == if ok && BackspaceEdit(old(State())).value != old(State()) then old(changes) + [text] else old(changes)
      ensures key == Delete ==>
        (ok <==> DeleteEdit(old(State())).Some?) &&
        (ok ==> State() == DeleteEdit(old(State())).value) && (!ok ==> State() == old(State())) &&
        changes == if ok && DeleteEdit(old(State())).value != old(State()) then old(changes) + [text] else old(changes)
      ensures key != Left && key != Right && key != Backspace && key != Delete ==>
        State() == old(State()) && changes == old(changes) && ok
    {
      ok := true;
      if key == Left {
        if selEnd - selStart > 0 {
          SetTextCursorPosition(selStart);
        } else if cursor > 0 {
          SetTextCursorPosition(cursor - 1);
        }
      } else if key == Right {
        if selEnd - selStart > 0 {
          SetTextCursorPosition(selEnd);
        } else if cursor < |text| {
          SetTextCursorPosition(cursor + 1);
        }
      } else if key == Backspace {
        ok := PressBackspace();
      } else if key == Delete {
        ok := PressDelete();
      }
    }

    /**
     * `onKeyEvent`. Release is ignored; a press of the submit key reports the text first.
     * Then Shift, else Control (presses only), else no modifier decides what the key does.
     * `copied` is what goes to the clipboard; `ok` is false when `substr` throws.
     */
    method OnKeyEvent(action: Action, key: Key, shift: bool, control: bool, clipboard: string)
      returns (ok: bool, copied: Option<string>)
      requires Valid()
      modifies this
      ensures Valid() && submitKey == old(submitKey)
      ensures action == Press && key == old(submitKey) ==> submissions == old(submissions) + [old(text)]
      ensures !(action == Press && key == old(submitKey)) ==> submissions == old(submissions)
      ensures action == Release || (action == Repeat && !shift && control) ==>
        State() == old(State()) && changes == old(changes) && ok && copied.None?
      ensures action != Release && shift ==>
        State() == (if key == Left || key == Right then ShiftMove(old(State()), key == Right) else old(State())) &&
        changes == old(changes) && ok && copied.None?
      ensures action == Press && !shift && control && key == C ==>
        State() == old(State()) && changes == old(changes) &&
        (ok <==> Collapsed(old(State())) || Selected(old(State())).Some?) &&
        copied == (if Collapsed(old(State())) then None else Selected(old(State())))
      ensures action == Press && !shift && control && key == V ==>
        (ok <==> Replace(old(State()), clipboard).Some?) && copied.None? &&
        (ok ==> State() == Replace(old(State()), clipboard).value && changes == old(changes) + [text])
      ensures action == Press && !shift && control && key == X && !Collapsed(old(State())) ==>
        (ok <==> Replace(old(State()), []).Some?) && copied == Selected(old(State())) &&
        (ok ==> State() == Replace(old(State()), []).value && changes == old(changes) + [text])
      ensures action != Release && !shift && !control && key == Left ==>
        State() == ArrowLeft(old(State())) && changes == old(changes) && ok && copied.None?
      ensures action != Release && !shift && !control && key == Right ==>
        State() == ArrowRight(old(State())) && changes == old(changes) && ok && copied.None?
      ensures action != Release && !shift && !control && key == Backspace ==>
        (ok <==> BackspaceEdit(old(State())).Some?) && (ok ==> State() == BackspaceEdit(old(State())).value)
      ensures action != Release && !shift && !control && key == Delete ==>
        (ok <==> DeleteEdit(old(State())).Some?) && (ok ==> State() == DeleteEdit(old(State())).value)
      ensures !ok ==> State() == old(State()) && changes == old(changes)
    {
      ok, copied := true, None;
      if action == Release {
        return;
      }
      if action == Press && key == submitKey {
        submissions := submissions + [text];
      }
      if shift {
        ShiftKey(key);
      } else if control {
        if action == Press {
          ok, copied := ControlKey(key, clipboard);
        }
      } else {
        ok := PlainKey(key);
        copied := None;
      }
    }
  }
}

=== FILE: time.dfy ===
/**
 * The time value of src/Core/Time.cpp: a signed 64-bit count of microseconds with
 * integer unit conversions, arithmetic and comparisons. Signed overflow is undefined
 * in C++, so every operation asks that its result fit the type it is stored in.
 */
module Times {

  predicate IsInt64(x: int) { -0x8000_0000_0000_0000 <= x <= 0x7fff_ffff_ffff_ffff }
  predicate IsInt32(x: int) { -0x8000_0000 <= x <= 0x7fff_ffff }

  type Int64 = x: int | IsInt64(x)
  type Int32 = x: int | IsInt32(x)

  /** `Time`: `m_microseconds`. */
  datatype Time = Time(micros: Int64)

  /** C++ integer division: the quotient of the magnitudes, truncated, with the sign of the product. */
  function Quot(a: int, b: int): (q: int)
    requires b != 0
    ensures Abs(q) == NatDiv(Abs(a), Abs(b))
    ensures q != 0 ==> (q < 0 <==> (a < 0) != (b < 0))
  {
    var m: int := NatDiv(Abs(a), Abs(b));
    if (a < 0) == (b < 0) then m else -m
  }

  function NatDiv(x: nat, y: nat): nat
    requires 0 < y
  {
    x / y
  }

  function Abs(x: int): nat
  {
    if x < 0 then -x else x
  }

  /** `Time()`: zero. */
  const Zero: Time := Time(0)

  /** `fromMilliseconds`: a thousand microseconds per millisecond; a 32-bit count always fits. */
  function FromMilliseconds(ms: Int32): (t: Time)
    ensures t.micros == ms * 1000
  {
    MillisecondsFit(ms);
    Time(ms * 1000)
  }

  lemma MillisecondsFit(ms: int)
    requires IsInt32(ms)
    ensures IsInt64(ms * 1000)
  {
  }

  /** `fromMicroseconds`. */
  function FromMicroseconds(us: Int64): (t: Time)
    ensures t.micros == us
  {
    Time(us)
  }

  /** `toMicroseconds`. */
  function ToMicroseconds(t: Time): (us: Int64)
    ensures FromMicroseconds(us) == t
  {
    t.micros
  }

  /**
   * `toMilliseconds`: the microseconds over a thousand, truncated toward zero, which must
   * fit a 32-bit count.
   */
  function ToMilliseconds(t: Time): (ms: Int32)
    requires IsInt32(Quot(t.micros, 1000))
    ensures Abs(ms) == NatDiv(Abs(t.micros), 1000)
    ensures ms != 0 ==> (ms < 0 <==> t.micros < 0)
  {
    Quot(t.micros, 1000)
  }

  /** Milliseconds survive the trip through microseconds. */
  lemma MillisecondsRoundTrip(ms: Int32)
    ensures ToMilliseconds(FromMilliseconds(ms)) == ms
  {
    assert Abs(ms * 1000) == Abs(ms) * 1000;
  }

  /** Microseconds survive the trip through a time, both ways. */
  lemma MicrosecondsRoundTrip(us: Int64, t: Time)
    ensures ToMicroseconds(FromMicroseconds(us)) == us
    ensures FromMicroseconds(ToMicroseconds(t)) == t
  {
  }

  /** The example of include/poly/Core/Time.h: 1051 microseconds truncate to 1 millisecond. */
  lemma TruncatesExample()
    ensures ToMilliseconds(FromMicroseconds(1051)) == 1
    ensures ToMilliseconds(FromMicroseconds(-1051)) == -1
  {
  }

  /** `operator+` and `+=`. */
  function Add(a: Time, b: Time): (r: Time)
    requires IsInt64(a.micros + b.micros)
    ensures r.micros == a.micros + b.micros
  {
    Time(a.micros + b.micros)
  }

  /** `operator-` and `-=`. */
  function Sub(a: Time, b: Time): (r: Time)
    requires IsInt64(a.micros - b.micros)
    ensures r.micros == a.micros - b.micros
  {
    Time(a.micros - b.micros)
  }

  /** Subtracting what was added gives back the start, and addition commutes. */
  lemma AddSubInverse(a: Time, b: Time)
    requires IsInt64(a.micros + b.micros)
    ensures Sub(Add(a, b), b) == a
    ensures Add(a, b) == Add(b, a)
    ensures Add(a, Zero) == a && Sub(a, Zero) == a
  {
  }

  /** `operator*(Time, Int64)`, `operator*(Int64, Time)` and `*=`. */
  function Scale(a: Time, k: Int64): (r: Time)
    requires IsInt64(a.micros * k)
    ensures r.micros == a.micros * k
  {
    Time(a.micros * k)
  }

  /** Scaling distributes over addition. */
  lemma ScaleDistributes(a: Time, b: Time, k: Int64)
    requires IsInt64(a.micros + b.micros)
    requires IsInt64(a.micros * k) && IsInt64(b.micros * k) && IsInt64((a.micros + b.micros) * k)
    requires IsInt64(a.micros * k + b.micros * k)
    ensures Scale(Add(a, b), k) == Add(Scale(a, k), Scale(b, k))
  {
    assert (a.micros + b.micros) * k == a.micros * k + b.micros * k;
  }

  /** `operator/(Time, Int64)` and `/=`: truncating division of the microseconds. */
  function Divide(a: Time, k: Int64): (r: Time)
    requires k != 0 && IsInt64(Quot(a.micros, k))
    ensures Abs(r.micros) == NatDiv(Abs(a.micros), Abs(k))
    ensures r.micros != 0 ==> (r.micros < 0 <==> (a.micros < 0) != (k < 0))
  {
    Time(Quot(a.micros, k))
  }

  /** `operator/(Int64, Time)`: a count over a time, truncated toward zero. */
  function DivideBy(k: Int64, b: Time): (r: Time)
    requires b.micros != 0 && IsInt64(Quot(k, b.micros))
    ensures Abs(r.micros) == NatDiv(Abs(k), Abs(b.micros))
    ensures r.micros != 0 ==> (r.micros < 0 <==> (k < 0) != (b.micros < 0))
  {
    Time(Quot(k, b.micros))
  }

  /** `operator<`; `>`, `<=`, `>=`, `==` and `!=` compare the microseconds the same way. */
  predicate Less(a: Time, b: Time)
  {
    a.micros < b.micros
  }

  /** The comparisons form a strict total order that agrees with time equality. */
  lemma LessIsTotalOrder(a: Time, b: Time, c: Time)
    ensures !Less(a, a)
    ensures Less(a, b) && Less(b, c) ==> Less(a, c)
    ensures a == b || Less(a, b) || Less(b, a)
    ensures a == b <==> a.micros == b.micros
  {
  }

  /** Adding a positive time makes a later time. */
  lemma AddPositiveIsLater(a: Time, b: Time)
    requires IsInt64(a.micros + b.micros) && Less(Zero, b)
    ensures Less(a, Add(a, b))
  {
  }
}

=== FILE: ui_element.dfy ===
/**
 * The element tree of src/UI/UIElement.cpp: each element's list of children, its parent
 * and its `m_index` (its position in the parent's list), and the flags the recursive
 * visibility and transform updates set. Elements are named by ids; one `UITree` holds
 * the fields of every element.
 */
module UIElements {
  import opened Wrappers
  import UIParsers

  type Id = nat

  // ---------------------------------------------------------------------------
  // Lists of children

  /** The list without the entry at `a`, later entries moving down one place. */
  function Remove(s: seq<Id>, a: nat): (r: seq<Id>)
    requires a < |s|
    ensures |r| == |s| - 1
    ensures forall k :: 0 <= k < a ==> r[k] == s[k]
    ensures forall k :: a <= k < |r| ==> r[k] == s[k + 1]
  {
    s[..a] + s[a + 1..]
  }

  /** The list with `x` put in at `b`, later entries moving up one place. */
  function Insert(s: seq<Id>, b: nat, x: Id): (r: seq<Id>)
    requires b <= |s|
    ensures |r| == |s| + 1 && r[b] == x
    ensures forall k :: 0 <= k < b ==> r[k] == s[k]
    ensures forall k :: b < k < |r| ==> r[k] == s[k - 1]
  {
    s[..b] + [x] + s[b..]
  }

  /** The entry at `a` taken out and put back in at `b`, the others keeping their order. */
  function MoveTo(s: seq<Id>, a: nat, b: nat): (r: seq<Id>)
    requires a < |s| && b < |s|
    ensures |r| == |s| && r[b] == s[a]
    ensures Remove(r, b) == Remove(s, a)
  {
    Insert(Remove(s, a), b, s[a])
  }

  /** Where each entry lands: the ones between the two places shift by one toward `a`. */
  lemma MoveToAt(s: seq<Id>, a: nat, b: nat, k: nat)
    requires a < |s| && b < |s| && k < |s|
    ensures MoveTo(s, a, b)[k] ==
      if k == b then s[a]
      else if a < b && a <= k < b then s[k + 1]
      else if b < a && b < k <= a then s[k - 1]
      else s[k]
  {
  }

  /** Moving back undoes a move. */
  lemma MoveToInverse(s: seq<Id>, a: nat, b: nat)
    requires a < |s| && b < |s|
    ensures MoveTo(MoveTo(s, a, b), b, a) == s
  {
    var r := MoveTo(s, a, b);
    var t := MoveTo(r, b, a);
    forall k | 0 <= k < |s|
      ensures t[k] == s[k]
    {
      MoveToAt(r, b, a, k);
      if k != a {
        var j := if b < a && b <= k < a then k + 1 else if a < b && a < k <= b then k - 1 else k;
        MoveToAt(s, a, b, j);
      } else {
        MoveToAt(s, a, b, b);
      }
    }
  }

  /** A move keeps the same entries. */
  lemma MoveToPermutes(s: seq<Id>, a: nat, b: nat)
    requires a < |s| && b < |s|
    ensures multiset(MoveTo(s, a, b)) == multiset(s)
  {
    var t := Remove(s, a);
    assert s == s[..a] + [s[a]] + s[a + 1..];
    assert t == s[..a] + s[a + 1..];
    assert multiset(s) == multiset(t) + multiset{s[a]};
    var r := MoveTo(s, a, b);
    assert r == t[..b] + [s[a]] + t[b..];
    assert t == t[..b] + t[b..];
  }

  /** Positions hold distinct entries when each entry's recorded index is its position. */
  ghost predicate Indexed(s: seq<Id>, index: map<Id, nat>)
  {
    forall k :: 0 <= k < |s| ==> s[k] in index && index[s[k]] == k
  }

  /**
   * The loop shared by `setIndex` (moving toward the back) and `removeChild`: from `a` up
   * to `b`, each place takes the entry after it, and that entry's index drops by one.
   */
  method ShiftDown(s: seq<Id>, index: map<Id, nat>, a: nat, b: nat) returns (cs: seq<Id>, idx: map<Id, nat>)
    requires a <= b < |s| && Indexed(s, index)
    ensures |cs| == |s| && idx.Keys == index.Keys
    ensures forall k {:trigger cs[k]} :: 0 <= k < |s| ==> cs[k] == if a <= k < b then s[k + 1] else s[k]
    ensures forall k :: 0 <= k < |s| ==> idx[s[k]] == if a < k <= b then k - 1 else k
    ensures forall x :: x in index && x !in s ==> idx[x] == index[x]
  {
    cs, idx := s, index;
    var i := a;
    while i < b
      invariant a <= i <= b && |cs| == |s| && idx.Keys == index.Keys
      invariant forall k {:trigger cs[k]} :: 0 <= k < |s| ==> cs[k] == if a <= k < i then s[k + 1] else s[k]
      invariant forall k :: 0 <= k < |s| ==> idx[s[k]] == if a < k <= i then k - 1 else k
      invariant forall x :: x in index && x !in s ==> idx[x] == index[x]
    {
      assert cs[i + 1] == s[i + 1] && idx[s[i + 1]] == i + 1;
      cs := cs[i := cs[i + 1]];
      idx := idx[cs[i] := idx[cs[i]] - 1];
      i := i + 1;
    }
  }

  /**
   * The loop of `setIndex` moving toward the front: from `a` down to `b`, each place takes
   * the entry before it, and that entry's index rises by one.
   */
  method ShiftUp(s: seq<Id>, index: map<Id, nat>, a: nat, b: nat) returns (cs: seq<Id>, idx: map<Id, nat>)
    requires b <= a < |s| && Indexed(s, index)
    ensures |cs| == |s| && idx.Keys == index.Keys
    ensures forall k {:trigger cs[k]} :: 0 <= k < |s| ==> cs[k] == if b < k <= a then s[k - 1] else s[k]
    ensures forall k :: 0 <= k < |s| ==> idx[s[k]] == if b <= k < a then k + 1 else k
    ensures forall x :: x in index && x !in s ==> idx[x] == index[x]
  {
    cs, idx := s, index;
    var i := a;
    while i > b
      invariant b <= i <= a && |cs| == |s| && idx.Keys == index.Keys
      invariant forall k {:trigger cs[k]} :: 0 <= k < |s| ==> cs[k] == if i < k <= a then s[k - 1] else s[k]
      invariant forall k :: 0 <= k < |s| ==> idx[s[k]] == if i <= k < a then k + 1 else k
      invariant forall x :: x in index && x !in s ==> idx[x] == index[x]
    {
      assert cs[i - 1] == s[i - 1] && idx[s[i - 1]] == i - 1;
      cs := cs[i := cs[i - 1]];
      idx := idx[cs[i] := idx[cs[i]] + 1];
      i := i - 1;
    }
  }

  /**
   * `setIndex` on the parent's list: the element at `a` goes to `b` and every entry's
   * index ends up equal to its new position.
   */
  method MoveChild(s: seq<Id>, index: map<Id, nat>, a: nat, b: nat) returns (cs: seq<Id>, idx: map<Id, nat>)
    requires a < |s| && b < |s| && Indexed(s, index)
    ensures cs == MoveTo(s, a, b) && Indexed(cs, idx)
    ensures idx.Keys == index.Keys
    ensures forall x :: x in index && x !in s ==> idx[x] == index[x]
  {
    var shifted, reindexed;
    if b > a {
      shifted, reindexed := ShiftDown(s, index, a, b);
    } else {
      shifted, reindexed := ShiftUp(s, index, a, b);
    }
    cs := shifted[b := s[a]];
    idx := reindexed[s[a] := b];
    MovedInPlace(s, index, a, b, shifted, reindexed);
  }

  /** Putting the element in at `b` after either shift completes the move. */
  lemma MovedInPlace(s: seq<Id>, index: map<Id, nat>, a: nat, b: nat, shifted: seq<Id>, reindexed: map<Id, nat>)
    requires a < |s| && b < |s| && Indexed(s, index)
    requires |shifted| == |s| && reindexed.Keys == index.Keys
    requires forall k {:trigger shifted[k]} :: 0 <= k < |s| ==>
      shifted[k] == (if a < b && a <= k < b then s[k + 1] else if b < a && b < k <= a then s[k - 1] else s[k])
    requires forall k :: 0 <= k < |s| ==>
      reindexed[s[k]] == (if a < b && a < k <= b then k - 1 else if b < a && b <= k < a then k + 1 else k)
    ensures shifted[b := s[a]] == MoveTo(s, a, b)
    ensures Indexed(shifted[b := s[a]], reindexed[s[a] := b])
  {
    var cs := shifted[b := s[a]];
    var idx := reindexed[s[a] := b];
    forall k | 0 <= k < |s|
      ensures cs[k] == MoveTo(s, a, b)[k]
      ensures cs[k] in idx && idx[cs[k]] == k
    {
      MoveToAt(s, a, b, k);
      if k != b {
        var j := if a < b && a <= k < b then k + 1 else if b < a && b < k <= a then k - 1 else k;
        assert cs[k] == s[j] && j != a;
      }
    }
  }

  /** `removeChild` on the parent's list: the entries after `a` move down, their indices with them. */
  method RemoveAt(s: seq<Id>, index: map<Id, nat>, a: nat) returns (cs: seq<Id>, idx: map<Id, nat>)
    requires a < |s| && Indexed(s, index)
    ensures cs == Remove(s, a) && Indexed(cs, idx)
    ensures idx.Keys == index.Keys
    ensures forall x :: x in index && x !in s ==> idx[x] == index[x]
  {
    var shifted;
    shifted, idx := ShiftDown(s, index, a, |s| - 1);
    cs := shifted[..|s| - 1];
    forall k | 0 <= k < |cs|
      ensures cs[k] == Remove(s, a)[k] && cs[k] in idx && idx[cs[k]] == k
    {
      assert cs[k] == shifted[k];
    }
  }

  // ---------------------------------------------------------------------------
  // Subtrees

  /** Every child is an element, ranked below its parent, so the child links have no cycle. */
  ghost predicate Ranked(children: map<Id, seq<Id>>, rank: map<Id, nat>)
  {
    rank.Keys == children.Keys &&
    forall p, i :: p in children && 0 <= i < |children[p]| ==>
      children[p][i] in children && rank[children[p][i]] < rank[p]
  }

  /** An element and everything below it. */
  ghost function Subtree(children: map<Id, seq<Id>>, rank: map<Id, nat>, e: Id): set<Id>
    requires Ranked(children, rank) && e in children
    decreases rank[e], |children[e]| + 1
  {
    {e} + Below(children, rank, e, |children[e]|)
  }

  /** The subtrees of the first `i` children of `e`. */
  ghost function Below(children: map<Id, seq<Id>>, rank: map<Id, nat>, e: Id, i: nat): set<Id>
    requires Ranked(children, rank) && e in children && i <= |children[e]|
    decreases rank[e], i
  {
    if i == 0 then {}
    else Below(children, rank, e, i - 1) + Subtree(children, rank, children[e][i - 1])
  }

  /** The subtree of the `j`-th child lies below its parent. */
  lemma {:induction false} BelowHas(children: map<Id, seq<Id>>, rank: map<Id, nat>, e: Id, i: nat, j: nat)
    requires Ranked(children, rank) && e in children && j < i <= |children[e]|
    ensures Subtree(children, rank, children[e][j]) <= Below(children, rank, e, i)
    decreases i
  {
    if j < i - 1 {
      BelowHas(children, rank, e, i - 1, j);
    }
  }

  /** Whatever lies below `e` lies in the subtree of one of its children. */
  lemma {:induction false} BelowWitness(children: map<Id, seq<Id>>, rank: map<Id, nat>, e: Id, i: nat, x: Id)
    returns (j: nat)
    requires Ranked(children, rank) && e in children && i <= |children[e]|
    requires x in Below(children, rank, e, i)
    ensures j < i && x in Subtree(children, rank, children[e][j])
    decreases i
  {
    if x in Subtree(children, rank, children[e][i - 1]) {
      j := i - 1;
    } else {
      j := BelowWitness(children, rank, e, i - 1, x);
    }
  }

  /** A subtree holds every child of each of its members: it reaches every descendant. */
  lemma {:induction false} SubtreeClosed(children: map<Id, seq<Id>>, rank: map<Id, nat>, e: Id, x: Id, k: nat)
    requires Ranked(children, rank) && e in children
    requires x in Subtree(children, rank, e) && x in children && k < |children[x]|
    ensures children[x][k] in Subtree(children, rank, e)
    decreases rank[e]
  {
    if x == e {
      BelowHas(children, rank, e, |children[e]|, k);
      assert children[x][k] in Subtree(children, rank, children[e][k]);
    } else {
      var j := BelowWitness(children, rank, e, |children[e]|, x);
      var c := children[e][j];
      SubtreeClosed(children, rank, c, x, k);
      BelowHas(children, rank, e, |children[e]|, j);
    }
  }

  /** Every member of a subtree other than its root is a child of another member. */
  lemma {:induction false} SubtreeReached(children: map<Id, seq<Id>>, rank: map<Id, nat>, e: Id, y: Id)
    returns (z: Id, k: nat)
    requires Ranked(children, rank) && e in children
    requires y in Subtree(children, rank, e) && y != e
    ensures z in children && z in Subtree(children, rank, e) && k < |children[z]| && children[z][k] == y
    decreases rank[e]
  {
    var j := BelowWitness(children, rank, e, |children[e]|, y);
    var c := children[e][j];
    BelowHas(children, rank, e, |children[e]|, j);
    if y == c {
      z, k := e, j;
    } else {
      z, k := SubtreeReached(children, rank, c, y);
    }
  }

  /** A subtree holds only elements. */
  lemma {:induction false} SubtreeElements(children: map<Id, seq<Id>>, rank: map<Id, nat>, e: Id, y: Id)
    requires Ranked(children, rank) && e in children && y in Subtree(children, rank, e)
    ensures y in children
  {
    if y != e {
      var z, k := SubtreeReached(children, rank, e, y);
    }
  }

  /** Ranks kept inside the subtree `s` and raised by `d` outside it. */
  ghost function Lift(rank: map<Id, nat>, s: set<Id>, d: nat): (r: map<Id, nat>)
    ensures r.Keys == rank.Keys
  {
    map x | x in rank :: if x in s then rank[x] else rank[x] + d
  }

  /** Each listed child names the element whose list it is in as its parent. */
  ghost predicate ParentsMatch(children: map<Id, seq<Id>>, parent: map<Id, Option<Id>>)
  {
    forall q, i :: q in children && 0 <= i < |children[q]| ==>
      children[q][i] in parent && parent[children[q][i]] == Some(q)
  }

  /**
   * Hanging the subtree of a detached `c` under `p`, which is not in that subtree, keeps
   * the links acyclic: ranks outside the subtree rise above every rank inside it.
   */
  lemma AddKeepsRanked(children: map<Id, seq<Id>>, rank: map<Id, nat>, parent: map<Id, Option<Id>>, p: Id, c: Id)
    requires Ranked(children, rank) && ParentsMatch(children, parent)
    requires p in children && c in children && forall q :: q in children ==> c !in children[q]
    requires p !in Subtree(children, rank, c)
    ensures Ranked(children[p := children[p] + [c]], Lift(rank, Subtree(children, rank, c), rank[c] + 1))
  {
    var s := Subtree(children, rank, c);
    var children' := children[p := children[p] + [c]];
    var rank' := Lift(rank, s, rank[c] + 1);
    forall q, i | q in children' && 0 <= i < |children'[q]|
      ensures children'[q][i] in children' && rank'[children'[q][i]] < rank'[q]
    {
      if q == p && i == |children[p]| {
        assert children'[q][i] == c;
      } else {
        var y := children[q][i];
        assert children'[q][i] == y;
        if q in s {
          SubtreeClosed(children, rank, c, q, i);
        } else if y in s {
          var z, k := SubtreeReached(children, rank, c, y);
          assert false;
        }
      }
    }
  }

  /**
   * Replacing `p`'s list by a list of some of its children, with indices matching the new
   * positions and every other index left alone, keeps the links acyclic and consistent.
   */
  lemma ListReplaced(children: map<Id, seq<Id>>, index: map<Id, nat>, parent: map<Id, Option<Id>>,
                     rank: map<Id, nat>, p: Id, cs: seq<Id>, ix: map<Id, nat>)
    requires Ranked(children, rank) && ParentsMatch(children, parent)
    requires forall q :: q in children ==> Indexed(children[q], index)
    requires p in children && forall k :: 0 <= k < |cs| ==> cs[k] in children[p]
    requires Indexed(cs, ix) && ix.Keys == index.Keys
    requires forall x :: x in index && x !in children[p] ==> ix[x] == index[x]
    ensures Ranked(children[p := cs], rank) && ParentsMatch(children[p := cs], parent)
    ensures forall q :: q in children ==> Indexed(children[p := cs][q], ix)
  {
    var children' := children[p := cs];
    forall q, i | q in children' && 0 <= i < |children'[q]|
      ensures children'[q][i] in children' && rank[children'[q][i]] < rank[q]
      ensures children'[q][i] in parent && parent[children'[q][i]] == Some(q)
    {
      if q == p {
        var j :| 0 <= j < |children[p]| && children[p][j] == cs[i];
      }
    }
    forall q | q in children && q != p
      ensures Indexed(children[q], ix)
    {
      forall k | 0 <= k < |children[q]|
        ensures children[q][k] in ix && ix[children[q][k]] == k
      {
        var y := children[q][k];
        forall j | 0 <= j < |children[p]|
          ensures children[p][j] != y
        {
          assert parent[children[p][j]] == Some(p);
        }
      }
    }
  }

  // ---------------------------------------------------------------------------
  // The element tree

  /** `removeChild` as written: it returns at once for every child inside the list. */
  function RemoveChildAsWritten(s: seq<Id>, c: Id, ci: nat): (r: Option<seq<Id>>)
    ensures r.Some? ==> r.value == s
  {
    if ci < |s| then Some(s)   // the guard meant to let valid children through
    else None                  // reading `m_children[ci]` past the end is undefined
  }

  /**
   * A child sitting at its index is never removed as written, while the guard the
   * comment describes removes it.
   */
  lemma RemoveChildAsWrittenKeepsChild(s: seq<Id>, c: Id, ci: nat)
    requires ci < |s| && s[ci] == c
    requires forall j :: 0 <= j < |s| && s[j] == c ==> j == ci
    ensures RemoveChildAsWritten(s, c, ci) == Some(s) && c in s
    ensures c !in Remove(s, ci) && |Remove(s, ci)| == |s| - 1
  {
    var r := Remove(s, ci);
    forall j | 0 <= j < |r|
      ensures r[j] != c
    {
      assert r[j] == s[if j < ci then j else j + 1];
    }
  }

  /** `FLT_EPSILON`, 2^-23. */
  const FltEpsilon: real := 0.00000011920928955078125

  /**
   * The elements are exactly the ids below `nextId`, each with a parent entry and an
   * index, and a parent is an element.
   */
  ghost predicate Shaped(children: map<Id, seq<Id>>, parent: map<Id, Option<Id>>, index: map<Id, nat>, nextId: Id)
  {
    (forall e: Id :: e in children <==> e < nextId) &&
    (forall e: Id :: e in parent <==> e < nextId) &&
    (forall e: Id :: e in index <==> e < nextId) &&
    (forall e {:trigger parent[e]} :: e in parent && parent[e].Some? ==> parent[e].value < nextId)
  }

  /**
   * Child links are acyclic; a listed child names the element whose list it is in as its
   * parent and has its position there as its index.
   */
  ghost predicate Linked(children: map<Id, seq<Id>>, parent: map<Id, Option<Id>>, index: map<Id, nat>, rank: map<Id, nat>)
  {
    Ranked(children, rank) && ParentsMatch(children, parent) &&
    forall q {:trigger children[q]} :: q in children ==> Indexed(children[q], index)
  }

  /** Whether `c` is in no element's list. */
  ghost predicate Unlisted(children: map<Id, seq<Id>>, c: Id)
  {
    forall q :: q in children ==> c !in children[q]
  }

  /** A fresh element with no parent and no children keeps the tree well formed. */
  lemma CreateKeeps(children: map<Id, seq<Id>>, parent: map<Id, Option<Id>>, index: map<Id, nat>, nextId: Id, rank: map<Id, nat>)
    requires Shaped(children, parent, index, nextId) && Linked(children, parent, index, rank)
    ensures Shaped(children[nextId := []], parent[nextId := None], index[nextId := 0], nextId + 1)
    ensures Linked(children[nextId := []], parent[nextId := None], index[nextId := 0], rank[nextId := 0])
    ensures Unlisted(children[nextId := []], nextId)
  {
    var e := nextId;
    var children', index' := children[e := []], index[e := 0];
    forall q | q in children'
      ensures Indexed(children'[q], index')
    {
      if q != e {
        forall k | 0 <= k < |children[q]|
          ensures children[q][k] != e
        {
        }
      }
    }
  }

  /**
   * Appending a detached `c` to `p`'s list keeps the tree well formed, with the ranks
   * outside `c`'s subtree lifted above it.
   */
  lemma AddKeeps(children: map<Id, seq<Id>>, parent: map<Id, Option<Id>>, index: map<Id, nat>, nextId: Id,
                 rank: map<Id, nat>, p: Id, c: Id) returns (rank': map<Id, nat>)
    requires Shaped(children, parent, index, nextId) && Linked(children, parent, index, rank)
    requires p in children && c in children && Unlisted(children, c) && p !in Subtree(children, rank, c)
    ensures children[p := children[p] + [c]].Keys == children.Keys
    ensures Shaped(children[p := children[p] + [c]], parent[c := Some(p)], index[c := |children[p]|], nextId)
    ensures Linked(children[p := children[p] + [c]], parent[c := Some(p)], index[c := |children[p]|], rank')
  {
    AddKeepsRanked(children, rank, parent, p, c);
    rank' := Lift(rank, Subtree(children, rank, c), rank[c] + 1);
    AddKeepsIndexed(children, index, p, c);
  }

  /** Appending `c`, which is in no list, at the end of `p`'s list with its position as index. */
  lemma AddKeepsIndexed(children: map<Id, seq<Id>>, index: map<Id, nat>, p: Id, c: Id)
    requires p in children && c in index && forall q :: q in children ==> Indexed(children[q], index)
    requires Unlisted(children, c)
    ensures forall q :: q in children ==> Indexed(children[p := children[p] + [c]][q], index[c := |children[p]|])
  {
    var children' := children[p := children[p] + [c]];
    var index' := index[c := |children[p]|];
    forall q | q in children
      ensures Indexed(children'[q], index')
    {
      forall k | 0 <= k < |children'[q]|
        ensures children'[q][k] in index' && index'[children'[q][k]] == k
      {
        if q != p || k < |children[p]| {
          assert children'[q][k] == children[q][k];
        }
      }
    }
  }

  /** Replacing `p`'s list as in `ListReplaced` keeps the tree well formed. */
  lemma ReplaceKeeps(children: map<Id, seq<Id>>, parent: map<Id, Option<Id>>, index: map<Id, nat>, nextId: Id,
                     rank: map<Id, nat>, p: Id, cs: seq<Id>, ix: map<Id, nat>)
    requires Shaped(children, parent, index, nextId) && Linked(children, parent, index, rank)
    requires p in children && forall k :: 0 <= k < |cs| ==> cs[k] in children[p]
    requires Indexed(cs, ix) && ix.Keys == index.Keys
    requires forall x :: x in index && x !in children[p] ==> ix[x] == index[x]
    ensures children[p := cs].Keys == children.Keys
    ensures Shaped(children[p := cs], parent, ix, nextId) && Linked(children[p := cs], parent, ix, rank)
  {
    ListReplaced(children, index, parent, rank, p, cs, ix);
  }

  /** `setIndex` on the parent's list: the move keeps the tree well formed. */
  method Reorder(children: map<Id, seq<Id>>, parent: map<Id, Option<Id>>, index: map<Id, nat>, nextId: Id,
                 ghost rank: map<Id, nat>, p: Id, a: nat, b: nat) returns (cs: seq<Id>, ix: map<Id, nat>)
    requires Shaped(children, parent, index, nextId) && Linked(children, parent, index, rank)
    requires p in children && a < |children[p]| && b < |children[p]|
    ensures cs == MoveTo(children[p], a, b) && children[p][a] in ix && ix[children[p][a]] == b
    ensures Shaped(children[p := cs], parent, ix, nextId) && Linked(children[p := cs], parent, ix, rank)
    ensures forall x :: x in index && x !in children[p] ==> x in ix && ix[x] == index[x]
  {
    var s := children[p];
    cs, ix := MoveChild(s, index, a, b);
    MoveToPermutes(s, a, b);
    forall k | 0 <= k < |cs|
      ensures cs[k] in s
    {
      assert cs[k] in multiset(cs);
    }
    ReplaceKeeps(children, parent, index, nextId, rank, p, cs, ix);
  }

  /** `removeChild` on the parent's list: taking out the entry at `a` keeps the tree well formed. */
  method Unlink(children: map<Id, seq<Id>>, parent: map<Id, Option<Id>>, index: map<Id, nat>, nextId: Id,
                ghost rank: map<Id, nat>, p: Id, a: nat) returns (cs: seq<Id>, ix: map<Id, nat>)
    requires Shaped(children, parent, index, nextId) && Linked(children, parent, index, rank)
    requires p in children && a < |children[p]|
    ensures cs == Remove(children[p], a) && Unlisted(children[p := cs], children[p][a])
    ensures Shaped(children[p := cs], parent, ix, nextId) && Linked(children[p := cs], parent, ix, rank)
    ensures forall x :: x in index && x !in children[p] ==> x in ix && ix[x] == index[x]
  {
    var s := children[p];
    cs, ix := RemoveAt(s, index, a);
    ReplaceKeeps(children, parent, index, nextId, rank, p, cs, ix);
    RemoveChildAsWrittenKeepsChild(s, s[a], a);
  }

  // ---------------------------------------------------------------------------
  // Flags

  /** `m_isVisible`, `m_transformChanged`, `m_isColorTransparent`, `m_isTextureTransparent`. */
  datatype Flags = Flags(visible: bool, transformChanged: bool, colorTransparent: bool, textureTransparent: bool)

  /** The flags with `visible` set to `v` on the elements in `s` and everything else kept. */
  function Shown(m: map<Id, Flags>, s: set<Id>, v: bool): (r: map<Id, Flags>)
    ensures r.Keys == m.Keys
    ensures forall x :: x in m ==> r[x].visible == (if x in s then v else m[x].visible)
    ensures forall x :: x in m ==> r[x].(visible := m[x].visible) == m[x]
  {
    map x | x in m :: if x in s then m[x].(visible := v) else m[x]
  }

  /** Showing or hiding two sets in turn does it to their union. */
  lemma ShownTwice(m: map<Id, Flags>, s: set<Id>, t: set<Id>, v: bool)
    ensures Shown(Shown(m, s, v), t, v) == Shown(m, s + t, v)
  {
  }

  /** The flags with `transformChanged` set on the elements in `s` and everything else kept. */
  function Dirtied(m: map<Id, Flags>, s: set<Id>): (r: map<Id, Flags>)
    ensures r.Keys == m.Keys
    ensures forall x :: x in m ==> r[x].transformChanged == (x in s || m[x].transformChanged)
    ensures forall x :: x in m ==> r[x].(transformChanged := m[x].transformChanged) == m[x]
  {
    map x | x in m :: if x in s then m[x].(transformChanged := true) else m[x]
  }

  /** Marking two sets in turn marks their union. */
  lemma DirtiedTwice(m: map<Id, Flags>, s: set<Id>, t: set<Id>)
    ensures Dirtied(Dirtied(m, s), t) == Dirtied(m, s + t)
  {
  }

  /** One more child's subtree shown extends the shown part of `e`'s subtree by one child. */
  lemma ShownStep(m: map<Id, Flags>, children: map<Id, seq<Id>>, rank: map<Id, nat>, e: Id, i: nat, v: bool)
    requires Ranked(children, rank) && e in children && i < |children[e]|
    ensures Shown(Shown(m, {e} + Below(children, rank, e, i), v), Subtree(children, rank, children[e][i]), v) ==
            Shown(m, {e} + Below(children, rank, e, i + 1), v)
  {
    ShownTwice(m, {e} + Below(children, rank, e, i), Subtree(children, rank, children[e][i]), v);
    assert {e} + Below(children, rank, e, i) + Subtree(children, rank, children[e][i]) == {e} + Below(children, rank, e, i + 1);
  }

  /** One more child's subtree marked extends the marked part of `e`'s subtree by one child. */
  lemma DirtiedStep(m: map<Id, Flags>, children: map<Id, seq<Id>>, rank: map<Id, nat>, e: Id, i: nat)
    requires Ranked(children, rank) && e in children && i < |children[e]|
    ensures Dirtied(Dirtied(m, {e} + Below(children, rank, e, i)), Subtree(children, rank, children[e][i])) ==
            Dirtied(m, {e} + Below(children, rank, e, i + 1))
  {
    DirtiedTwice(m, {e} + Below(children, rank, e, i), Subtree(children, rank, children[e][i]));
    assert {e} + Below(children, rank, e, i) + Subtree(children, rank, children[e][i]) == {e} + Below(children, rank, e, i + 1);
  }

  /**
   * `setVisible` with `recursive` set, on the flags of every element: the element, then
   * each child's subtree in turn.
   */
  method ShowBelow(children: map<Id, seq<Id>>, ghost rank: map<Id, nat>, flags: map<Id, Flags>, e: Id, v: bool)
    returns (r: map<Id, Flags>)
    requires Ranked(children, rank) && e in children && forall x :: x in children ==> x in flags
    decreases rank[e]
    ensures r == Shown(flags, Subtree(children, rank, e), v)
  {
    r := flags[e := flags[e].(visible := v)];
    assert r == Shown(flags, {e}, v);
    var i := 0;
    while i < |children[e]|
      invariant i <= |children[e]|
      invariant r == Shown(flags, {e} + Below(children, rank, e, i), v)
    {
      ShownStep(flags, children, rank, e, i, v);
      r := ShowBelow(children, rank, r, children[e][i], v);
      i := i + 1;
    }
  }

  /** `markTransformDirty` on the flags of every element: the element, then each child's subtree. */
  method DirtyBelow(children: map<Id, seq<Id>>, ghost rank: map<Id, nat>, flags: map<Id, Flags>, e: Id)
    returns (r: map<Id, Flags>)
    requires Ranked(children, rank) && e in children && forall x :: x in children ==> x in flags
    decreases rank[e]
    ensures r == Dirtied(flags, Subtree(children, rank, e))
  {
    r := flags[e := flags[e].(transformChanged := true)];
    assert r == Dirtied(flags, {e});
    var i := 0;
    while i < |children[e]|
      invariant i <= |children[e]|
      invariant r == Dirtied(flags, {e} + Below(children, rank, e, i))
    {
      DirtiedStep(flags, children, rank, e, i);
      r := DirtyBelow(children, rank, r, children[e][i]);
      i := i + 1;
    }
  }

  /** Every element has flags, and only elements do. */
  ghost predicate Covered(flags: map<Id, Flags>, nextId: Id)
  {
    forall e: Id :: e in flags <==> e < nextId
  }

  /** `isTransparent`: transparent through its colour or its texture. */
  predicate Transparent(f: Flags)
  {
    f.colorTransparent || f.textureTransparent
  }

  /** `setColor`: the colour counts as transparent when its alpha is below 1 by more than `FLT_EPSILON`. */
  function WithAlpha(f: Flags, alpha: real): (r: Flags)
    ensures r.colorTransparent <==> alpha < 1.0 - FltEpsilon
    ensures Transparent(r) <==> alpha < 1.0 - FltEpsilon || f.textureTransparent
    ensures r.(colorTransparent := f.colorTransparent) == f
  {
    f.(colorTransparent := alpha < 1.0 - FltEpsilon)
  }

  /** An opaque colour leaves the element opaque unless its texture is transparent, and the other way round. */
  lemma AlphaDecidesColor(f: Flags, alpha: real)
    ensures alpha >= 1.0 - FltEpsilon ==> (Transparent(WithAlpha(f, alpha)) <==> f.textureTransparent)
    ensures alpha < 1.0 - FltEpsilon ==> Transparent(WithAlpha(f, alpha))
    ensures !Transparent(WithAlpha(f.(textureTransparent := false), 1.0))
  {
  }

  // ---------------------------------------------------------------------------
  // Anchors and origins

  /** `getPositionFromEnum`: the point of the unit square a position names, as (x, y). */
  function PositionFromEnum(p: UIParsers.UIPosition): (r: (real, real))
    ensures r.0 == 0.0 <==> p in {UIParsers.TopLeft, UIParsers.Left, UIParsers.BotLeft}
    ensures r.0 == 1.0 <==> p in {UIParsers.TopRight, UIParsers.Right, UIParsers.BotRight}
    ensures r.1 == 0.0 <==> p in {UIParsers.TopLeft, UIParsers.TopCenter, UIParsers.TopRight}
    ensures r.1 == 1.0 <==> p in {UIParsers.BotLeft, UIParsers.BotCenter, UIParsers.BotRight}
    ensures r.0 in {0.0, 0.5, 1.0} && r.1 in {0.0, 0.5, 1.0}
  {
    match p
    case TopLeft => (0.0, 0.0)
    case TopCenter => (0.5, 0.0)
    case TopRight => (1.0, 0.0)
    case Left => (0.0, 0.5)
    case Center => (0.5, 0.5)
    case Right => (1.0, 0.5)
    case BotLeft => (0.0, 1.0)
    case BotCenter => (0.5, 1.0)
    case BotRight => (1.0, 1.0)
  }

  /** Different positions name different points. */
  lemma PositionFromEnumInjective(p: UIParsers.UIPosition, q: UIParsers.UIPosition)
    ensures PositionFromEnum(p) == PositionFromEnum(q) ==> p == q
  {
  }

  /**
   * The elements of a UI: each `UIElement`'s fields, by element. `children` is
   * `m_children`, `parent` is `m_parent` (`None` for null), `index` is `m_index`,
   * and the flags are `m_isVisible`, `m_transformChanged`, `m_isColorTransparent` and
   * `m_isTextureTransparent`.
   */
  class UITree {
    var children: map<Id, seq<Id>>
    var parent: map<Id, Option<Id>>
    var index: map<Id, nat>
    var flags: map<Id, Flags>
    var nextId: Id
    ghost var rank: map<Id, nat>

    ghost predicate Valid()
      reads this
    {
      Shaped(children, parent, index, nextId) &&
      Covered(flags, nextId) &&
      Linked(children, parent, index, rank)
    }

    constructor()
      ensures Valid() && children == map[] && nextId == 0
    {
      children, parent, index := map[], map[], map[];
      flags := map[];
      nextId, rank := 0, map[];
    }

    /** `UIElement()`: no parent, no children, index 0, visible, nothing dirty or transparent. */
    method Create() returns (e: Id)
      requires Valid()
      modifies this
      ensures Valid() && e !in old(children) && nextId == old(nextId) + 1 && Unlisted(children, e)
      ensures children == old(children)[e := []] && parent == old(parent)[e := None]
      ensures index == old(index)[e := 0] && flags == old(flags)[e := Flags(true, false, false, false)]
    {
      e := nextId;
      CreateKeeps(children, parent, index, nextId, rank);
      children, parent, index := children[e := []], parent[e := None], index[e := 0];
      flags := flags[e := Flags(true, false, false, false)];
      nextId, rank := nextId + 1, rank[e := 0];
    }

    /**
     * `addChild`: `c` goes at the end of `p`'s list, names `p` as its parent and takes its
     * position as its index. The child must be in no list, and `p` must not lie below it.
     */
    method AddChild(p: Id, c: Id)
      requires Valid() && p in children && c in children && Unlisted(children, c)
      requires p !in Subtree(children, rank, c)
      modifies this
      ensures Valid()
      ensures children == old(children)[p := old(children[p]) + [c]]
      ensures parent == old(parent)[c := Some(p)] && index == old(index)[c := |old(children[p])|]
      ensures flags == old(flags)
      ensures nextId == old(nextId)
    {
      rank := AddKeeps(children, parent, index, nextId, rank, p, c);
      index := index[c := |children[p]|];
      children := children[p := children[p] + [c]];
      parent := parent[c := Some(p)];
    }

    /**
     * `removeChild` with the guard its comment describes: when `c` sits at its index in
     * `p`'s list it is taken out and the later children move down; otherwise nothing
     * changes. The child keeps `p` as its parent.
     */
    method RemoveChild(p: Id, c: Id)
      requires Valid() && p in children && c in children
      modifies this
      ensures Valid() && rank == old(rank) && nextId == old(nextId)
      ensures old(c in children[p]) ==> children == old(children)[p := Remove(old(children[p]), old(index[c]))]
      ensures old(c in children[p]) ==> Unlisted(children, c)
      ensures old(c !in children[p]) ==> children == old(children) && index == old(index)
      ensures forall x :: x in index && x !in old(children[p]) ==> index[x] == old(index[x])
      ensures parent == old(parent) && flags == old(flags)
    {
      var i := index[c];
      if i >= |children[p]| || children[p][i] != c {
        return;
      }
      var cs, ix := Unlink(children, parent, index, nextId, rank, p, i);
      children := children[p := cs];
      index := ix;
    }

    /**
     * `setIndex`: with a parent and `idx` inside its list, the element moves from its index
     * to `idx` and the siblings between shift one place, every sibling's index following
     * its position; otherwise nothing changes. The element must still be in its parent's
     * list.
     */
    method SetIndex(e: Id, idx: nat)
      requires Valid() && e in children
      requires parent[e].Some? ==> e in children[parent[e].value]
      modifies this
      ensures Valid() && rank == old(rank) && nextId == old(nextId)
      ensures old(parent[e].None? || idx >= |children[parent[e].value]|) ==>
        children == old(children) && index == old(index)
      ensures old(parent[e].Some? && idx < |children[parent[e].value]|) ==>
        var p := old(parent[e].value);
        children == old(children)[p := MoveTo(old(children[p]), old(index[e]), idx)] && index[e] == idx
      ensures forall x :: x in index && (old(parent[e]).None? || x !in old(children[parent[e].value])) ==> index[x] == old(index[x])
      ensures parent == old(parent) && flags == old(flags)
    {
      if parent[e].None? {
        return;
      }
      var p := parent[e].value;
      if idx >= |children[p]| {
        return;
      }
      var cs, ix := Reorder(children, parent, index, nextId, rank, p, index[e], idx);
      children := children[p := cs];
      index := ix;
    }

    /** `moveToFront`: with a parent, the element goes to the end of its parent's list. */
    method MoveToFront(e: Id)
      requires Valid() && e in children
      requires parent[e].Some? ==> e in children[parent[e].value]
      modifies this
      ensures Valid() && parent == old(parent) && flags == old(flags)
      ensures parent[e].Some? ==> var s := children[parent[e].value]; |s| > 0 && s[|s| - 1] == e && index[e] == |s| - 1
      ensures parent[e].Some? ==> var p := parent[e].value;
        children == old(children)[p := MoveTo(old(children[p]), old(index[e]), |old(children[p])| - 1)]
      ensures forall x :: x in index && x in old(index) && (parent[e].None? || x !in old(children[parent[e].value])) ==>
        index[x] == old(index[x])
      ensures parent[e].None? ==> children == old(children) && index == old(index)
      ensures rank == old(rank) && nextId == old(nextId)
    {
      if parent[e].Some? {
        var n := |children[parent[e].value]|;
        SetIndex(e, n - 1);
      }
    }

    /** `moveToBack`: with a parent, the element goes to the start of its parent's list. */
    method MoveToBack(e: Id)
      requires Valid() && e in children
      requires parent[e].Some? ==> e in children[parent[e].value]
      modifies this
      ensures Valid() && parent == old(parent) && flags == old(flags)
      ensures parent[e].Some? ==> var s := children[parent[e].value]; |s| > 0 && s[0] == e && index[e] == 0
      ensures parent[e].Some? ==> var p := parent[e].value;
        children == old(children)[p := MoveTo(old(children[p]), old(index[e]), 0)]
      ensures forall x :: x in index && x in old(index) && (parent[e].None? || x !in old(children[parent[e].value])) ==>
        index[x] == old(index[x])
      ensures parent[e].None? ==> children == old(children) && index == old(index)
      ensures rank == old(rank) && nextId == old(nextId)
    {
      SetIndex(e, 0);
    }

    /**
     * `setVisible`: the element, and with `recursive` everything below it, takes the
     * visibility `v`; nothing else changes.
     */
    method SetVisible(e: Id, v: bool, recursive: bool)
      requires Valid() && e in children
      modifies this
      ensures Valid()
      ensures children == old(children) && parent == old(parent) && index == old(index)
      ensures rank == old(rank) && nextId == old(nextId)
      ensures flags == Shown(old(flags), if recursive then Subtree(children, rank, e) else {e}, v)
    {
      if recursive {
        flags := ShowBelow(children, rank, flags, e, v);
      } else {
        flags := flags[e := flags[e].(visible := v)];
        assert flags == Shown(old(flags), {e}, v);
      }
    }

    /** `markTransformDirty`: the element and everything below it need their transforms updated. */
    method MarkTransformDirty(e: Id)
      requires Valid() && e in children
      modifies this
      ensures Valid()
      ensures children == old(children) && parent == old(parent) && index == old(index)
      ensures rank == old(rank) && nextId == old(nextId)
      ensures flags == Dirtied(old(flags), Subtree(children, rank, e))
    {
      flags := DirtyBelow(children, rank, flags, e);
    }

    /** `setColor`: only the alpha matters to the model; it decides colour transparency. */
    method SetColor(e: Id, alpha: real)
      requires Valid() && e in children
      modifies this
      ensures Valid() && flags == old(flags)[e := WithAlpha(old(flags[e]), alpha)]
      ensures IsTransparent(e) <==> alpha < 1.0 - FltEpsilon || old(flags[e].textureTransparent)
      ensures children == old(children) && parent == old(parent) && index == old(index)
      ensures rank == old(rank) && nextId == old(nextId)
    {
      flags := flags[e := WithAlpha(flags[e], alpha)];
    }

    /** `setTransparent`: the texture counts as transparent or not. */
    method SetTransparent(e: Id, t: bool)
      requires Valid() && e in children
      modifies this
      ensures Valid() && flags == old(flags)[e := old(flags[e]).(textureTransparent := t)]
      ensures IsTransparent(e) <==> t || old(flags[e].colorTransparent)
      ensures children == old(children) && parent == old(parent) && index == old(index)
      ensures rank == old(rank) && nextId == old(nextId)
    {
      flags := flags[e := flags[e].(textureTransparent := t)];
    }

    /** `isVisible`. */
    predicate IsVisible(e: Id)
      reads this
      requires e in flags
    {
      flags[e].visible
    }

    /** `isTransparent`. */
    predicate IsTransparent(e: Id)
      reads this
      requires e in flags
    {
      Transparent(flags[e])
    }
  }
}

=== FILE: ui_parser.dfy ===
/**
 * The attribute parsers of src/UI/UIParser.cpp: booleans, integers, the nine anchor
 * positions and colours (hex, vector or named). The C library's `strtoul` is modelled
 * on the attribute text; the parser's trick of writing a terminator into the buffer to
 * cut a substring out is modelled by taking that substring.
 */
module UIParsers {
  import opened Wrappers
  import opened NamedColors

  // ---------------------------------------------------------------------------
  // strtoul

  /** `unsigned long` on an LP64 platform. */
  const ULongMax: nat := 0xFFFF_FFFF_FFFF_FFFF

  /** `isspace` in the "C" locale. */
  predicate IsSpace(c: char)
  {
    c == ' ' || c == '\t' || c == '\n' || c == '\U{B}' || c == '\U{C}' || c == '\r'
  }

  /** The value of a digit or letter in bases up to 36. */
  function DigitValue(c: char): (d: Option<nat>)
    ensures d.Some? ==> d.value < 36
  {
    if '0' <= c <= '9' then Some(c as nat - '0' as nat)
    else if 'a' <= c <= 'z' then Some(c as nat - 'a' as nat + 10)
    else if 'A' <= c <= 'Z' then Some(c as nat - 'A' as nat + 10)
    else None
  }

  predicate IsDigitIn(c: char, base: nat)
  {
    DigitValue(c).Some? && DigitValue(c).value < base
  }

  /** How many positions from `i` on are spaces. */
  function SpaceRun(s: string, i: nat): (n: nat)
    requires i <= |s|
    ensures i + n <= |s| && (forall k :: i <= k < i + n ==> IsSpace(s[k]))
    ensures i + n < |s| ==> !IsSpace(s[i + n])
    decreases |s| - i
  {
    if i < |s| && IsSpace(s[i]) then 1 + SpaceRun(s, i + 1) else 0
  }

  /** How many positions from `i` on are digits of `base`. */
  function DigitRun(s: string, i: nat, base: nat): (n: nat)
    requires i <= |s|
    ensures i + n <= |s| && (forall k :: i <= k < i + n ==> IsDigitIn(s[k], base))
    ensures i + n < |s| ==> !IsDigitIn(s[i + n], base)
    decreases |s| - i
  {
    if i < |s| && IsDigitIn(s[i], base) then 1 + DigitRun(s, i + 1, base) else 0
  }

  /** The value of a character known to be a digit of `base`. */
  function Digit(c: char, base: nat): (d: nat)
    requires IsDigitIn(c, base)
    ensures d < base
  {
    DigitValue(c).value
  }

  /** The number a run of digits spells, most significant first. */
  function DigitsValue(d: string, base: nat): nat
    requires forall k :: 0 <= k < |d| ==> IsDigitIn(d[k], base)
  {
    if d == [] then 0
    else
      var init := d[..|d| - 1];
      assert forall k :: 0 <= k < |init| ==> init[k] == d[k];
      Shift(DigitsValue(init, base), base, Digit(d[|d| - 1], base))
  }

  /** One more digit on the right of a number. */
  function Shift(v: nat, base: nat, d: nat): nat
  {
    v * base + d
  }

  /** Two digits spell the first times the base plus the second. */
  lemma DigitsValueTwo(t: string, base: nat)
    requires |t| == 2 && IsDigitIn(t[0], base) && IsDigitIn(t[1], base)
    ensures DigitsValue(t, base) == Digit(t[0], base) * base + Digit(t[1], base)
  {
    var u := t[..1];
    assert u == [t[0]] && u[..0] == [];
    assert DigitsValue(u, base) == Digit(t[0], base);
  }

  /** Three digits: the first two as a number, times the base, plus the third. */
  lemma DigitsValueThree(t: string, base: nat)
    requires |t| == 3 && IsDigitIn(t[0], base) && IsDigitIn(t[1], base) && IsDigitIn(t[2], base)
    ensures DigitsValue(t, base) == (Digit(t[0], base) * base + Digit(t[1], base)) * base + Digit(t[2], base)
  {
    var u := t[..2];
    assert u[0] == t[0] && u[1] == t[1];
    DigitsValueTwo(u, base);
  }

  /**
   * `strtoul(s, &end, base)`: leading spaces, an optional sign, for base 16 an optional
   * `0x` before a digit, then the longest run of digits. The result is the value and the
   * end position; with no digits it is 0 at position 0; a value beyond `ULONG_MAX` gives
   * `ULONG_MAX`; a minus sign negates modulo `ULONG_MAX + 1`.
   */
  function StrToUL(s: string, base: nat): (r: (nat, nat))
    requires 2 <= base <= 36
    ensures r.0 <= ULongMax && r.1 <= |s|
    ensures r.1 == 0 ==> r.0 == 0
  {
    var k := DigitStart(s, base);
    var n := DigitRun(s, k, base);
    if n == 0 then (0, 0)
    else (Unsigned(DigitsValue(s[k..k + n], base), Negative(s)), k + n)
  }

  /** Whether a minus sign follows the leading spaces. */
  function Negative(s: string): bool
  {
    var i := SpaceRun(s, 0);
    i < |s| && s[i] == '-'
  }

  /** Where the digits start: after the spaces, a sign, and for base 16 a `0x` before a digit. */
  function DigitStart(s: string, base: nat): (k: nat)
    ensures k <= |s|
    ensures 0 < |s| && IsDigitIn(s[0], base) && (base == 16 && 1 < |s| ==> IsDigitIn(s[1], base)) ==> k == 0
  {
    var i := SpaceRun(s, 0);
    var j := if i < |s| && (s[i] == '+' || s[i] == '-') then i + 1 else i;
    if base == 16 && j + 2 < |s| && s[j] == '0' && (s[j + 1] == 'x' || s[j + 1] == 'X')
       && IsDigitIn(s[j + 2], 16) then j + 2 else j
  }

  /** The magnitude clamped to `ULONG_MAX`, negated modulo `ULONG_MAX + 1` after a minus sign. */
  function Unsigned(magnitude: nat, negative: bool): (v: nat)
    ensures v <= ULongMax
    ensures !negative && magnitude <= ULongMax ==> v == magnitude
  {
    if ULongMax < magnitude then ULongMax
    else if negative && 0 < magnitude then ULongMax + 1 - magnitude
    else magnitude
  }

  // ---------------------------------------------------------------------------
  // Formatting, the partner of the digit parsers

  function DigitChar(d: nat): (c: char)
    requires d < 16
    ensures DigitValue(c) == Some(d)
  {
    "0123456789abcdef"[d]
  }

  /** `n` in decimal, no leading zeros. */
  function Decimal(n: nat): (s: string)
    ensures 0 < |s| && forall k :: 0 <= k < |s| ==> IsDigitIn(s[k], 10)
  {
    if n < 10 then [DigitChar(n)] else Decimal(n / 10) + [DigitChar(n % 10)]
  }

  /** `x` as two hex digits. */
  function Hex2(x: nat): (s: string)
    requires x < 256
    ensures |s| == 2 && IsDigitIn(s[0], 16) && IsDigitIn(s[1], 16)
  {
    [DigitChar(x / 16), DigitChar(x % 16)]
  }

  /** `x` as three hex digits. */
  function Hex3(x: nat): (s: string)
    requires x < 4096
    ensures |s| == 3 && IsDigitIn(s[0], 16) && IsDigitIn(s[1], 16) && IsDigitIn(s[2], 16)
  {
    [DigitChar(x / 256), DigitChar(x / 16 % 16), DigitChar(x % 16)]
  }

  lemma {:induction false} DecimalValue(n: nat)
    ensures DigitsValue(Decimal(n), 10) == n
  {
    if 10 <= n {
      DecimalValue(n / 10);
      var s := Decimal(n);
      assert s[..|s| - 1] == Decimal(n / 10);
    }
  }

  /**
   * Text that starts with `m` digits is read up to the first non-digit, as the number
   * those digits spell (for base 16 the second character must be a digit too, or the text
   * could start with a `0x` prefix).
   */
  lemma DigitsRead(s: string, m: nat, base: nat)
    requires 2 <= base <= 36 && 0 < m <= |s| && forall k :: 0 <= k < m ==> IsDigitIn(s[k], base)
    requires m < |s| ==> !IsDigitIn(s[m], base)
    requires base == 16 && 1 < |s| ==> 1 < m
    requires DigitsValue(s[..m], base) <= ULongMax
    ensures StrToUL(s, base) == (DigitsValue(s[..m], base), m)
  {
    assert DigitStart(s, base) == 0;
    DigitRunTo(s, 0, m, base);
    assert s[0..m] == s[..m];
  }

  /** The digit run from `i` ends at the first non-digit `m`. */
  lemma {:induction false} DigitRunTo(s: string, i: nat, m: nat, base: nat)
    requires i <= m <= |s| && forall k :: i <= k < m ==> IsDigitIn(s[k], base)
    requires m < |s| ==> !IsDigitIn(s[m], base)
    ensures DigitRun(s, i, base) == m - i
    decreases m - i
  {
    if i < m {
      DigitRunTo(s, i + 1, m, base);
    }
  }

  // ---------------------------------------------------------------------------
  // parse(bool), parse(int), parse(UIPosition)

  /** `std::tolower` on one character in the "C" locale. */
  function LowerChar(c: char): (l: char)
    ensures 'A' <= c <= 'Z' ==> l as int == c as int + 32
    ensures !('A' <= c <= 'Z') ==> l == c
  {
    if 'A' <= c <= 'Z' then (c as int + 32) as char else c
  }

  function Lower(s: string): (l: string)
    ensures |l| == |s| && forall k :: 0 <= k < |s| ==> l[k] == LowerChar(s[k])
  {
    seq(|s|, k requires 0 <= k < |s| => LowerChar(s[k]))
  }

  /**
   * `parse(attr, bool&)`: "true" or "false" in any letter case; anything else fails and
   * leaves the output alone.
   */
  function ParseBool(s: string): (r: Option<bool>)
    ensures r == Some(true) <==> Lower(s) == "true"
    ensures r == Some(false) <==> Lower(s) == "false"
  {
    var l := Lower(s);
    if l == "true" then Some(true) else if l == "false" then Some(false) else None
  }

  /** Any spelling of the two words, in any case, reads back as its value. */
  lemma ParseBoolCases(b: bool)
    ensures ParseBool(if b then "true" else "false") == Some(b)
    ensures ParseBool(if b then "TRUE" else "False") == Some(b)
    ensures ParseBool("yes") == None && ParseBool("") == None
  {
    assert Lower("TRUE") == "true";
    assert Lower("False") == "false";
    assert Lower("yes") != "true" && Lower("yes") != "false";
  }

  /** The conversion of an `unsigned long` to a 32-bit `int`: the low 32 bits, two's complement. */
  function ToInt32(x: nat): (v: int)
    ensures -0x8000_0000 <= v < 0x8000_0000
    ensures (v - x) % 0x1_0000_0000 == 0
  {
    var low := x % 0x1_0000_0000;
    if low < 0x8000_0000 then low else low - 0x1_0000_0000
  }

  /**
   * `parse(attr, int&)`: the output is always written with the converted `strtoul`
   * result; success means the digits ran to the end of the text.
   */
  function ParseInt(s: string): (r: (bool, int))
    ensures r.0 <==> StrToUL(s, 10).1 == |s|
    ensures -0x8000_0000 <= r.1 < 0x8000_0000
  {
    var read := StrToUL(s, 10);
    (read.1 == |s|, ToInt32(read.0))
  }

  /** A number written in decimal reads back whole and unchanged. */
  lemma ParseIntDecimal(n: nat)
    requires n < 0x8000_0000
    ensures ParseInt(Decimal(n)) == (true, n)
  {
    var s := Decimal(n);
    DecimalValue(n);
    assert s[..|s|] == s;
    DigitsRead(s, |s|, 10);
    ToInt32Small(n);
  }

  /** A value below 2^31 keeps its value in 32 bits. */
  lemma ToInt32Small(x: nat)
    requires x < 0x8000_0000
    ensures ToInt32(x) == x
  {
    assert x % 0x1_0000_0000 == x;
  }

  /** An empty attribute succeeds with 0, since `strtoul` leaves the end at the terminator. */
  lemma ParseIntEmpty()
    ensures ParseInt("") == (true, 0)
  {
  }

  /** Text after the digits, such as a unit, makes the parse fail, though the number is still stored. */
  lemma ParseIntTrailing(n: nat, t: string)
    requires n < 0x8000_0000 && 0 < |t| && !IsDigitIn(t[0], 10)
    ensures ParseInt(Decimal(n) + t) == (false, n)
  {
    var d := Decimal(n);
    var s := d + t;
    DecimalValue(n);
    assert s[..|d|] == d;
    DigitsRead(s, |d|, 10);
    ToInt32Small(n);
  }

  /** `UIPosition`. */
  datatype UIPosition = TopLeft | TopCenter | TopRight | Left | Center | Right | BotLeft | BotCenter | BotRight

  /** The attribute spelling of each position. */
  function PositionName(p: UIPosition): string
  {
    match p
    case TopLeft => "top_left"
    case TopCenter => "top_center"
    case TopRight => "top_right"
    case Left => "left"
    case Center => "center"
    case Right => "right"
    case BotLeft => "bot_left"
    case BotCenter => "bot_center"
    case BotRight => "bot_right"
  }

  /** `parse(attr, UIPosition&)`: exactly the nine names, compared case-sensitively. */
  function ParsePosition(s: string): (r: Option<UIPosition>)
    ensures r.Some? ==> PositionName(r.value) == s
  {
    if s == "top_left" then Some(TopLeft)
    else if s == "top_center" then Some(TopCenter)
    else if s == "top_right" then Some(TopRight)
    else if s == "left" then Some(Left)
    else if s == "center" then Some(Center)
    else if s == "right" then Some(Right)
    else if s == "bot_left" then Some(BotLeft)
    else if s == "bot_center" then Some(BotCenter)
    else if s == "bot_right" then Some(BotRight)
    else None
  }

  /** Every position's name parses back to it, so the parse fails exactly off the nine names. */
  lemma ParsePositionRoundTrip(p: UIPosition, s: string)
    ensures ParsePosition(PositionName(p)) == Some(p)
    ensures ParsePosition(s).None? <==> forall q :: PositionName(q) != s
  {
    if ParsePosition(s).None? {
      forall q
        ensures PositionName(q) != s
      {
        assert ParsePosition(PositionName(q)) == Some(q);
      }
    }
  }

  // ---------------------------------------------------------------------------
  // Colours

  /** `Vector4f` with channels in [0, 1] when they come from bytes. */
  datatype Color = Color(r: real, g: real, b: real, a: real)

  /**
   * A whole hex field: all of `t` must be read by `strtoul` in base 16, and the value is
   * stored in a `Uint32`, keeping its low 32 bits.
   */
  function HexField(t: string): (v: Option<nat>)
    ensures v.Some? <==> StrToUL(t, 16).1 == |t|
    ensures v.Some? ==> v.value < 0x1_0000_0000
  {
    var read := StrToUL(t, 16);
    if read.1 == |t| then Some(read.0 % 0x1_0000_0000) else None
  }

  /** A channel value over 255, as `x / 255.0f`. */
  function Channel(x: nat): real
  {
    x as real / 255.0
  }

  /**
   * The hex branch of `parseColor` as written: at least 7 characters after a `#`; red,
   * green from the pairs at 1 and 3; blue from 5 up to 7 when the text has 9 characters
   * and up to the end otherwise; alpha from 7 on only at 9 characters, else 255.
   */
  function HexColorAsWritten(c: string): (r: Option<Color>)
    requires 0 < |c| && c[0] == '#'
    ensures r.Some? ==> 7 <= |c|
  {
    if |c| < 7 then None
    else
      var r :- HexField(c[1..3]);
      var g :- HexField(c[3..5]);
      var b :- HexField(if |c| == 9 then c[5..7] else c[5..]);
      var a :- if |c| == 9 then HexField(c[7..]) else Some(255);
      Some(Color(Channel(r), Channel(g), Channel(b), Channel(a)))
  }

  /** The fields the hex branch reads decide the colour it gives. */
  lemma HexColorOfFields(c: string, r: nat, g: nat, b: nat, a: nat)
    requires 7 <= |c| && c[0] == '#'
    requires HexField(c[1..3]) == Some(r) && HexField(c[3..5]) == Some(g)
    requires HexField(if |c| == 9 then c[5..7] else c[5..]) == Some(b)
    requires |c| != 9 ==> a == 255
    requires |c| == 9 ==> HexField(c[7..]) == Some(a)
    ensures HexColorAsWritten(c) == Some(Color(Channel(r), Channel(g), Channel(b), Channel(a)))
  {
  }

  /**
   * Eight characters pass the length test, and blue is read from the last three hex
   * digits, so it can exceed 255 and the channel exceeds 1; the seven-or-nine test refuses
   * the text.
   */
  lemma HexColorAsWrittenTakesEight(r: nat, g: nat, b: nat)
    requires r < 256 && g < 256 && 256 <= b < 4096
    ensures HexColorAsWritten("#" + Hex2(r) + Hex2(g) + Hex3(b)) == Some(Color(Channel(r), Channel(g), Channel(b), 1.0))
    ensures 1.0 < Channel(b)
    ensures HexColor("#" + Hex2(r) + Hex2(g) + Hex3(b)) == None
  {
    var c := "#" + Hex2(r) + Hex2(g) + Hex3(b);
    assert c[1..3] == Hex2(r) && c[3..5] == Hex2(g) && c[5..] == Hex3(b);
    HexByte(r);
    HexByte(g);
    HexTriple(b);
    HexColorOfFields(c, r, g, b, 255);
  }

  /** Three hex digits read back as the number they encode. */
  lemma HexTriple(x: nat)
    requires x < 4096
    ensures HexField(Hex3(x)) == Some(x)
  {
    var t := Hex3(x);
    DigitsValueThree(t, 16);
    var q := x / 16;
    assert x == q * 16 + x % 16 && q == (q / 16) * 16 + q % 16 && q / 16 == x / 256;
    assert DigitsValue(t, 16) == x;
    HexFieldOfDigits(t, x);
  }

  /** Hex digits alone are read whole, as the number they spell. */
  lemma HexFieldOfDigits(t: string, x: nat)
    requires 0 < |t| && forall k :: 0 <= k < |t| ==> IsDigitIn(t[k], 16)
    requires x == DigitsValue(t, 16) && x < 0x1_0000_0000
    ensures HexField(t) == Some(x)
  {
    assert t[..|t|] == t;
    DigitsRead(t, |t|, 16);
    HexFieldWhole(t, x);
  }

  /** A field `strtoul` reads to its end is stored whole when it fits 32 bits. */
  lemma HexFieldWhole(t: string, x: nat)
    requires StrToUL(t, 16) == (x, |t|) && x < 0x1_0000_0000
    ensures HexField(t) == Some(x)
  {
    assert x % 0x1_0000_0000 == x;
  }

  /** The hex branch with the length test the two formats call for: exactly 7 or 9 characters. */
  function HexColor(c: string): (r: Option<Color>)
    requires 0 < |c| && c[0] == '#'
    ensures r.Some? ==> |c| == 7 || |c| == 9
    ensures r.Some? ==> r == HexColorAsWritten(c)
  {
    if |c| != 7 && |c| != 9 then None else HexColorAsWritten(c)
  }

  /** `#rrggbb` reads back as the opaque colour it encodes. */
  lemma HexColorRoundTrip(r: nat, g: nat, b: nat)
    requires r < 256 && g < 256 && b < 256
    ensures HexColor("#" + Hex2(r) + Hex2(g) + Hex2(b)) == Some(Color(Channel(r), Channel(g), Channel(b), 1.0))
  {
    var c := "#" + Hex2(r) + Hex2(g) + Hex2(b);
    assert c[1..3] == Hex2(r) && c[3..5] == Hex2(g) && c[5..] == Hex2(b);
    HexByte(r);
    HexByte(g);
    HexByte(b);
    HexColorOfFields(c, r, g, b, 255);
  }

  /** `#rrggbbaa` reads back as the colour it encodes, alpha included. */
  lemma HexColorAlphaRoundTrip(r: nat, g: nat, b: nat, a: nat)
    requires r < 256 && g < 256 && b < 256 && a < 256
    ensures HexColor("#" + Hex2(r) + Hex2(g) + Hex2(b) + Hex2(a)) == Some(Color(Channel(r), Channel(g), Channel(b), Channel(a)))
  {
    var c := "#" + Hex2(r) + Hex2(g) + Hex2(b) + Hex2(a);
    assert c[1..3] == Hex2(r) && c[3..5] == Hex2(g) && c[5..7] == Hex2(b) && c[7..] == Hex2(a);
    HexByte(r);
    HexByte(g);
    HexByte(b);
    HexByte(a);
    HexColorOfFields(c, r, g, b, a);
  }

  /** Two hex digits read back as the byte they encode. */
  lemma HexByte(x: nat)
    requires x < 256
    ensures HexField(Hex2(x)) == Some(x)
  {
    var t := Hex2(x);
    DigitsValueTwo(t, 16);
    assert DigitsValue(t, 16) == x;
    HexFieldOfDigits(t, x);
  }

  // ---------------------------------------------------------------------------
  // Named colours and the colour parser

  /**
   * `getNamedColor`: a known name gives its bytes over 255, fully opaque; an unknown
   * name fails.
   */
  function NamedColor(name: string): (r: Option<Color>)
    ensures r.Some? <==> NamedRgb(name).Some?
    ensures r.Some? ==> 0.0 <= r.value.r <= 1.0 && 0.0 <= r.value.g <= 1.0 && 0.0 <= r.value.b <= 1.0
    ensures r.Some? ==> r.value.a == 1.0
  {
    match NamedRgb(name)
    case None => None
    case Some(c) => Some(Color(Channel(c.r), Channel(c.g), Channel(c.b), 1.0))
  }

  /**
   * `parseColor`: text starting with `#` is a hex colour and nothing else; other text is
   * tried as four numbers, then three (opaque), then as a name. The two numeric parses
   * are not part of this model and come in as their results.
   */
  function ParseColor(c: string, asVec4: Option<Color>, asVec3: Option<(real, real, real)>): (r: Option<Color>)
    ensures 0 < |c| && c[0] == '#' ==> r == HexColor(c)
    ensures !(0 < |c| && c[0] == '#') && asVec4.Some? ==> r == asVec4
    ensures !(0 < |c| && c[0] == '#') && asVec4.None? && asVec3.Some? ==>
      r == Some(Color(asVec3.value.0, asVec3.value.1, asVec3.value.2, 1.0))
    ensures !(0 < |c| && c[0] == '#') && asVec4.None? && asVec3.None? ==> r == NamedColor(c)
  {
    if 0 < |c| && c[0] == '#' then HexColor(c)
    else if asVec4.Some? then asVec4
    else if asVec3.Some? then Some(Color(asVec3.value.0, asVec3.value.1, asVec3.value.2, 1.0))
    else NamedColor(c)
  }

  /** A hex colour is read from its text alone, and a name like "red" falls through to the table. */
  lemma ParseColorFormats(r: nat, g: nat, b: nat, v4: Option<Color>, v3: Option<(real, real, real)>)
    requires r < 256 && g < 256 && b < 256
    ensures ParseColor("#" + Hex2(r) + Hex2(g) + Hex2(b), v4, v3) == Some(Color(Channel(r), Channel(g), Channel(b), 1.0))
    ensures ParseColor("red", None, None) == Some(Color(1.0, 0.0, 0.0, 1.0))
  {
    HexColorRoundTrip(r, g, b);
    assert Reds("red") == Some(Rgb(255, 0, 0));
  }
}

=== FILE: wrappers.dfy ===
/** Failure-compatible result types shared by the modules of this model. */
module Wrappers {

  datatype Option<+T> = None | Some(value: T) {
    predicate IsFailure() { None? }

    function PropagateFailure<U>(): Option<U>
      requires None?
    {
      None
    }

    function Extract(): T
      requires Some?
    {
      value
    }
  }

  datatype Result<+R, +E> = Ok(value: R) | Err(error: E) {
    predicate IsFailure() { Err? }

    function PropagateFailure<U>(): Result<U, E>
      requires Err?
    {
      Err(error)
    }

    function Extract(): R
      requires Ok?
    {
      value
    }
  }
}
